=== FILE: README.md ===
# entitygraph in Dafny

entitygraph builds a graph of the entities of a data source. An entity is a
table of a Postgres database or a file (or partitioned directory) of a file
store. Edges link entities that can be joined. They come from declared foreign
keys or from naming heuristics: a table `customers` is expected to be referred
to by a column `customer_id`. This project models that engine as pure
functions over in-memory lists and proves what it promises.

The model covers these parts:

- **`Entity` record** (`Entities`): a fresh entity, its columns, the
  primary-key-candidate guard and the cached sample.
- **`FileProvider` and `StorageFormat` enumerations** (`Enums`).
- **Postgres source** (`Postgres`):
  - grouping `information_schema.columns` rows into one entity per table, with
    system schemas skipped;
  - resolving foreign-key rows to `(referencing entity, referenced entity,
    column)` triples, with rows that do not resolve skipped.
- **File source** (`Files`): the constructor's provider-prefix check,
  source-path assembly and caching, the three listing filters, and identifier
  stripping.
- **The graph** (`EntityGraph`): nodes are positions in the source's entity
  list. Entities have no equality of their own, so a position is exactly a
  node. Edges map an unordered pair of positions to a flat attribute map:
  `"<identifier>_key"` gives a join column and `from_schema` gives the
  provenance. `EntityGraph` also holds the identifier-only export view.
- **Relational build** (`RelationalBuild`):
  - nodes, then the schema edges, then the naming heuristic;
  - the heuristic merges into an existing edge and flips its provenance;
  - every inferred edge carries the keys of a match: the candidate column on
    the table that holds it and `id` on the other;
  - a built flag makes a second build a no-op.
- **Filesystem build and dispatch** (`FilesystemBuild`): the containment
  heuristic and the `build_graph` dispatch.
- **Warehouse example** (`Warehouse`, `PathFinder`):
  - the `date_columns` annotation;
  - the `link_on` network of tables that share a key column ending in `ID`;
  - the breadth-first path finder, which keeps a best path and every
    alternative for each node.

Python string operations (`split`, `join`, `in`, `startswith`, `endswith`) are
modelled in `Strings` over `seq<char>`. `Seqs` holds duplicate removal,
filtering and the order-preserving sublist relation. `Wrappers` holds `Option` and `Result`.

Where the code does something the design evidently did not intend, the model
keeps both versions. An "as written" member reproduces the code, and a
corrected member is the one the rest of the model uses (see "## Findings").
Where the documentation and the code differ, the model follows the code. The relational heuristic's merge sets `from_schema` to False
on a schema edge, and the model does so too.

Two behaviours of the code are reproduced only by the "as written" members.
The members the rest of the model uses are the corrected ones:

- As written, the filesystem heuristic adds no edge at all
  (`FilesystemBuild.FileLinksAsWritten`). `FilesystemBuild.BuildFilesystem`
  and `FilesystemBuild.BuildGraph` run the corrected pass
  `FilesystemBuild.FileLinks`.
- As written, a local file's identifier is only its first directory
  (`Files.IdentifierAsWritten`). `Files.ListEntities` and `Files.GetEntities`
  strip the provider prefix with the corrected `Files.StripProvider`.

## Model

| member | source | states |
|---|---|---|
| Enums.ProviderValuesContainSlash | entitygraph/enums.py:5-9 | every provider prefix (`/`, `s3://`, `gs://`, `abfs://`) contains a slash, and every provider is among the members the constructor enumerates |
| Entities.NewEntity | entitygraph/entity.py:10-30 | a new entity stores its identifier, columns and type map as given, with no primary key, no candidates, no date keys and no sample |
| Entities.ColumnsOfNewEntity | entitygraph/entity.py:52-53 | `get_columns` gives back exactly the columns the entity was built with |
| Entities.ExtractPkCandidates | entitygraph/entity.py:37-43 | with a primary key set, the call changes nothing; without one it fails (the column check it calls does not exist) exactly when there is a column to check |
| Entities.GetSample | entitygraph/entity.py:58-66 | the result is the cached sample when there is one, otherwise the fetched sample, which is then cached; nothing else about the entity changes |
| Entities.SampleIsCached | entitygraph/entity.py:63-66 | once a sample is cached, a later call returns it whatever the source would now return |
| Postgres.InsertKey | entitygraph/sources.py:125-126 | inserting a group key into a sorted key list keeps it sorted and adds exactly that key |
| Postgres.GroupKeys | entitygraph/sources.py:125-126 | the group-by keys are sorted as pandas sorts them, and they are exactly the `(catalog, schema, table)` triples of the rows |
| Postgres.GroupColumns | entitygraph/sources.py:130-141 | a group's columns hold no duplicate, they are exactly the column names of the rows with that key, and they keep the rows' order of first appearance (`unique()`): an order-preserving sublist in which each name first occurs before the ones after it |
| Postgres.EntityKeys | entitygraph/sources.py:125-129 | the listed keys are exactly the row keys outside `information_schema` and `pg_catalog` |
| Postgres.TableEntity | entitygraph/sources.py:130-143 | the entity of a key is named `catalog.schema.table`, and its columns are exactly that group's distinct column names in first-appearance order |
| Postgres.ListEntities | entitygraph/sources.py:125-145 | one entity per listed key, in key order |
| Postgres.GroupingIsExact | entitygraph/sources.py:125-145 | the entity keys are sorted and distinct; the column of every user-table row is held by the entity of its key, and no entity has the key of a system-schema row |
| Postgres.GetEntities | entitygraph/sources.py:111-147 | the catalog is fetched at most once; with cached entities the cache is returned, otherwise the entities grouped from the catalog rows are returned and cached |
| Postgres.EntitiesAreMemoised | entitygraph/sources.py:123-147 | once the entity list is non-empty, a later call returns the same list and state, whatever the catalog now holds |
| Postgres.FirstMatch | entitygraph/sources.py:198-205 | `list(filter(...))[0]`: the first entity passing the filter, or nothing exactly when no entity passes it |
| Postgres.ResolveRowSpec | entitygraph/sources.py:192-209 | a resolved row names the first entity of the constraint table holding the constraint column and the first entity of the referenced table; a row is skipped exactly when one of the two is missing |
| Postgres.ResolveFks | entitygraph/sources.py:190-210 | there is at most one triple per row, and every triple names listed entities and comes from some row |
| Postgres.ResolveFksAppend | entitygraph/sources.py:191-209 | rows are resolved independently: skipped rows vanish and the other triples keep the rows' order |
| Postgres.ResolvableRow | entitygraph/sources.py:192-207 | a row whose two tables are both present yields exactly one triple, which satisfies the resolution conditions |
| Postgres.GetDefinedEdges | entitygraph/sources.py:185-210 | with entities cached the state is untouched, otherwise the entities are first grouped from the catalog; the triples are the row-by-row resolution of the foreign-key rows against that list, each justified by a row |
| Files.ProviderHitsIffSlash | entitygraph/sources.py:278-281 | some provider value occurs in the root exactly when the root contains a slash |
| Files.NewFileSource | entitygraph/sources.py:260-295 | construction fails exactly when the root contains a slash (so some provider prefix); on success the root, provider, storage format, prefix, regex filter and partition flag are stored as given, with empty caches |
| Files.GetSourcePath | entitygraph/sources.py:298-307 | a cached non-empty path is returned unchanged; otherwise (nothing cached, or an empty cached path) the path is the provider value, the root and, for a non-empty prefix, `/` and the prefix, and it is cached |
| Files.FreshSourcePathSplitsBack | entitygraph/sources.py:278-307 | for a source the constructor accepts, the path it reports splits back into provider value, root and, after the first slash, the prefix |
| Files.SourcePathIsCached | entitygraph/sources.py:302-307 | a second call returns the first call's path and state |
| Files.SourcePathSplitsBack | entitygraph/sources.py:303-305 | for an accepted root, the assembled path splits back into provider value, root and, after the first slash, the prefix |
| Files.SelectEntries | entitygraph/sources.py:333-353 | an entry is kept exactly when it does not match the regex filter, ends with the storage format and, for partitioned entities, is not a file |
| Files.SelectEntriesAppend | entitygraph/sources.py:333-353 | selection works entry by entry, so listing order is kept |
| Files.IdentifierAsWritten | entitygraph/sources.py:357-360 | the code's identifier: the path itself when it lacks the provider prefix; otherwise what follows the prefix, up to the next occurrence of the provider value or to the end when there is none |
| Files.IdentifierAsWrittenKeepsFirstDirectory | entitygraph/sources.py:357-358 | with the local provider, `/data/orders.parquet` becomes `data` |
| Files.StripProvider | entitygraph/sources.py:357-360 | the corrected identifier: the provider prefix followed by it gives back the path; a path without the prefix is kept |
| Files.ListEntities | entitygraph/sources.py:355-370 | corrected identifiers: one entity per selected entry, named by its path with the provider prefix stripped, with columns read from that identifier's sample and no primary key |
| Files.GetEntities | entitygraph/sources.py:322-371 | corrected identifiers: lists once; a non-empty cached list is returned with the source unchanged, otherwise the listing's entities (one per selected entry) are cached and returned and the source path is resolved and cached on the way |
| Files.EntitiesAreMemoised | entitygraph/sources.py:326-371 | once the entity list is non-empty, a new listing is ignored |
| Strings.SplitJoin | entitygraph/graph.py:121 | `sep.join(s.split(sep)) == s`, and no piece of the split holds the separator |
| Strings.SplitAtFirst | entitygraph/graph.py:62 | splitting where the first piece holds no separator gives that piece, then the pieces of the rest |
| Strings.SplitDotted | entitygraph/graph.py:62 | `'a.b.c'.split('.')` is `[a, b, c]` for dot-free parts |
| Strings.SplitCharCount | entitygraph/graph.py:62 | splitting on a character gives one piece more than the character's occurrences, so a three-part identifier has exactly two dots |
| Strings.LastPiece | entitygraph/sources.py:199 | `s.split(sep)[-1]` holds no separator and ends `s`; it is either all of `s` or what follows a separator |
| Strings.DropLastPiece | entitygraph/graph.py:121 | `sep.join(s.split(sep)[:-1])` is empty when `s` has no separator, and otherwise followed by the separator and the last piece it gives back `s` |
| EntityGraph.Link | entitygraph/graph.py:55 | an edge endpoint pair is unordered: `Link(a, b)` holds the two ends in order |
| EntityGraph.KeyAttr | entitygraph/graph.py:56-57 | the `<identifier>_key` attribute is never the provenance attribute |
| EntityGraph.KeyAttrInjective | entitygraph/graph.py:56-57 | distinct identifiers have distinct key attributes |
| EntityGraph.EdgeAttrs | entitygraph/graph.py:55-59 | an edge's attributes are exactly the two key attributes and `from_schema`; with equal identifiers the second key wins, as in a dict literal |
| EntityGraph.AddNodes | entitygraph/graph.py:49-51 | adding the entities keeps the existing nodes in front, adds every missing entity once, and adds no duplicate |
| EntityGraph.StringNodes | entitygraph/graph.py:150-159 | the export holds one node per distinct identifier of the graph's nodes and, for each edge, exactly its endpoints' identifiers |
| RelationalBuild.SchemaAttrs | entitygraph/graph.py:55-59 | a schema edge has exactly the two key attributes and `from_schema`: the referencing entity gets the foreign-key column (unless both ends share an identifier), the referenced entity gets `id`, and `from_schema` is True |
| RelationalBuild.IngestSchema | entitygraph/graph.py:54-59 | ingesting the triples adds exactly their pairs as edges and leaves every other edge as it was |
| RelationalBuild.IngestSchemaLastWins | entitygraph/graph.py:54-59 | a pair's edge carries the attributes of the last triple for that pair |
| RelationalBuild.TableOf | entitygraph/graph.py:62 | the table of an identifier is its last dot-separated part; the tuple unpacking fails exactly when the identifier does not have exactly two dots |
| RelationalBuild.CandidateColumn | entitygraph/graph.py:63-67 | the candidate column ends in `_id`; before it comes the table with one trailing `s` removed, or the table itself |
| RelationalBuild.CandidateExamples | entitygraph/graph.py:63-67 | `customers` gives `customer_id`, `data` gives `data_id` and `s` gives `_id` |
| RelationalBuild.Touch | entitygraph/graph.py:75-89 | a new edge gets the inferred attributes; an existing edge keeps its other attributes and has all three inferred entries overwritten (`node` gets `id`, `node2` the column, `from_schema` False); no other edge changes |
| RelationalBuild.TouchExtends | entitygraph/graph.py:70-89 | an inferred write only adds or marks an edge between two distinct nodes where the second has the first's candidate column |
| RelationalBuild.TouchKeys | entitygraph/graph.py:74-89 | a match of a node's candidate column in another node leaves their pair keyed (the holder's key is the column, the other's `id`, `from_schema` False) and every other keyed pair as it was |
| RelationalBuild.ScanColumnsKeys | entitygraph/graph.py:73-89 | the column loop keeps every keyed pair, and keys the pair when the candidate column is among the columns |
| RelationalBuild.ScanTargetsKeys | entitygraph/graph.py:70-89 | the inner loop keeps every keyed pair and, when no identifier is malformed, keys every candidate pair from the node |
| RelationalBuild.ScanSourcesKeys | entitygraph/graph.py:61-89 | the outer loop keeps every keyed pair and, on success, keys every candidate pair from every node it scanned |
| RelationalBuild.OneWayCandidateKeys | entitygraph/graph.py:61-89 | when only one of two nodes holds the other's candidate column and every identifier unpacks, the build succeeds and their edge is keyed by that match |
| RelationalBuild.CustomerOrderKeys | entitygraph/graph.py:61-89 | `db.schema.customers` and `db.schema.orders` with `orders.customer_id` are joined with `customers` keyed by `id`, `orders` by `customer_id`, `from_schema` False |
| RelationalBuild.TableOfDotted | entitygraph/graph.py:62 | an identifier `database.schema.table` with dot-free parts unpacks to its table |
| RelationalBuild.ScanTargetsSpec | entitygraph/graph.py:70-89 | the inner loop fails exactly when some other node has a malformed identifier; otherwise every candidate pair from the node is marked |
| RelationalBuild.ScanSourcesSpec | entitygraph/graph.py:61-89 | the outer loop only extends the edges, fails only on a malformed identifier, and fails on one whenever it runs at all |
| RelationalBuild.InferEdges | entitygraph/graph.py:61-89 | the heuristic pass fails exactly when some node's identifier is malformed; otherwise every candidate pair of distinct nodes carries an edge marked `from_schema` False whose keys are those of a match in one of its directions (the holder's key is the candidate column, the other's is `id`), every key written before is kept, and nothing else changes |
| RelationalBuild.BuildRelational | entitygraph/graph.py:36-91 | a built graph is returned unchanged; otherwise every entity becomes a node once, after the existing nodes, the build errs (leaving the flag unset) exactly when some identifier is malformed, the edges differ from the foreign-key edges only on candidate pairs, and on success every candidate pair is keyed by a match: the holder's key is the candidate column, the other node's key is `id` |
| RelationalBuild.BuildIsIdempotent | entitygraph/graph.py:48-90 | after a successful build, building again changes neither nodes nor edges, whatever foreign keys are then reported |
| RelationalBuild.SchemaEdgesAfterBuild | entitygraph/graph.py:54-89 | after a build from an empty graph, each foreign-key pair has an edge that keeps its last schema attributes unless the heuristic also inferred it, in which case it is marked `from_schema` False |
| RelationalBuild.NoInferredSelfEdges | entitygraph/graph.py:61-89 | a self-edge after a build can only come from a foreign key: the heuristic never links a node to itself |
| FilesystemBuild.CandidateRoot | entitygraph/graph.py:121 | the root is empty for a column without `_`; otherwise the root, `_` and the last token give back the column |
| FilesystemBuild.EmptyRootMatchesEverything | entitygraph/graph.py:121 | a column without `_` has the empty root, which occurs in every identifier |
| FilesystemBuild.Hits | entitygraph/graph.py:114-121 | the nested loops test successfully exactly the (node, other node, column) triples whose column root occurs in the other node's identifier |
| FilesystemBuild.FileLinksAsWritten | entitygraph/graph.py:114-128 | as written, every successful test raises on the undefined `column` and the error is swallowed: the edges stay unchanged, and the raising hits are exactly the successful tests |
| FilesystemBuild.AsWrittenAddsNoEdge | entitygraph/graph.py:119-128 | `orders.customer_id` passes the test against `customers`, yet the code adds no edge while the corrected pass links the two |
| FilesystemBuild.HitPairIffLinked | entitygraph/graph.py:114-121 | the hits the loops produce join exactly the pairs some successful test joins, and those are pairs of distinct nodes |
| FilesystemBuild.FileLinks | entitygraph/graph.py:114-126 | corrected pass: every pair a successful test joins is marked `from_schema` False and carries the attributes some hit on it writes; new edges come only from such pairs and join distinct nodes; every other edge is unchanged |
| FilesystemBuild.BuildFilesystem | entitygraph/graph.py:103-130 | corrected pass: a built graph is returned unchanged; otherwise every entity becomes a node, the edges are those of the corrected pass (every successful test linked, no edge removed, pairs no test joins unchanged), and the flag is set |
| FilesystemBuild.BuildGraph | entitygraph/graph.py:139-148 | file sources get exactly the filesystem build (which cannot fail), Postgres sources exactly the relational build, and any other source is left as it is |
| Seqs.DedupOrder | entitygraph/sources.py:141 | duplicate removal keeps an order-preserving sublist of its input in which every element first occurs in the input before each element after it, the order `Series.unique()` returns |
| Seqs.Filter | examples/snowflake_example.py:63-72 | a list comprehension keeps exactly the elements passing its test, as an order-preserving sublist of its input |
| Warehouse.DateTypeIsDateOrTime | examples/snowflake_example.py:65-71 | the seven type tokens amount to "contains `DATE` or `TIME`" |
| Warehouse.ExtractDateCols | examples/snowflake_example.py:61-72 | every table gains a date-column list that is an order-preserving sublist of its columns, namely the comprehension's filter, and holds exactly the columns whose type contains `DATE` or `TIME`; name and columns are kept |
| Warehouse.LinkOn | examples/snowflake_example.py:95-104 | linking two tables on a name creates the edge or appends the name once; it fails exactly on an existing edge without `link_on`, and no other edge changes |
| Warehouse.TablesGrows | examples/snowflake_example.py:85-106 | the loops never remove an edge or a link, and they add only key names shared by the two tables |
| Warehouse.TablesCovers | examples/snowflake_example.py:85-106 | when every edge carries `link_on`, the loops link every pair of distinct tables on every key column they share |
| Warehouse.BuildWarehouseNetwork | examples/snowflake_example.py:75-107 | new edges join distinct tables and are created with a non-empty `link_on`; every added link is a shared key name; no `link_on` gains a duplicate; with every edge carrying `link_on`, the network is complete |
| Warehouse.WarehouseNetworkIdempotent | examples/snowflake_example.py:85-104 | running the build on its own result adds nothing |
| Warehouse.KeyErrorLosesLink | examples/snowflake_example.py:90-106 | an edge without `link_on` makes the swallowed `KeyError` skip the rest of a scan, so two tables sharing a key can stay unlinked |
| PathFinder.Discover | examples/snowflake_example.py:140-145 | a node's first record has the best path via the current node, and that path as its only alternative |
| PathFinder.Relax | examples/snowflake_example.py:146-149 | alternatives are append-only; the best path never lengthens, and a candidate no longer than it replaces it |
| PathFinder.Seed | examples/snowflake_example.py:125-135 | the start's neighbours are queued in order, each with the one-hop path and no alternatives |
| PathFinder.DiscoverNeighbour | examples/snowflake_example.py:140-145 | a newly reached node is recorded and queued once, and the search invariant is kept |
| PathFinder.RelaxNeighbour | examples/snowflake_example.py:146-149 | a node reached again is relaxed without being queued, and the search invariant is kept |
| PathFinder.DiscoverAlts | examples/snowflake_example.py:140-145 | discovering a node from `n` gives it exactly one alternative, the one ending with the hop from `n`, and leaves every other record's alternatives as they were |
| PathFinder.RelaxAlts | examples/snowflake_example.py:146-148 | reaching a recorded node again from `n` appends exactly one alternative, ending with the hop from `n`, after the ones it had |
| PathFinder.FoldAlts | examples/snowflake_example.py:139-149 | handling the distinct neighbours of `n` in order gives each of them one more alternative, through `n`, and no other record gains one |
| PathFinder.ExpansionAlts | examples/snowflake_example.py:136-149 | after expanding a queued node, every record holds one alternative per expanded node that lists it as a neighbour, in expansion order, each ending with the hop from that node |
| PathFinder.ExplorePaths | examples/snowflake_example.py:125-149 | each node is queued at most once, exactly the recorded nodes are queued, every recorded path is a walk from `start` to its node, each best path is no longer than any walk of one hop or more, and each node's alternatives are one per queued node listing it as a neighbour, in queue order, the `k`-th ending with the hop from the `k`-th such node |
| PathFinder.OptimizePathsDistanceHops | examples/snowflake_example.py:110-150 | the record for `end` holds walks from `start`, with a fewest-hop best path; no record exactly when `start` is not a node or `end` cannot be reached in one hop or more; its alternatives are one per node that lists `end` as a neighbour, taken in the order the search expanded the reachable nodes, each ending with the hop from that node |

## Left out

- Connections and data fetching (psycopg2, `pd.read_sql_query`, pyarrow file
  systems and datasets) are outside the model. Catalog rows, foreign-key rows,
  directory listings and samples are inputs: `GetEntities` takes the fetched
  rows and `ListEntities` takes a column reader.
- The SQL of the foreign-key query is not modelled. Its rows are taken as
  given. A `LEFT JOIN` can leave `constraint_table`, `constraint_column` or
  `referenced_table` missing. Such a row matches no entity, so one of the two
  filters is empty, indexing it raises `IndexError`, and the `except` skips
  the row; the model skips it like any unresolvable row. A missing
  `referenced_column` is read but never used, so it does not affect the row.
- `regex_filter` is an abstract predicate on paths; the regular-expression
  engine is not modelled.
- Logging setup, pyvis plotting (`plot_graph`) and the connection helpers are
  side effects only and are not modelled.
- `PostgresSource.list_entities` is not modelled. It calls `get_entities`
  (modelled by `Postgres.GetEntities`) and then `.iterrows()` on the list that
  returns; lists have no such method, so it raises `AttributeError` before
  logging anything and adds no behaviour beyond that `get_entities` call.
- The stubs with no behaviour are left out: `infer_cardinality`,
  `infer_edge*`, `include_domain_expertise`, `build_graph_warehouse`,
  `_elect_pk`, `extract_date_keys`, and the cardinality enumeration. Only the
  custom build appears, as the no-op branch of the dispatch.
- `fkname2` is computed by the relational heuristic and never used, so it is
  left out.
- `PostgresSource.build_entity_graph` is an older copy of the relational
  heuristic without the merge branch; it is left out.
- The path finder copied into `graph.py` at lines 220-260 lacks `self` and
  refers to an undefined graph, so it cannot run; only the example's version
  is modelled.
- `populate_nodes` and the Snowflake connection are I/O. The model starts from
  the table list they would produce, with node identity taken as the table's
  position, since the example's node identifiers are distinct.
- `setup.py` is packaging and is not modelled.
- networkx: `add_edge(n1, n2, attr={...})` stores the dictionary under one key
  named `attr`, and the merge branch nests the old data inside it. The model
  keeps a flat attribute map per edge, with schema writes replacing it and
  merges updating it. Every write uses the same three keys, so the flat view
  records the same key columns and provenance.
- Entities have no equality or hash of their own, so two entities are the
  same node only if they are the same object. The model identifies a node
  with the entity's position in the source's list, and the dedup checks of
  `get_entities` are then always true.
- PathFinder.OptimizePathsDistanceHops: the graph is an adjacency list whose
  neighbour lists hold no duplicate. `G.neighbors` order is the list order.
  Failure (`start` not a node, or `end` not reached, where the code raises) is
  a `None` result.
- Warehouse.WarehouseNetworkIdempotent: proved only when every existing edge
  carries `link_on`. This is the case in the example, where nodes are added
  without edges. With an edge lacking it, the swallowed `KeyError` can leave a
  second run's scans cut short differently (see `Warehouse.KeyErrorLosesLink`).
- Warehouse.BuildWarehouseNetwork: completeness is stated only when every
  existing edge carries `link_on`, for the same reason.
- Entities.GetSample: the code reads `self._sample`, which the constructor
  never sets, and calls the source with the keyword `identifier`, while both
  sources take an entity. Both sources also return a DataFrame, so once
  `_sample` held one, `if not self._sample` would raise `ValueError`, since a
  DataFrame has no single truth value. The model gives the evident intent: the sample is
  cached on the entity after the first fetch, and the fetch is a parameter.
- Entities.ExtractPkCandidates: `check_if_pk` is defined nowhere, so the model
  records the failure the call raises rather than any candidate rule.
- The `column_df` argument of `Entity` is not kept: no code reads it back.

## Findings

| source | as written | input that shows it | evidently intended | confidence | as-written member | corrected member |
|---|---|---|---|---|---|---|
| entitygraph/graph.py:124 | the filesystem heuristic's edge attributes name `column`, which is undefined in that method; the `NameError` is swallowed by the `except`, so no edge is ever added | entities `orders` (column `customer_id`) and `customers`: the root `customer` occurs in `customers`, yet the graph stays without edges | use the matched column `cname` and add the edge; the corrected attributes also put the column on `n1`'s side (`n1_key` is `cname`, `n2_key` is `id`), since `n1` holds the column and `n2` is the referenced entity, where the code copies the relational heuristic's `{n1_key: 'id', n2_key: column}` | not executed; the name is visibly unbound in that method | FilesystemBuild.FileLinksAsWritten, FilesystemBuild.AsWrittenAddsNoEdge | FilesystemBuild.FileLinks |
| entitygraph/sources.py:358 | the identifier is `path.split(provider.value)[1]`, the text between the first and second occurrence of the provider value | with the local provider `/`, the path `/data/orders.parquet` gives the identifier `data`, a directory, not the file | strip the leading provider value and keep the rest of the path | not executed; follows from `str.split` semantics | Files.IdentifierAsWritten, Files.IdentifierAsWrittenKeepsFirstDirectory | Files.StripProvider |

=== FILE: entity.dfy ===
/** The `Entity` record: one table, file or partition group of a source.
    The back-reference to the owning source is not kept: a graph refers to
    an entity by its position in the source's entity list (see `Graph`). */
module Entities {
  import opened Wrappers

  /** A bounded row sample, as a header plus rows of cells. */
  datatype Sample = Sample(header: seq<string>, rows: seq<seq<string>>)

  datatype Entity = Entity(
    identifier: string,
    columns: seq<string>,
    columnTypeMap: map<string, string>,
    pkCandidates: seq<string>,
    pk: Option<string>,
    dateKeys: seq<string>,
    sample: Option<Sample>)

  datatype EntityError =
    /** `_extract_pk_candidates` calls `self.check_if_pk`, which no class defines. */
    | UndefinedCheckIfPk

  /** A freshly constructed entity: nothing elected, nothing cached. */
  function NewEntity(identifier: string, columns: seq<string>, columnTypeMap: map<string, string>): (e: Entity)
    ensures e.identifier == identifier && e.columns == columns && e.columnTypeMap == columnTypeMap
    ensures e.pk.None? && |e.pkCandidates| == 0 && |e.dateKeys| == 0
    ensures e.sample.None?
  {
    Entity(identifier, columns, columnTypeMap, [], None, [], None)
  }

  function GetColumns(e: Entity): seq<string> {
    e.columns
  }

  /** Reading the columns of a new entity gives back the columns it was built with. */
  lemma ColumnsOfNewEntity(identifier: string, columns: seq<string>, typeMap: map<string, string>)
    ensures GetColumns(NewEntity(identifier, columns, typeMap)) == columns
  {
  }

  /** Python truthiness of `self.pk`: set and non-empty. */
  predicate HasPk(e: Entity) {
    e.pk.Some? && e.pk.value != ""
  }

  /** `_extract_pk_candidates`: a no-op once a primary key is set; otherwise it
      asks `check_if_pk` about every column, which fails on the first column. */
  function ExtractPkCandidates(e: Entity): (r: Result<Entity, EntityError>)
    ensures r.Success? ==> r.value == e
    ensures r.Failure? <==> !HasPk(e) && |e.columns| > 0
  {
    if HasPk(e) then Success(e)
    else if |e.columns| == 0 then Success(e)
    else Failure(UndefinedCheckIfPk)
  }

  /** `get_sample`: the cached sample when there is one; otherwise the sample
      `fetched` from the source, which is then cached on the entity. */
  function GetSample(e: Entity, fetched: Sample): (r: (Entity, Sample))
    ensures r.0.sample == Some(r.1)
    ensures e.sample.Some? ==> r == (e, e.sample.value)
    ensures e.sample.None? ==> r.1 == fetched
    ensures r.0.(sample := e.sample) == e
  {
    if e.sample.Some? then (e, e.sample.value)
    else (e.(sample := Some(fetched)), fetched)
  }

  /** Once a sample is cached the source is never consulted again: a second
      call returns the first call's sample whatever the source would now give. */
  lemma SampleIsCached(e: Entity, first: Sample, second: Sample)
    ensures GetSample(GetSample(e, first).0, second) == GetSample(e, first)
  {
  }
}

=== FILE: enums.dfy ===
/** The two enumerations of `entitygraph/enums.py`. */
module Enums {
  import opened Strings

  /** Where a file source lives; `Value` is the URI prefix of the provider. */
  datatype FileProvider = Local | S3 | Gcs | Azure {
    function Value(): string {
      match this
      case Local => "/"
      case S3 => "s3://"
      case Gcs => "gs://"
      case Azure => "abfs://"
    }
  }

  /** Every member, in the order `dir(FileProvider)` lists the public names. */
  const AllProviders: seq<FileProvider> := [Azure, Gcs, Local, S3]

  /** The file extension a file source looks for. */
  datatype StorageFormat = Parquet | Csv | Pkl | Tsv | Txt {
    function Value(): string {
      match this
      case Parquet => "parquet"
      case Csv => "csv"
      case Pkl => "pkl"
      case Tsv => "tsv"
      case Txt => "txt"
    }
  }

  /** Every provider prefix contains a slash, and the local one is exactly a slash. */
  lemma ProviderValuesContainSlash(p: FileProvider)
    ensures Contains(p.Value(), "/")
    ensures p in AllProviders
  {
    match p
    case Local => assert OccursAt(p.Value(), "/", 0);
    case S3 => assert OccursAt(p.Value(), "/", 3);
    case Gcs => assert OccursAt(p.Value(), "/", 3);
    case Azure => assert OccursAt(p.Value(), "/", 5);
  }
}

=== FILE: files.dfy ===
/** The pure part of `FileSource`: the provider-prefix check of the
    constructor, source-path assembly, entry filtering and identifier
    stripping. Directory listings, regular-expression matching and column
    discovery (which reads a sample) are inputs. */
module Files {
  import opened Wrappers
  import opened Seqs
  import opened Strings
  import opened Enums
  import opened Entities

  /** A regular expression, known only through "matches somewhere in the path"
      (`re.findall` returning a non-empty list). */
  datatype Pattern = Pattern(matchesIn: string -> bool)

  datatype FileSource = FileSource(
    pathRoot: string,
    provider: FileProvider,
    storageFormat: StorageFormat,
    prefix: Option<string>,
    regexFilter: Option<Pattern>,
    entitiesArePartitioned: bool,
    sourcePath: Option<string>,
    entities: seq<Entity>)

  datatype ConfigError = ProviderPrefixInRoot(provider: string)

  /** The constructor's test `sum([1 if value in path_root ...])`: how many
      provider values occur in the root. */
  function ProviderHits(pathRoot: string): nat {
    |Filter((p: FileProvider) => Contains(pathRoot, p.Value()), AllProviders)|
  }

  /** Every provider value contains `/` and `/` is itself a provider value,
      so the constructor's test amounts to "the root contains a slash". */
  lemma ProviderHitsIffSlash(pathRoot: string)
    ensures ProviderHits(pathRoot) > 0 <==> Contains(pathRoot, "/")
  {
    var hit := (p: FileProvider) => Contains(pathRoot, p.Value());
    var hits := Filter(hit, AllProviders);
    if Contains(pathRoot, "/") {
      assert Local.Value() == "/";
      assert Local in hits;
    }
    if |hits| > 0 {
      var p := hits[0];
      assert p in hits;
      ProviderValuesContainSlash(p);
      ContainsTransitive(pathRoot, p.Value(), "/");
    }
  }

  /** `FileSource.__init__`: fails fast when the root already carries a
      provider prefix; otherwise stores the configuration with empty caches. */
  function NewFileSource(pathRoot: string, provider: FileProvider, storageFormat: StorageFormat,
                         prefix: Option<string>, regexFilter: Option<Pattern>,
                         entitiesArePartitioned: bool): (r: Result<FileSource, ConfigError>)
    ensures r.Failure? <==> Contains(pathRoot, "/")
    ensures r.Failure? ==> r.error == ProviderPrefixInRoot(provider.Value())
    ensures r.Success? ==> r.value == FileSource(pathRoot, provider, storageFormat, prefix, regexFilter,
                                                  entitiesArePartitioned, None, [])
  {
    ProviderHitsIffSlash(pathRoot);
    if ProviderHits(pathRoot) > 0 then Failure(ProviderPrefixInRoot(provider.Value()))
    else Success(FileSource(pathRoot, provider, storageFormat, prefix, regexFilter,
                            entitiesArePartitioned, None, []))
  }

  /** Python truthiness of the optional prefix. */
  predicate HasPrefix(fs: FileSource) {
    fs.prefix.Some? && fs.prefix.value != ""
  }

  /** The path `get_source_path` builds when nothing is cached yet. */
  function AssembleSourcePath(fs: FileSource): string {
    fs.provider.Value() + fs.pathRoot + (if HasPrefix(fs) then "/" + fs.prefix.value else "")
  }

  /** `get_source_path`: computes the path once and caches it. */
  function GetSourcePath(fs: FileSource): (r: (FileSource, string))
    ensures r.0.sourcePath == Some(r.1)
    ensures r.0.(sourcePath := fs.sourcePath) == fs
    ensures fs.sourcePath.Some? && fs.sourcePath.value != "" ==> r == (fs, fs.sourcePath.value)
    ensures !(fs.sourcePath.Some? && fs.sourcePath.value != "") ==> r.1 == AssembleSourcePath(fs)
    ensures fs.sourcePath.None? ==> StartsWith(r.1, fs.provider.Value() + fs.pathRoot)
  {
    if fs.sourcePath.Some? && fs.sourcePath.value != "" then (fs, fs.sourcePath.value)
    else
      var p := AssembleSourcePath(fs);
      assert p[..|fs.provider.Value() + fs.pathRoot|] == fs.provider.Value() + fs.pathRoot;
      (fs.(sourcePath := Some(p)), p)
  }

  /** The path is computed once: a second call returns it unchanged. */
  lemma SourcePathIsCached(fs: FileSource)
    ensures GetSourcePath(GetSourcePath(fs).0) == GetSourcePath(fs)
  {
    var p := AssembleSourcePath(fs);
    assert |fs.provider.Value()| > 0;
    assert |p| > 0;
  }

  /** For a source the constructor accepted (its root holds no slash), the
      assembled path splits back into provider, root and prefix: the root
      runs up to the first slash after the provider value, the prefix follows it. */
  lemma {:induction false} SourcePathSplitsBack(fs: FileSource)
    requires !Contains(fs.pathRoot, "/")
    ensures var rest := AssembleSourcePath(fs)[|fs.provider.Value()|..];
      && StartsWith(AssembleSourcePath(fs), fs.provider.Value())
      && (HasPrefix(fs) ==> IndexOf(rest, "/") == Some(|fs.pathRoot|)
                            && rest[..|fs.pathRoot|] == fs.pathRoot
                            && rest[|fs.pathRoot| + 1..] == fs.prefix.value)
      && (!HasPrefix(fs) ==> rest == fs.pathRoot)
  {
    var v := fs.provider.Value();
    var path := AssembleSourcePath(fs);
    var rest := path[|v|..];
    assert path[..|v|] == v;
    if HasPrefix(fs) {
      var root := fs.pathRoot;
      assert rest == root + "/" + fs.prefix.value;
      assert OccursAt(rest, "/", |root|);
      forall j | 0 <= j < |root|
        ensures !OccursAt(rest, "/", j)
      {
        if OccursAt(rest, "/", j) {
          assert root[j..j + 1] == rest[j..j + 1];
          assert OccursAt(root, "/", j);
          assert false;
        }
      }
      assert rest[..|root|] == root;
      assert rest[|root| + 1..] == fs.prefix.value;
    } else {
      assert rest == fs.pathRoot;
    }
  }

  /** The path a freshly constructed source reports splits back into the
      provider value, the root and, after the first slash, the prefix. */
  lemma FreshSourcePathSplitsBack(pathRoot: string, provider: FileProvider, storageFormat: StorageFormat,
                                  prefix: Option<string>, regexFilter: Option<Pattern>,
                                  entitiesArePartitioned: bool)
    requires NewFileSource(pathRoot, provider, storageFormat, prefix, regexFilter, entitiesArePartitioned).Success?
    ensures var fs := NewFileSource(pathRoot, provider, storageFormat, prefix, regexFilter, entitiesArePartitioned).value;
      var path := GetSourcePath(fs).1;
      var rest := path[|provider.Value()|..];
      && StartsWith(path, provider.Value())
      && (HasPrefix(fs) ==> IndexOf(rest, "/") == Some(|pathRoot|)
                            && rest[..|pathRoot|] == pathRoot
                            && rest[|pathRoot| + 1..] == prefix.value)
      && (!HasPrefix(fs) ==> rest == pathRoot)
  {
    var fs := NewFileSource(pathRoot, provider, storageFormat, prefix, regexFilter, entitiesArePartitioned).value;
    SourcePathSplitsBack(fs);
  }

  // ---------------------------------------------------------------------
  // Listing.
  // ---------------------------------------------------------------------

  /** One record of the recursive directory listing. */
  datatype FileInfo = FileInfo(path: string, isFile: bool)

  predicate PassesRegex(fs: FileSource, e: FileInfo) {
    fs.regexFilter.None? || !fs.regexFilter.value.matchesIn(e.path)
  }

  predicate HasFormat(fs: FileSource, e: FileInfo) {
    EndsWith(e.path, fs.storageFormat.Value())
  }

  predicate PassesPartitioning(fs: FileSource, e: FileInfo) {
    !fs.entitiesArePartitioned || !e.isFile
  }

  /** The three successive list comprehensions of `get_entities`. */
  function SelectEntries(fs: FileSource, infos: seq<FileInfo>): (r: seq<FileInfo>)
    ensures forall e :: e in r <==>
      e in infos && PassesRegex(fs, e) && HasFormat(fs, e) && PassesPartitioning(fs, e)
  {
    var unmatched := if fs.regexFilter.Some? then Filter(e => PassesRegex(fs, e), infos) else infos;
    var formatted := Filter(e => HasFormat(fs, e), unmatched);
    if fs.entitiesArePartitioned then Filter(e => PassesPartitioning(fs, e), formatted) else formatted
  }

  /** Selection works entry by entry, so the listing order is kept. */
  lemma SelectEntriesAppend(fs: FileSource, a: seq<FileInfo>, b: seq<FileInfo>)
    ensures SelectEntries(fs, a + b) == SelectEntries(fs, a) + SelectEntries(fs, b)
  {
    var regex := e => PassesRegex(fs, e);
    var fmt := e => HasFormat(fs, e);
    var part := e => PassesPartitioning(fs, e);
    var ua := if fs.regexFilter.Some? then Filter(regex, a) else a;
    var ub := if fs.regexFilter.Some? then Filter(regex, b) else b;
    if fs.regexFilter.Some? {
      FilterAppend(regex, a, b);
    }
    FilterAppend(fmt, ua, ub);
    if fs.entitiesArePartitioned {
      FilterAppend(part, Filter(fmt, ua), Filter(fmt, ub));
    }
  }

  /** The identifier as the source computes it: `path.split(prefix)[1]` when
      the path starts with the provider value, the path itself otherwise. */
  function IdentifierAsWritten(path: string, provider: FileProvider): (r: string)
    ensures !StartsWith(path, provider.Value()) ==> r == path
    ensures StartsWith(path, provider.Value()) ==> StartsWith(path[|provider.Value()|..], r)
    ensures StartsWith(path, provider.Value()) ==> !Contains(r, provider.Value())
    ensures StartsWith(path, provider.Value()) ==>
      var rest := path[|provider.Value()|..];
      && (IndexOf(rest, provider.Value()).None? ==> r == rest)
      && (IndexOf(rest, provider.Value()).Some? ==> r == rest[..IndexOf(rest, provider.Value()).value])
  {
    var v := provider.Value();
    if StartsWith(path, v) then
      FirstPieceAfterPrefix(path, v);
      FirstPieceIs(path[|v|..], v);
      Split(path, v)[1]
    else path
  }

  /** When `path` starts with `sep`, `path.split(sep)[1]` is the text after
      that leading `sep` up to the next occurrence (or the end). */
  lemma FirstPieceAfterPrefix(path: string, sep: string)
    requires |sep| > 0 && StartsWith(path, sep)
    ensures |Split(path, sep)| >= 2
    ensures StartsWith(path[|sep|..], Split(path, sep)[1])
    ensures !Contains(Split(path, sep)[1], sep)
    ensures Split(path, sep)[1] == Split(path[|sep|..], sep)[0]
  {
    assert OccursAt(path, sep, 0);
    assert IndexOf(path, sep) == Some(0);
    var tail := path[|sep|..];
    assert Split(path, sep) == [path[..0]] + Split(tail, sep);
    FirstPiece(tail, sep);
  }

  /** The first piece of a split is the whole string when the separator does
      not occur, and otherwise the text before its first occurrence. */
  lemma FirstPieceIs(s: string, sep: string)
    requires |sep| > 0
    ensures IndexOf(s, sep).None? ==> Split(s, sep)[0] == s
    ensures IndexOf(s, sep).Some? ==> Split(s, sep)[0] == s[..IndexOf(s, sep).value]
  {
  }

  /** A string starts with its first piece, which holds no separator. */
  lemma FirstPiece(s: string, sep: string)
    requires |sep| > 0
    ensures StartsWith(s, Split(s, sep)[0]) && !Contains(Split(s, sep)[0], sep)
  {
    SplitJoin(s, sep);
  }

  /** With the local provider `/`, `split('/')[1]` keeps only the first
      directory: `/data/orders.parquet` becomes `data`. */
  lemma IdentifierAsWrittenKeepsFirstDirectory()
    ensures IdentifierAsWritten("/data/orders.parquet", Local) == "data"
  {
    var path := "/data/orders.parquet";
    assert StartsWith(path, "/");
    var tail := path[1..];
    assert tail == "data/orders.parquet";
    assert OccursAt(tail, "/", 4);
    forall j | 0 <= j < 4
      ensures !OccursAt(tail, "/", j)
    {
      assert tail[j] != '/';
    }
    assert IndexOf(tail, "/") == Some(4);
    assert Split(tail, "/")[0] == "data";
  }

  /** The identifier with the provider prefix removed, as the storage layout
      intends; the prefix and the identifier give back the path. */
  function StripProvider(path: string, provider: FileProvider): (r: string)
    ensures StartsWith(path, provider.Value()) ==> provider.Value() + r == path
    ensures !StartsWith(path, provider.Value()) ==> r == path
  {
    var v := provider.Value();
    if StartsWith(path, v) then
      assert path == path[..|v|] + path[|v|..];
      path[|v|..]
    else path
  }

  /** The entities of a listing: one per selected entry, identifier stripped of
      the provider prefix, columns read from that identifier's sample. */
  function ListEntities(fs: FileSource, infos: seq<FileInfo>, columnsOf: string -> seq<string>): (es: seq<Entity>)
    ensures |es| == |SelectEntries(fs, infos)|
    ensures forall i :: 0 <= i < |es| ==>
      var path := SelectEntries(fs, infos)[i].path;
      && es[i].identifier == StripProvider(path, fs.provider)
      && es[i].columns == columnsOf(es[i].identifier)
      && es[i].pk.None?
  {
    var selected := SelectEntries(fs, infos);
    var es := seq(|selected|, i requires 0 <= i < |selected| => EntityOf(selected[i].path, fs.provider, columnsOf));
    assert forall i :: 0 <= i < |es| ==> es[i] == EntityOf(selected[i].path, fs.provider, columnsOf);
    es
  }

  /** The entity of one selected entry. */
  function EntityOf(path: string, provider: FileProvider, columnsOf: string -> seq<string>): (e: Entity)
    ensures e.identifier == StripProvider(path, provider)
    ensures e.columns == columnsOf(e.identifier) && e.pk.None?
  {
    var id := StripProvider(path, provider);
    NewEntity(id, columnsOf(id), map[])
  }

  /** `get_entities`: lists once; while the cached list is non-empty it is
      returned as is. A listing first resolves the source path through
      `get_source_path`, which caches it. */
  function GetEntities(fs: FileSource, infos: seq<FileInfo>, columnsOf: string -> seq<string>): (r: (FileSource, seq<Entity>))
    ensures r.1 == r.0.entities
    ensures r.0.(entities := fs.entities, sourcePath := fs.sourcePath) == fs
    ensures |fs.entities| > 0 ==> r == (fs, fs.entities)
    ensures |fs.entities| == 0 ==> r.1 == ListEntities(fs, infos, columnsOf)
    ensures |fs.entities| == 0 ==> r.0.sourcePath == Some(GetSourcePath(fs).1)
  {
    if |fs.entities| > 0 then (fs, fs.entities)
    else
      var es := ListEntities(fs, infos, columnsOf);
      (GetSourcePath(fs).0.(entities := es), es)
  }

  /** The entity list is memoised: once non-empty, new listings are ignored. */
  lemma EntitiesAreMemoised(fs: FileSource, first: seq<FileInfo>, later: seq<FileInfo>, columnsOf: string -> seq<string>)
    requires |GetEntities(fs, first, columnsOf).1| > 0
    ensures GetEntities(GetEntities(fs, first, columnsOf).0, later, columnsOf) == GetEntities(fs, first, columnsOf)
  {
  }
}

=== FILE: filesystem.dfy ===
/** `EntityGraph.build_graph_filesystem` and the `build_graph` dispatch.
    The containment heuristic links `n1` to `n2` when one of `n1`'s columns,
    with its last `_`-token removed, occurs in `n2`'s identifier. */
module FilesystemBuild {
  import opened Wrappers
  import opened Seqs
  import opened Strings
  import opened Entities
  import opened EntityGraph
  import opened Postgres
  import opened RelationalBuild

  /** `'_'.join(cname.split('_')[:-1])`. */
  function CandidateRoot(cname: string): (root: string)
    ensures !Contains(cname, "_") ==> root == ""
    ensures Contains(cname, "_") ==> cname == root + "_" + LastPiece(cname, "_")
  {
    DropLastPiece(cname, "_")
  }

  /** The empty root of a column without `_` occurs in every identifier, so
      such a column links its entity to every other entity. */
  lemma EmptyRootMatchesEverything(cname: string, identifier: string)
    requires !Contains(cname, "_")
    ensures Contains(identifier, CandidateRoot(cname))
  {
    assert OccursAt(identifier, "", 0);
  }

  /** Column `c` of `n1` hits `n2`: the heuristic's test for one (n1, n2, c). */
  predicate RootHit(ents: seq<Entity>, n2: nat, c: string)
    requires n2 < |ents|
  {
    Contains(ents[n2].identifier, CandidateRoot(c))
  }

  /** One point of the nested loop where the test succeeds. */
  datatype Hit = Hit(from: nat, to: nat, column: string)

  predicate ValidHit(ents: seq<Entity>, nodes: seq<nat>, h: Hit) {
    && h.from in nodes && h.to in nodes && h.from != h.to
    && h.from < |ents| && h.to < |ents|
    && h.column in ents[h.from].columns
    && RootHit(ents, h.to, h.column)
  }

  function HitsForColumns(ents: seq<Entity>, n1: nat, n2: nat, cols: seq<string>): (r: seq<Hit>)
    requires n2 < |ents|
    ensures forall h :: h in r ==> h.from == n1 && h.to == n2 && h.column in cols && RootHit(ents, n2, h.column)
    ensures forall c :: c in cols && RootHit(ents, n2, c) ==> Hit(n1, n2, c) in r
  {
    if |cols| == 0 then []
    else
      var rest := HitsForColumns(ents, n1, n2, cols[1..]);
      assert forall c :: c in cols <==> c == cols[0] || c in cols[1..] by {
        assert cols == [cols[0]] + cols[1..];
      }
      if RootHit(ents, n2, cols[0]) then [Hit(n1, n2, cols[0])] + rest else rest
  }

  function HitsForTargets(ents: seq<Entity>, nodes: seq<nat>, n1: nat, targets: seq<nat>): (r: seq<Hit>)
    requires n1 in nodes && n1 < |ents|
    requires forall t :: t in targets ==> t in nodes && t < |ents|
    ensures forall h :: h in r ==> ValidHit(ents, nodes, h) && h.from == n1 && h.to in targets
    ensures forall t, c :: t in targets && t != n1 && c in ents[n1].columns && RootHit(ents, t, c) ==> Hit(n1, t, c) in r
  {
    if |targets| == 0 then []
    else
      var t := targets[0];
      assert t in targets;
      var rest := HitsForTargets(ents, nodes, n1, targets[1..]);
      assert forall x :: x in targets <==> x == t || x in targets[1..] by {
        assert targets == [t] + targets[1..];
      }
      if t == n1 then rest else HitsForColumns(ents, n1, t, ents[n1].columns) + rest
  }

  /** Every `(n1, n2, cname)` the nested loops test successfully, in loop order. */
  function Hits(ents: seq<Entity>, nodes: seq<nat>, sources: seq<nat>): (r: seq<Hit>)
    requires forall t :: t in nodes ==> t < |ents|
    requires forall s :: s in sources ==> s in nodes
    ensures forall h :: h in r ==> ValidHit(ents, nodes, h) && h.from in sources
    ensures forall h :: ValidHit(ents, nodes, h) && h.from in sources ==> h in r
  {
    if |sources| == 0 then []
    else
      var s := sources[0];
      var rest := Hits(ents, nodes, sources[1..]);
      assert forall x :: x in sources <==> x == s || x in sources[1..] by {
        assert sources == [s] + sources[1..];
      }
      HitsForTargets(ents, nodes, s, nodes) + rest
  }

  /** What the loop body does as written: the attribute dict names `column`,
      which is not defined in this method, so every hit raises `NameError`;
      the `except` swallows it and the edges stay as they were. The hits
      that raised are returned alongside. */
  function FileLinksAsWritten(e: Edges, ents: seq<Entity>, nodes: seq<nat>): (r: (Edges, seq<Hit>))
    requires forall t :: t in nodes ==> t < |ents|
    ensures r.0 == e
    ensures forall h :: h in r.1 <==> ValidHit(ents, nodes, h)
  {
    (e, Hits(ents, nodes, nodes))
  }

  /** A listing of two files: `orders` holding `customer_id`, and `customers`. */
  const Orders: Entity := NewEntity("orders", ["customer_id"], map[])
  const Customers: Entity := NewEntity("customers", ["id"], map[])

  /** The heuristic's test succeeds from `orders.customer_id` to `customers`. */
  lemma CustomerIdHits()
    ensures ValidHit([Orders, Customers], [0, 1], Hit(0, 1, "customer_id"))
  {
    CustomerIdRoot();
    assert OccursAt(Customers.identifier, "customer", 0);
  }

  /** On that listing the code as written adds no edge, while the corrected
      pass links the two files. */
  lemma AsWrittenAddsNoEdge()
    ensures ValidHit([Orders, Customers], [0, 1], Hit(0, 1, "customer_id"))
    ensures FileLinksAsWritten(map[], [Orders, Customers], [0, 1]).0 == map[]
    ensures Link(0, 1) in FileLinks(map[], [Orders, Customers], [0, 1])
  {
    CustomerIdHits();
  }

  /** The root of `customer_id` is `customer`. */
  lemma CustomerIdRoot()
    ensures CandidateRoot("customer_id") == "customer"
  {
    var c := "customer_id";
    assert OccursAt(c, "_", 8) by {
      assert c[8..9] == "_";
    }
    RootBeforeOnlyUnderscore(CandidateRoot(c), LastPiece(c, "_"));
  }

  lemma RootBeforeOnlyUnderscore(root: string, last: string)
    requires "customer_id" == root + "_" + last
    ensures root == "customer"
  {
    var c := "customer_id";
    var k := |root|;
    assert c[k] == '_' by {
      assert (root + "_" + last)[k] == '_';
    }
    UnderscoreOnlyAt8(k);
    assert root == c[..8];
  }

  lemma UnderscoreOnlyAt8(k: nat)
    requires k < |"customer_id"| && "customer_id"[k] == '_'
    ensures k == 8
  {
  }

  /** `{n1_key: cname, n2_key: 'id', 'from_schema': False}`: the attributes the
      loop evidently means, with the matched column on `n1`'s side. */
  function FileAttrs(ents: seq<Entity>, h: Hit): AttrMap
    requires h.from < |ents| && h.to < |ents|
  {
    EdgeAttrs(ents[h.from].identifier, h.column, ents[h.to].identifier, "id", false)
  }

  /** Some hit in `hits` joins the two ends of `p`. */
  predicate LinkedBy(hits: seq<Hit>, p: Pair) {
    exists h :: h in hits && Link(h.from, h.to) == p
  }

  /** The attributes of `p` in `r` are those some hit of `hits` on `p` writes. */
  predicate WrittenBy(ents: seq<Entity>, hits: seq<Hit>, r: Edges, p: Pair) {
    exists h :: h in hits && Link(h.from, h.to) == p && h.from < |ents| && h.to < |ents|
      && p in r && r[p] == FileAttrs(ents, h)
  }

  /** Applies the hits in order; each `add_edge` sets the pair's attributes. */
  function ApplyHits(e: Edges, ents: seq<Entity>, hits: seq<Hit>): (r: Edges)
    requires forall h :: h in hits ==> h.from < |ents| && h.to < |ents|
    ensures forall p :: p in e ==> p in r
    ensures forall p :: p in r && p !in e ==> LinkedBy(hits, p)
    ensures forall p :: p in e && !LinkedBy(hits, p) ==> r[p] == e[p]
    ensures forall h :: h in hits ==> Marked(r, Link(h.from, h.to))
    ensures forall p :: LinkedBy(hits, p) ==> WrittenBy(ents, hits, r, p)
  {
    if |hits| == 0 then e
    else
      var front := hits[..|hits| - 1];
      var last := hits[|hits| - 1];
      HitsOfFront(hits);
      var r0 := ApplyHits(e, ents, front);
      ApplyLastHit(e, ents, hits, front, r0);
      ApplyLastHitWrites(ents, hits, front, r0);
      r0[Link(last.from, last.to) := FileAttrs(ents, last)]
  }

  lemma HitsOfFront(hits: seq<Hit>)
    requires |hits| > 0
    ensures forall h :: h in hits <==> h in hits[..|hits| - 1] || h == hits[|hits| - 1]
  {
    assert hits == hits[..|hits| - 1] + [hits[|hits| - 1]];
  }

  /** The last `add_edge` of the loop keeps what the earlier ones established. */
  lemma ApplyLastHit(e: Edges, ents: seq<Entity>, hits: seq<Hit>, front: seq<Hit>, r0: Edges)
    requires |hits| > 0 && front == hits[..|hits| - 1]
    requires forall h :: h in hits ==> h.from < |ents| && h.to < |ents|
    requires forall h :: h in hits <==> h in hits[..|hits| - 1] || h == hits[|hits| - 1]
    requires forall p :: p in e ==> p in r0
    requires forall p :: p in r0 && p !in e ==> LinkedBy(hits[..|hits| - 1], p)
    requires forall p :: p in e && !LinkedBy(hits[..|hits| - 1], p) ==> r0[p] == e[p]
    requires forall h :: h in hits[..|hits| - 1] ==> Marked(r0, Link(h.from, h.to))
    ensures var last := hits[|hits| - 1];
      var r := r0[Link(last.from, last.to) := FileAttrs(ents, last)];
      && (forall p :: p in e ==> p in r)
      && (forall p :: p in r && p !in e ==> LinkedBy(hits, p))
      && (forall p :: p in e && !LinkedBy(hits, p) ==> r[p] == e[p])
      && (forall h :: h in hits ==> Marked(r, Link(h.from, h.to)))
  {
    var last := hits[|hits| - 1];
    var q := Link(last.from, last.to);
    var r := r0[q := FileAttrs(ents, last)];
    forall p | p in r && p !in e
      ensures LinkedBy(hits, p)
    {
      if p == q {
        assert last in hits;
      } else {
        var h :| h in front && Link(h.from, h.to) == p;
        assert h in hits;
      }
    }
    forall p | p in e && !LinkedBy(hits, p)
      ensures r[p] == e[p]
    {
      assert p != q by { assert last in hits; }
      assert forall h :: h in front ==> h in hits;
    }
    forall h | h in hits
      ensures Marked(r, Link(h.from, h.to))
    {
      if Link(h.from, h.to) != q {
        assert h in front;
      }
    }
  }

  /** After the last `add_edge`, every linked pair still carries what some hit on it wrote. */
  lemma ApplyLastHitWrites(ents: seq<Entity>, hits: seq<Hit>, front: seq<Hit>, r0: Edges)
    requires |hits| > 0 && front == hits[..|hits| - 1]
    requires forall h :: h in hits ==> h.from < |ents| && h.to < |ents|
    requires forall h :: h in hits <==> h in front || h == hits[|hits| - 1]
    requires forall p :: LinkedBy(front, p) ==> WrittenBy(ents, front, r0, p)
    ensures var last := hits[|hits| - 1];
      var r := r0[Link(last.from, last.to) := FileAttrs(ents, last)];
      forall p :: LinkedBy(hits, p) ==> WrittenBy(ents, hits, r, p)
  {
    var last := hits[|hits| - 1];
    var q := Link(last.from, last.to);
    var r := r0[q := FileAttrs(ents, last)];
    forall p | LinkedBy(hits, p)
      ensures WrittenBy(ents, hits, r, p)
    {
      if p == q {
        assert last in hits;
      } else {
        var h :| h in hits && Link(h.from, h.to) == p;
        assert h in front;
        assert LinkedBy(front, p);
        var h' :| h' in front && Link(h'.from, h'.to) == p && h'.from < |ents| && h'.to < |ents|
          && p in r0 && r0[p] == FileAttrs(ents, h');
        assert h' in hits;
      }
    }
  }

  /** The corrected pass: every hit between distinct nodes gets an edge whose
      `from_schema` is False; no other pair changes, so no self-edge appears. */
  function FileLinks(e: Edges, ents: seq<Entity>, nodes: seq<nat>): (r: Edges)
    requires forall t :: t in nodes ==> t < |ents|
    ensures forall h :: ValidHit(ents, nodes, h) ==> Marked(r, Link(h.from, h.to))
    ensures forall p :: p in e ==> p in r
    ensures forall p :: p in r && p !in e ==> HitPair(ents, nodes, p)
    ensures forall p :: p in e && !HitPair(ents, nodes, p) ==> r[p] == e[p]
    ensures forall p :: HitPair(ents, nodes, p) ==> WrittenBy(ents, Hits(ents, nodes, nodes), r, p)
    ensures forall p :: p in r && p !in e ==> p.lo != p.hi && p.lo in nodes && p.hi in nodes
  {
    var hits := Hits(ents, nodes, nodes);
    HitPairIffLinked(ents, nodes);
    ApplyHits(e, ents, hits)
  }

  /** Some successful test of the heuristic joins the two ends of `p`. */
  ghost predicate HitPair(ents: seq<Entity>, nodes: seq<nat>, p: Pair) {
    exists h :: ValidHit(ents, nodes, h) && Link(h.from, h.to) == p
  }

  /** The hits the loops produce join exactly the hit pairs, and those join
      two distinct nodes. */
  lemma HitPairIffLinked(ents: seq<Entity>, nodes: seq<nat>)
    requires forall t :: t in nodes ==> t < |ents|
    ensures forall p :: HitPair(ents, nodes, p) <==> LinkedBy(Hits(ents, nodes, nodes), p)
    ensures forall p :: HitPair(ents, nodes, p) ==> p.lo != p.hi && p.lo in nodes && p.hi in nodes
  {
    var hits := Hits(ents, nodes, nodes);
    forall p | HitPair(ents, nodes, p)
      ensures LinkedBy(hits, p)
    {
      var h :| ValidHit(ents, nodes, h) && Link(h.from, h.to) == p;
      assert h in hits;
    }
    forall p | LinkedBy(hits, p)
      ensures HitPair(ents, nodes, p)
    {
      var h :| h in hits && Link(h.from, h.to) == p;
      assert ValidHit(ents, nodes, h);
    }
  }

  /** `build_graph_filesystem`: a no-op once built; otherwise adds every entity
      as a node, runs the (corrected) containment pass and sets the flag. */
  function BuildFilesystem(g: Graph, ents: seq<Entity>): (r: Graph)
    requires WellFormed(g, |ents|)
    ensures g.built ==> r == g
    ensures r.built
    ensures WellFormed(r, |ents|)
    ensures !g.built ==> forall n: nat :: n in r.nodes <==> n < |ents|
    ensures !g.built ==> forall h :: ValidHit(ents, r.nodes, h) ==> Marked(r.edges, Link(h.from, h.to))
    ensures !g.built ==> r.edges == FileLinks(g.edges, ents, r.nodes)
    ensures !g.built ==> forall p :: p in g.edges ==> p in r.edges
    ensures !g.built ==> forall p :: p in r.edges && p !in g.edges ==> HitPair(ents, r.nodes, p)
    ensures !g.built ==> forall p :: p in g.edges && !HitPair(ents, r.nodes, p) ==> r.edges[p] == g.edges[p]
  {
    if g.built then g
    else
      var nodes := AddNodes(g.nodes, |ents|);
      Graph(nodes, FileLinks(g.edges, ents, nodes), true)
  }

  /** The kind of the adapter `build_graph` dispatches on. */
  datatype SourceKind = FileKind | PostgresKind | OtherKind

  /** `build_graph`: file sources use the containment heuristic, Postgres
      sources the relational build, any other source the empty custom build. */
  function BuildGraph(g: Graph, kind: SourceKind, ents: seq<Entity>, fks: seq<FkTriple>): (r: Built)
    requires WellFormed(g, |ents|)
    requires TriplesIn(fks, |ents|)
    ensures WellFormed(r.graph, |ents|)
    ensures kind == OtherKind ==> r == Built(g, None)
    ensures kind == FileKind ==> r.error.None? && r.graph.built
    ensures kind == FileKind ==> r == Built(BuildFilesystem(g, ents), None)
    ensures kind == PostgresKind ==> r == BuildRelational(g, ents, fks)
    ensures g.built ==> r == Built(g, None)
  {
    match kind
    case FileKind => Built(BuildFilesystem(g, ents), None)
    case PostgresKind => BuildRelational(g, ents, fks)
    case OtherKind => Built(g, None)
  }
}

=== FILE: graph.dfy ===
/** The entity graph of `entitygraph/graph.py` without networkx: nodes are
    positions in the source's entity list (entities compare by identity, so a
    position is exactly a node), edges map an unordered pair of positions to a
    flat attribute map. */
module EntityGraph {
  import opened Seqs
  import opened Strings
  import opened Entities

  /** An unordered pair of node positions, normalised so that `lo <= hi`. */
  datatype Pair = Pair(lo: nat, hi: nat)

  function Link(a: nat, b: nat): (p: Pair)
    ensures p.lo <= p.hi
    ensures (p.lo == a && p.hi == b) || (p.lo == b && p.hi == a)
  {
    if a <= b then Pair(a, b) else Pair(b, a)
  }

  /** An attribute value: a join column name, or the provenance flag. */
  datatype Attr = Column(name: string) | Flag(value: bool)

  type AttrMap = map<string, Attr>

  type Edges = map<Pair, AttrMap>

  const FromSchema: string := "from_schema"

  /** The attribute naming the join column of the entity `id`: `f'{id}_key'`. */
  function KeyAttr(id: string): (k: string)
    ensures k != FromSchema
  {
    assert (id + "_key")[|id + "_key"| - 1] == 'y';
    id + "_key"
  }

  lemma KeyAttrInjective(id1: string, id2: string)
    ensures KeyAttr(id1) == KeyAttr(id2) ==> id1 == id2
  {
    if KeyAttr(id1) == KeyAttr(id2) {
      assert KeyAttr(id1)[..|id1|] == id1;
      assert KeyAttr(id2)[..|id2|] == id2;
    }
  }

  /** The three attributes every edge-writing statement sets: the join column
      of each side and the provenance flag. When both sides carry the same
      identifier the second key wins, as in a Python dict literal. */
  function EdgeAttrs(id1: string, col1: string, id2: string, col2: string, fromSchema: bool): (m: AttrMap)
    ensures m.Keys == {KeyAttr(id1), KeyAttr(id2), FromSchema}
    ensures m[KeyAttr(id2)] == Column(col2)
    ensures id1 != id2 ==> m[KeyAttr(id1)] == Column(col1)
    ensures m[FromSchema] == Flag(fromSchema)
  {
    KeyAttrInjective(id1, id2);
    map[KeyAttr(id1) := Column(col1)][KeyAttr(id2) := Column(col2)][FromSchema := Flag(fromSchema)]
  }

  /** `from_schema` of the edge `p` is False: an inference pass has written it. */
  predicate Marked(e: Edges, p: Pair) {
    p in e && FromSchema in e[p] && e[p][FromSchema] == Flag(false)
  }

  datatype Graph = Graph(nodes: seq<nat>, edges: Edges, built: bool)

  const EmptyGraph: Graph := Graph([], map[], false)

  /** Nodes are distinct positions below `count`, and edges join nodes. */
  predicate WellFormed(g: Graph, count: nat) {
    && (forall n :: n in g.nodes ==> n < count)
    && NoDup(g.nodes)
    && (forall p :: p in g.edges ==> p.lo in g.nodes && p.hi in g.nodes)
  }

  /** `for ent in entities: if not self.has_node(ent): self.add_node(ent)`
      over the first `count` entities. */
  function AddNodes(nodes: seq<nat>, count: nat): (r: seq<nat>)
    ensures |nodes| <= |r| && r[..|nodes|] == nodes
    ensures forall x: nat :: x in r <==> x in nodes || x < count
    ensures NoDup(nodes) ==> NoDup(r)
  {
    if count == 0 then nodes
    else
      var r := AddNodes(nodes, count - 1);
      if count - 1 in r then r else r + [count - 1]
  }

  // ---------------------------------------------------------------------
  // The identifier-only export view (`string_nodes`).
  // ---------------------------------------------------------------------

  /** A graph over identifier strings; an edge is the set of its endpoints' identifiers. */
  datatype StringGraph = StringGraph(nodes: seq<string>, edges: set<set<string>>)

  function EndpointIds(ents: seq<Entity>, p: Pair): set<string>
    requires p.lo < |ents| && p.hi < |ents|
  {
    {ents[p.lo].identifier, ents[p.hi].identifier}
  }

  /** One node per distinct identifier, in node order, and for each edge the
      pair of its endpoints' identifiers; nothing else is carried over. */
  function StringNodes(g: Graph, ents: seq<Entity>): (r: StringGraph)
    requires WellFormed(g, |ents|)
    ensures NoDup(r.nodes)
    ensures forall x :: x in r.nodes <==> exists n :: n in g.nodes && ents[n].identifier == x
    ensures forall s :: s in r.edges <==> exists p :: p in g.edges && EndpointIds(ents, p) == s
  {
    assert forall i :: 0 <= i < |g.nodes| ==> g.nodes[i] < |ents| by {
      forall i | 0 <= i < |g.nodes|
        ensures g.nodes[i] < |ents|
      {
        assert g.nodes[i] in g.nodes;
      }
    }
    var ids := seq(|g.nodes|, i requires 0 <= i < |g.nodes| => ents[g.nodes[i]].identifier);
    assert forall x :: x in ids <==> exists n :: n in g.nodes && ents[n].identifier == x by {
      forall x | x in ids
        ensures exists n :: n in g.nodes && ents[n].identifier == x
      {
        var i :| 0 <= i < |ids| && ids[i] == x;
        assert g.nodes[i] in g.nodes;
      }
      forall x | exists n :: n in g.nodes && ents[n].identifier == x
        ensures x in ids
      {
        var n :| n in g.nodes && ents[n].identifier == x;
        var i :| 0 <= i < |g.nodes| && g.nodes[i] == n;
        assert ids[i] == x;
      }
    }
    StringGraph(Dedup(ids), set p | p in g.edges :: EndpointIds(ents, p))
  }
}

=== FILE: pathfinder.dfy ===
/** `optimize_paths_distance_hops` of the warehouse example: a breadth-first
    walk from `start` that records, for every node it reaches, the best
    (fewest-hop) path found and every alternative path seen.

    The graph is an adjacency list: node `u` is the index `u`, and `adj[u]`
    lists its neighbours in `G.neighbors` order, each once. */
module PathFinder {
  import opened Wrappers
  import opened Seqs

  type Adjacency = seq<seq<nat>>

  /** Every neighbour is a node, and no neighbour is listed twice. */
  predicate ValidAdjacency(adj: Adjacency) {
    forall u | 0 <= u < |adj| :: NoDup(adj[u]) && forall x :: x in adj[u] ==> x < |adj|
  }

  /** `w` is a walk along edges from `start` to `v`. */
  predicate IsWalk(adj: Adjacency, start: nat, w: seq<nat>, v: nat) {
    && |w| >= 1 && w[0] == start && w[|w| - 1] == v
    && forall i | 0 <= i < |w| - 1 :: w[i] < |adj| && w[i + 1] in adj[w[i]]
  }

  /** `{'path': best, 'paths': alts}`. */
  datatype PathRecord = PathRecord(best: seq<nat>, alts: seq<seq<nat>>)

  /** What the search promises of the record it keeps for `v`: the best path
      and every alternative are walks of at least one hop from `start` to `v`. */
  predicate RecordsWalks(adj: Adjacency, start: nat, rec: PathRecord, v: nat) {
    && |rec.best| >= 2 && IsWalk(adj, start, rec.best, v)
    && forall a :: a in rec.alts ==> |a| >= 2 && IsWalk(adj, start, a, v)
  }

  /** A node reached for the first time from a node whose best path is `via`. */
  function Discover(via: seq<nat>, n1: nat): (r: PathRecord)
    ensures r.best == via + [n1] && r.alts == [r.best]
  {
    PathRecord(via + [n1], [via + [n1]])
  }

  /** A node reached again by the candidate `cand`: the candidate is appended
      to the alternatives and becomes the best path when it is no longer than
      the current one, so ties go to the newest path. */
  function Relax(rec: PathRecord, cand: seq<nat>): (r: PathRecord)
    ensures r.alts == rec.alts + [cand]
    ensures |r.best| <= |rec.best| && |r.best| <= |cand|
    ensures r.best == cand || r.best == rec.best
    ensures |cand| <= |rec.best| ==> r.best == cand
  {
    if |rec.best| >= |cand| then PathRecord(cand, rec.alts + [cand])
    else PathRecord(rec.best, rec.alts + [cand])
  }

  /** A walk extended by one edge is a walk. */
  lemma WalkExtends(adj: Adjacency, start: nat, w: seq<nat>, u: nat, v: nat)
    requires IsWalk(adj, start, w, u) && u < |adj| && v in adj[u]
    ensures IsWalk(adj, start, w + [v], v)
  {
    var w' := w + [v];
    forall i | 0 <= i < |w'| - 1
      ensures w'[i] < |adj| && w'[i + 1] in adj[w'[i]]
    {
      if i < |w| - 1 {
        assert w'[i] == w[i] && w'[i + 1] == w[i + 1];
      } else {
        assert w'[i] == u && w'[i + 1] == v;
      }
    }
  }

  /** Distinct nodes below `n` number at most `n`. */
  lemma {:induction false} DistinctBounded(s: seq<nat>, n: nat)
    requires NoDup(s) && forall x :: x in s ==> x < n
    ensures |s| <= n
  {
    var elems := set x | x in s;
    DistinctElems(s);
    RangeBounded(elems, n);
  }

  lemma {:induction false} DistinctElems<T>(s: seq<T>)
    requires NoDup(s)
    ensures |set x | x in s| == |s|
  {
    if |s| > 0 {
      var front := s[..|s| - 1];
      var last := s[|s| - 1];
      assert NoDup(front);
      DistinctElems(front);
      assert (set x | x in s) == (set x | x in front) + {last} by {
        assert s == front + [last];
      }
      assert last !in front;
    }
  }

  lemma {:induction false} RangeBounded(elems: set<nat>, n: nat)
    requires forall x :: x in elems ==> x < n
    ensures |elems| <= n
  {
    if n > 0 {
      var rest := elems - {n - 1};
      RangeBounded(rest, n - 1);
    } else {
      assert elems == {};
    }
  }

  /** The closure argument behind the shortest-hop promise: if every neighbour
      of `start` has a level of at most 2 and every neighbour of a levelled
      node has a level at most one more, every node a walk of `k >= 1` hops
      reaches has a level of at most `k + 1`. */
  lemma {:induction false} WalksAreLevelled(adj: Adjacency, start: nat, level: map<nat, nat>, w: seq<nat>, v: nat)
    requires start < |adj|
    requires forall x :: x in adj[start] ==> x in level && level[x] <= 2
    requires forall u :: u in level ==> u < |adj| && forall x :: x in adj[u] ==> x in level && level[x] <= level[u] + 1
    requires IsWalk(adj, start, w, v) && |w| >= 2
    ensures v in level && level[v] <= |w|
    decreases |w|
  {
    var front := w[..|w| - 1];
    var u := front[|front| - 1];
    assert w[|w| - 2] == u && w[|w| - 1] == v;
    if |front| == 1 {
      assert u == start;
    } else {
      assert IsWalk(adj, start, front, u) by {
        forall i | 0 <= i < |front| - 1
          ensures front[i] < |adj| && front[i + 1] in adj[front[i]]
        {
          assert front[i] == w[i] && front[i + 1] == w[i + 1];
        }
      }
      WalksAreLevelled(adj, start, level, front, u);
    }
  }

  // ---------------------------------------------------------------------
  // The alternatives: one per expansion that reaches a node.
  // ---------------------------------------------------------------------

  /** The nodes of `done`, in order, that list `v` as a neighbour: when `done`
      have been expanded, the expansions that reached `v`. */
  function InNeighbours(adj: Adjacency, done: seq<nat>, v: nat): (r: seq<nat>)
    ensures forall u :: u in r ==> u in done && u < |adj| && v in adj[u]
    decreases |done|
  {
    if |done| == 0 then []
    else
      var u := done[|done| - 1];
      var front := done[..|done| - 1];
      assert forall x :: x in front ==> x in done;
      InNeighbours(adj, front, v) + (if u < |adj| && v in adj[u] then [u] else [])
  }

  /** The alternatives of `rec` match the nodes of `from` one to one and in
      order: the `k`-th ends with the hop from `from[k]` to `v`. */
  predicate AltsFrom(rec: PathRecord, from: seq<nat>, v: nat) {
    && |rec.alts| == |from|
    && forall k | 0 <= k < |from| :: |rec.alts[k]| >= 2 && rec.alts[k][|rec.alts[k]| - 2..] == [from[k], v]
  }

  /** Once the nodes of `done` are expanded, every record holds one
      alternative per expansion that reached it. */
  ghost predicate AltsDone(adj: Adjacency, paths: map<nat, PathRecord>, done: seq<nat>) {
    forall v :: v in paths ==> AltsFrom(paths[v], InNeighbours(adj, done, v), v)
  }

  /** The same while `n` is being expanded and its neighbours `seen` are done. */
  ghost predicate AltsKept(adj: Adjacency, paths: map<nat, PathRecord>, done: seq<nat>, n: nat, seen: seq<nat>) {
    forall v :: v in paths ==> AltsFrom(paths[v], InNeighbours(adj, done, v) + (if v in seen then [n] else []), v)
  }

  lemma InNeighboursSnoc(adj: Adjacency, done: seq<nat>, u: nat, v: nat)
    ensures InNeighbours(adj, done + [u], v) == InNeighbours(adj, done, v) + (if u < |adj| && v in adj[u] then [u] else [])
  {
    assert (done + [u])[..|done|] == done;
  }

  /** A node no expanded node lists has no alternative yet. */
  lemma InNeighboursNone(adj: Adjacency, done: seq<nat>, v: nat)
    requires forall u :: u in done && u < |adj| ==> v !in adj[u]
    ensures InNeighbours(adj, done, v) == []
  {
  }

  lemma StartAlts(adj: Adjacency, paths: map<nat, PathRecord>, done: seq<nat>, n: nat)
    requires AltsDone(adj, paths, done)
    ensures AltsKept(adj, paths, done, n, [])
  {
    forall v | v in paths
      ensures AltsFrom(paths[v], InNeighbours(adj, done, v) + (if v in [] then [n] else []), v)
    {
      assert InNeighbours(adj, done, v) + [] == InNeighbours(adj, done, v);
    }
  }

  lemma FinishAlts(adj: Adjacency, paths: map<nat, PathRecord>, done: seq<nat>, n: nat)
    requires n < |adj| && AltsKept(adj, paths, done, n, adj[n])
    ensures AltsDone(adj, paths, done + [n])
  {
    forall v | v in paths
      ensures AltsFrom(paths[v], InNeighbours(adj, done + [n], v), v)
    {
      InNeighboursSnoc(adj, done, n, v);
    }
  }

  /** Discovering `n1` from `n` gives it the one alternative through `n`. */
  lemma DiscoverAlts(adj: Adjacency, paths: map<nat, PathRecord>, done: seq<nat>, n: nat, seen: seq<nat>,
                     via: seq<nat>, n1: nat)
    requires AltsKept(adj, paths, done, n, seen)
    requires n1 !in paths && InNeighbours(adj, done, n1) == []
    requires |via| >= 2 && via[|via| - 1] == n
    ensures AltsKept(adj, paths[n1 := Discover(via, n1)], done, n, seen + [n1])
  {
    var paths' := paths[n1 := Discover(via, n1)];
    forall v | v in paths'
      ensures AltsFrom(paths'[v], InNeighbours(adj, done, v) + (if v in seen + [n1] then [n] else []), v)
    {
      if v == n1 {
        var c := via + [n1];
        assert c[|c| - 2..] == [n, n1];
        assert [] + [n] == [n];
      } else {
        assert (v in seen + [n1]) == (v in seen);
      }
    }
  }

  /** Relaxing `n1` from `n` appends the alternative through `n`. */
  lemma RelaxAlts(adj: Adjacency, paths: map<nat, PathRecord>, done: seq<nat>, n: nat, seen: seq<nat>,
                  via: seq<nat>, n1: nat)
    requires AltsKept(adj, paths, done, n, seen)
    requires n1 in paths && n1 !in seen
    requires |via| >= 2 && via[|via| - 1] == n
    ensures AltsKept(adj, paths[n1 := Relax(paths[n1], via + [n1])], done, n, seen + [n1])
  {
    var c := via + [n1];
    var paths' := paths[n1 := Relax(paths[n1], c)];
    forall v | v in paths'
      ensures AltsFrom(paths'[v], InNeighbours(adj, done, v) + (if v in seen + [n1] then [n] else []), v)
    {
      if v == n1 {
        var from := InNeighbours(adj, done, n1);
        assert AltsFrom(paths[n1], from + [], n1);
        assert from + [] == from;
        var alts' := paths'[n1].alts;
        assert alts' == paths[n1].alts + [c];
        forall k | 0 <= k < |from + [n]|
          ensures |alts'[k]| >= 2 && alts'[k][|alts'[k]| - 2..] == [(from + [n])[k], n1]
        {
          if k < |from| {
            assert alts'[k] == paths[n1].alts[k] && (from + [n])[k] == from[k];
          } else {
            assert c[|c| - 2..] == [n, n1];
          }
        }
      } else {
        assert (v in seen + [n1]) == (v in seen);
      }
    }
  }

  /** A node no expanded node has reached is not recorded: expanded nodes
      record all their neighbours. */
  lemma UnrecordedUnreached(adj: Adjacency, visits: seq<nat>, level: map<nat, nat>, h: nat, v: nat)
    requires Expanded(adj, visits, level, h) && v !in level
    ensures InNeighbours(adj, visits[..h], v) == []
  {
    forall u | u in visits[..h] && u < |adj|
      ensures v !in adj[u]
    {
      var i :| 0 <= i < h && visits[..h][i] == u;
      assert visits[i] == u;
    }
    InNeighboursNone(adj, visits[..h], v);
  }

  /** The records after the inner loop body for the neighbour `n1` of the
      node whose best path is `via`: a first sighting discovers `n1`, a later
      one relaxes its record. */
  function StepPaths(paths: map<nat, PathRecord>, via: seq<nat>, n1: nat): (r: map<nat, PathRecord>)
    ensures r.Keys == paths.Keys + {n1}
  {
    if n1 !in paths then paths[n1 := Discover(via, n1)] else paths[n1 := Relax(paths[n1], via + [n1])]
  }

  /** The records after the inner loop has handled the neighbours `s`, in order. */
  function FoldSteps(paths: map<nat, PathRecord>, via: seq<nat>, s: seq<nat>): (r: map<nat, PathRecord>)
    ensures forall v :: v in paths ==> v in r
    decreases |s|
  {
    if |s| == 0 then paths else StepPaths(FoldSteps(paths, via, s[..|s| - 1]), via, s[|s| - 1])
  }

  /** One more neighbour handled is one more step. */
  lemma FoldStepsNext(paths: map<nat, PathRecord>, via: seq<nat>, s: seq<nat>, k: nat)
    requires k < |s|
    ensures FoldSteps(paths, via, s[..k + 1]) == StepPaths(FoldSteps(paths, via, s[..k]), via, s[k])
  {
    assert s[..k + 1][..k] == s[..k];
  }

  /** Handling distinct neighbours `s` of `n` gives each of them one more
      alternative, the one through `n`, and leaves every other record alone. */
  lemma {:induction false} FoldAlts(adj: Adjacency, paths: map<nat, PathRecord>, done: seq<nat>, n: nat,
                                   via: seq<nat>, s: seq<nat>)
    requires AltsDone(adj, paths, done)
    requires forall v :: v !in paths ==> InNeighbours(adj, done, v) == []
    requires |via| >= 2 && via[|via| - 1] == n
    requires NoDup(s)
    ensures AltsKept(adj, FoldSteps(paths, via, s), done, n, s)
    decreases |s|
  {
    if |s| == 0 {
      StartAlts(adj, paths, done, n);
    } else {
      var front := s[..|s| - 1];
      var n1 := s[|s| - 1];
      assert s == front + [n1];
      assert NoDup(front);
      assert n1 !in front;
      FoldAlts(adj, paths, done, n, via, front);
      var p := FoldSteps(paths, via, front);
      if n1 !in p {
        DiscoverAlts(adj, p, done, n, front, via, n1);
      } else {
        RelaxAlts(adj, p, done, n, front, via, n1);
      }
    }
  }

  /** Every node queued once, exactly the recorded nodes queued. */
  ghost predicate Queue(adj: Adjacency, paths: map<nat, PathRecord>, visits: seq<nat>) {
    && NoDup(visits) && |visits| <= |adj|
    && (forall v :: v in visits <==> v in paths)
    && (forall v :: v in visits ==> v < |adj|)
  }

  /** Every record holds walks, and its best path's length is the node's level. */
  ghost predicate Records(adj: Adjacency, start: nat, paths: map<nat, PathRecord>, level: map<nat, nat>) {
    && level.Keys == paths.Keys
    && forall v :: v in paths ==> RecordAt(adj, start, paths, level, v)
  }

  /** The record of `v` holds walks and its best path's length is `v`'s level. */
  ghost predicate RecordAt(adj: Adjacency, start: nat, paths: map<nat, PathRecord>, level: map<nat, nat>, v: nat) {
    v in paths && v in level && |paths[v].best| == level[v] && RecordsWalks(adj, start, paths[v], v)
  }

  /** The neighbours of `start` lie on level 2. */
  ghost predicate FirstLevel(adj: Adjacency, start: nat, level: map<nat, nat>)
    requires start < |adj|
  {
    forall x :: x in adj[start] ==> x in level && level[x] == 2
  }

  /** Levels never decrease along the queue. */
  ghost predicate Sorted(visits: seq<nat>, level: map<nat, nat>) {
    forall i, k | 0 <= i < k < |visits| :: visits[i] in level && visits[k] in level && level[visits[i]] <= level[visits[k]]
  }

  /** The facts the queue discipline keeps between steps, over the queue
      history `visits` and a ghost `level` giving every recorded node the
      length of its best path. */
  ghost predicate Levelled(adj: Adjacency, start: nat, paths: map<nat, PathRecord>, visits: seq<nat>, level: map<nat, nat>)
    requires start < |adj|
  {
    Queue(adj, paths, visits) && Records(adj, start, paths, level) && FirstLevel(adj, start, level) && Sorted(visits, level)
  }

  /** The first `h` queued nodes have been expanded: each neighbour is recorded
      one level deeper at most. */
  ghost predicate Expanded(adj: Adjacency, visits: seq<nat>, level: map<nat, nat>, h: nat) {
    && h <= |visits|
    && forall i | 0 <= i < h ::
         visits[i] < |adj| && visits[i] in level &&
         forall x :: x in adj[visits[i]] ==> x in level && level[x] <= level[visits[i]] + 1
  }

  /** The nodes still queued from position `h` on lie at most on level `bound`. */
  ghost predicate Frontier(visits: seq<nat>, level: map<nat, nat>, h: nat, bound: nat) {
    forall k | h <= k < |visits| :: visits[k] in level && level[visits[k]] <= bound
  }

  /** One state grows into the next: the queue only grows at its end and
      levels (so best-path lengths) never change. */
  ghost predicate Extends(visits: seq<nat>, level: map<nat, nat>, visits': seq<nat>, level': map<nat, nat>) {
    && |visits| <= |visits'| && visits'[..|visits|] == visits
    && (forall v :: v in level ==> v in level' && level'[v] == level[v])
  }

  /** Growing the state keeps the expanded prefix expanded. */
  lemma ExtendsKeepsExpanded(adj: Adjacency, visits: seq<nat>, level: map<nat, nat>,
                             visits': seq<nat>, level': map<nat, nat>, h: nat)
    requires Expanded(adj, visits, level, h) && Extends(visits, level, visits', level')
    ensures Expanded(adj, visits', level', h)
  {
    forall i | 0 <= i < h
      ensures visits'[i] < |adj| && visits'[i] in level'
      ensures forall x :: x in adj[visits'[i]] ==> x in level' && level'[x] <= level'[visits'[i]] + 1
    {
      assert visits'[i] == visits'[..|visits|][i];
      forall x | x in adj[visits[i]]
        ensures x in level' && level'[x] <= level'[visits'[i]] + 1
      {
        assert x in level;
      }
    }
  }

  /** Queueing a node not seen before keeps every node queued once. */
  lemma DiscoverQueue(adj: Adjacency, paths: map<nat, PathRecord>, visits: seq<nat>, n1: nat, rec: PathRecord)
    requires Queue(adj, paths, visits) && n1 < |adj| && n1 !in paths
    ensures Queue(adj, paths[n1 := rec], visits + [n1])
  {
    var visits' := visits + [n1];
    assert forall i | 0 <= i < |visits| :: visits'[i] == visits[i];
    assert NoDup(visits') by {
      forall i, k | 0 <= i < k < |visits'|
        ensures visits'[i] != visits'[k]
      {
        if k == |visits| {
          assert visits[i] in visits;
        }
      }
    }
    DistinctBounded(visits', |adj|) by {
      assert forall v :: v in visits' ==> v in visits || v == n1;
    }
  }

  /** A node queued one level below the node being expanded keeps the queue
      sorted, because nothing queued lies deeper than that. */
  lemma DiscoverSorted(visits: seq<nat>, level: map<nat, nat>, h: nat, n1: nat)
    requires Sorted(visits, level) && h < |visits| && visits[h] in level
    requires Frontier(visits, level, h, level[visits[h]] + 1)
    requires n1 !in visits
    ensures var lv := level[visits[h]];
      && Sorted(visits + [n1], level[n1 := lv + 1])
      && Frontier(visits + [n1], level[n1 := lv + 1], h, lv + 1)
  {
    var lv := level[visits[h]];
    var visits', level' := visits + [n1], level[n1 := lv + 1];
    assert forall i | 0 <= i < |visits| :: visits'[i] == visits[i] && visits[i] != n1;
    forall i | 0 <= i < |visits|
      ensures visits[i] in level && level[visits[i]] <= lv + 1
    {
      if i < h {
        assert level[visits[i]] <= level[visits[h]];
      }
    }
  }

  /** Replacing (or adding) one record by a record of walks whose best
      length is the node's level keeps the records. */
  lemma RecordsUpdate(adj: Adjacency, start: nat, paths: map<nat, PathRecord>, level: map<nat, nat>,
                      n1: nat, rec: PathRecord, l: nat)
    requires Records(adj, start, paths, level)
    requires |rec.best| == l && RecordsWalks(adj, start, rec, n1)
    ensures Records(adj, start, paths[n1 := rec], level[n1 := l])
  {
    var paths', level' := paths[n1 := rec], level[n1 := l];
    forall v | v in paths'
      ensures RecordAt(adj, start, paths', level', v)
    {
      if v != n1 {
        assert RecordAt(adj, start, paths, level, v);
      }
    }
  }

  /** A fresh record of walks one level below a node keeps the records. */
  lemma DiscoverRecords(adj: Adjacency, start: nat, paths: map<nat, PathRecord>, level: map<nat, nat>,
                         via: seq<nat>, lv: nat, n1: nat)
    requires Records(adj, start, paths, level) && n1 !in paths
    requires |via| >= 1 && lv == |via| && IsWalk(adj, start, via + [n1], n1)
    requires start < |adj| && FirstLevel(adj, start, level)
    ensures Records(adj, start, paths[n1 := Discover(via, n1)], level[n1 := lv + 1])
    ensures FirstLevel(adj, start, level[n1 := lv + 1])
  {
    RecordsUpdate(adj, start, paths, level, n1, Discover(via, n1), lv + 1);
  }

  /** An already queued node lies at most one level below the node at `h`. */
  lemma QueuedWithinReach(visits: seq<nat>, level: map<nat, nat>, h: nat, n1: nat)
    requires Sorted(visits, level) && h < |visits| && visits[h] in level
    requires Frontier(visits, level, h, level[visits[h]] + 1)
    requires n1 in visits
    ensures n1 in level && level[n1] <= level[visits[h]] + 1
  {
    var i :| 0 <= i < |visits| && visits[i] == n1;
    if i < h {
      assert level[visits[i]] <= level[visits[h]];
    }
  }

  /** Relaxing a node with a candidate no shorter than its level keeps the
      records: a replacement is a walk of the same length. */
  /** A relaxed record of walks, relaxed with a walk, is a record of walks. */
  lemma RelaxKeepsWalks(adj: Adjacency, start: nat, rec: PathRecord, cand: seq<nat>, v: nat)
    requires RecordsWalks(adj, start, rec, v) && |cand| >= 2 && IsWalk(adj, start, cand, v)
    ensures RecordsWalks(adj, start, Relax(rec, cand), v)
  {
    var r := Relax(rec, cand);
    forall a | a in r.alts
      ensures |a| >= 2 && IsWalk(adj, start, a, v)
    {
      if a != cand {
        assert a in rec.alts;
      }
    }
  }

  lemma RelaxRecords(adj: Adjacency, start: nat, paths: map<nat, PathRecord>, level: map<nat, nat>, via: seq<nat>, n1: nat)
    requires Records(adj, start, paths, level) && n1 in paths
    requires |via| >= 1 && level[n1] <= |via| + 1 && IsWalk(adj, start, via + [n1], n1)
    ensures Records(adj, start, paths[n1 := Relax(paths[n1], via + [n1])], level)
  {
    var cand := via + [n1];
    assert RecordAt(adj, start, paths, level, n1);
    RelaxKeepsWalks(adj, start, paths[n1], cand, n1);
    RecordsUpdate(adj, start, paths, level, n1, Relax(paths[n1], cand), level[n1]);
    assert level[n1 := level[n1]] == level;
  }

  /** The inner loop body for a neighbour `n1` of `n = visits[h]` seen for
      the first time: it gets the best path `via + [n1]`, that path as its
      only alternative, and joins the queue. */
  method DiscoverNeighbour(adj: Adjacency, start: nat, paths: map<nat, PathRecord>, visits: seq<nat>,
                    ghost level: map<nat, nat>, h: nat, n: nat, ghost lv: nat, via: seq<nat>, n1: nat)
    returns (paths': map<nat, PathRecord>, visits': seq<nat>, ghost level': map<nat, nat>)
    requires start < |adj| && n1 < |adj|
    requires Levelled(adj, start, paths, visits, level)
    requires h < |visits| && visits[h] == n && level[n] == lv && paths[n].best == via
    requires Frontier(visits, level, h, lv + 1)
    requires n < |adj| && n1 in adj[n]
    ensures Levelled(adj, start, paths', visits', level')
    ensures Extends(visits, level, visits', level')
    ensures h < |visits'| && visits'[h] == n && level'[n] == lv && paths'[n].best == via
    ensures Frontier(visits', level', h, lv + 1)
    ensures n1 in paths' && n1 in level'
    requires n1 !in paths
    ensures visits' == visits + [n1] && paths' == paths[n1 := Discover(via, n1)]
  {
    DiscoverKeepsLevelled(adj, start, paths, visits, level, h, n, lv, via, n1);
    DiscoverExtends(visits, level, h, n, lv, n1);
    paths' := paths[n1 := Discover(via, n1)];
    level' := level[n1 := lv + 1];
    visits' := visits + [n1];
  }

  lemma DiscoverKeepsLevelled(adj: Adjacency, start: nat, paths: map<nat, PathRecord>, visits: seq<nat>,
                              level: map<nat, nat>, h: nat, n: nat, lv: nat, via: seq<nat>, n1: nat)
    requires start < |adj| && n1 < |adj|
    requires Levelled(adj, start, paths, visits, level)
    requires h < |visits| && visits[h] == n && level[n] == lv && paths[n].best == via
    requires Frontier(visits, level, h, lv + 1)
    requires n < |adj| && n1 in adj[n] && n1 !in paths
    ensures Levelled(adj, start, paths[n1 := Discover(via, n1)], visits + [n1], level[n1 := lv + 1])
    ensures Frontier(visits + [n1], level[n1 := lv + 1], h, lv + 1)
  {
    assert n in visits;
    WalkExtends(adj, start, via, n, n1);
    DiscoverQueue(adj, paths, visits, n1, Discover(via, n1));
    DiscoverSorted(visits, level, h, n1);
    DiscoverRecords(adj, start, paths, level, via, lv, n1);
  }

  lemma DiscoverExtends(visits: seq<nat>, level: map<nat, nat>, h: nat, n: nat, lv: nat, n1: nat)
    requires h < |visits| && visits[h] == n && n in level && level[n] == lv && n1 !in level
    ensures Extends(visits, level, visits + [n1], level[n1 := lv + 1])
    ensures (visits + [n1])[h] == n && level[n1 := lv + 1][n] == lv
  {
    assert (visits + [n1])[..|visits|] == visits;
  }

  /** The inner loop body for a neighbour `n1` already recorded: the candidate
      `via + [n1]` is appended to its alternatives and replaces its best path
      when no longer; the queue is unchanged. */
  method RelaxNeighbour(adj: Adjacency, start: nat, paths: map<nat, PathRecord>, visits: seq<nat>,
                    ghost level: map<nat, nat>, h: nat, n: nat, ghost lv: nat, via: seq<nat>, n1: nat)
    returns (paths': map<nat, PathRecord>, visits': seq<nat>, ghost level': map<nat, nat>)
    requires start < |adj| && n1 < |adj|
    requires Levelled(adj, start, paths, visits, level)
    requires h < |visits| && visits[h] == n && level[n] == lv && paths[n].best == via
    requires Frontier(visits, level, h, lv + 1)
    requires n < |adj| && n1 in adj[n]
    ensures Levelled(adj, start, paths', visits', level')
    ensures Extends(visits, level, visits', level')
    ensures h < |visits'| && visits'[h] == n && level'[n] == lv && paths'[n].best == via
    ensures Frontier(visits', level', h, lv + 1)
    ensures n1 in paths' && n1 in level'
    requires n1 in paths
    ensures visits' == visits && paths' == paths[n1 := Relax(paths[n1], via + [n1])]
  {
    assert n in visits;
    WalkExtends(adj, start, via, n, n1);
    QueuedWithinReach(visits, level, h, n1);
    RelaxRecords(adj, start, paths, level, via, n1);
    paths' := paths[n1 := Relax(paths[n1], via + [n1])];
    level' := level;
    visits' := visits;
    assert visits'[..|visits|] == visits;
  }

  /** One pass of the inner `for n1 in G.neighbors(n)` loop body. */
  method VisitNeighbour(adj: Adjacency, start: nat, paths: map<nat, PathRecord>, visits: seq<nat>,
                    ghost level: map<nat, nat>, h: nat, n: nat, ghost lv: nat, via: seq<nat>, n1: nat)
    returns (paths': map<nat, PathRecord>, visits': seq<nat>, ghost level': map<nat, nat>)
    requires start < |adj| && n1 < |adj|
    requires Levelled(adj, start, paths, visits, level)
    requires Expanded(adj, visits, level, h)
    requires h < |visits| && visits[h] == n && level[n] == lv && paths[n].best == via
    requires Frontier(visits, level, h, lv + 1)
    requires n < |adj| && n1 in adj[n]
    ensures Levelled(adj, start, paths', visits', level')
    ensures Expanded(adj, visits', level', h)
    ensures Extends(visits, level, visits', level')
    ensures h < |visits'| && visits'[h] == n && level'[n] == lv && paths'[n].best == via
    ensures Frontier(visits', level', h, lv + 1)
    ensures n1 in paths' && n1 in level'
    ensures paths' == StepPaths(paths, via, n1) && visits'[..h] == visits[..h]
  {
    if n1 !in paths {
      paths', visits', level' := DiscoverNeighbour(adj, start, paths, visits, level, h, n, lv, via, n1);
    } else {
      paths', visits', level' := RelaxNeighbour(adj, start, paths, visits, level, h, n, lv, via, n1);
    }
    ExtendsKeepsExpanded(adj, visits, level, visits', level', h);
    PrefixKept(visits, visits', h);
  }

  lemma PrefixNext(s: seq<nat>, h: nat)
    requires h < |s|
    ensures s[..h + 1] == s[..h] + [s[h]]
  {
  }

  /** A queue that only grows at its end keeps every prefix. */
  lemma PrefixKept(visits: seq<nat>, visits': seq<nat>, h: nat)
    requires h <= |visits| <= |visits'| && visits'[..|visits|] == visits
    ensures visits'[..h] == visits[..h]
  {
    assert visits'[..h] == visits'[..|visits|][..h];
  }

  /** A queued node's best path is at least one hop and ends at the node. */
  lemma BestEndsAt(adj: Adjacency, start: nat, paths: map<nat, PathRecord>, visits: seq<nat>,
                   level: map<nat, nat>, n: nat)
    requires start < |adj| && Levelled(adj, start, paths, visits, level) && n in visits
    ensures n in paths && |paths[n].best| >= 2 && paths[n].best[|paths[n].best| - 1] == n
  {
    assert RecordAt(adj, start, paths, level, n);
  }

  /** A node not yet recorded has been reached by no expanded node. */
  lemma UnrecordedNoAlts(adj: Adjacency, start: nat, paths: map<nat, PathRecord>, visits: seq<nat>,
                         level: map<nat, nat>, h: nat, v: nat)
    requires start < |adj| && Levelled(adj, start, paths, visits, level)
    requires Expanded(adj, visits, level, h) && v !in paths
    ensures InNeighbours(adj, visits[..h], v) == []
  {
    assert v !in level;
    UnrecordedUnreached(adj, visits, level, h, v);
  }

  /** Expanding the queued node `n` adds exactly one alternative, through `n`,
      to the record of each of its neighbours. */
  lemma ExpansionAlts(adj: Adjacency, start: nat, paths: map<nat, PathRecord>, visits: seq<nat>,
                      level: map<nat, nat>, h: nat, n: nat, via: seq<nat>)
    requires ValidAdjacency(adj) && start < |adj| && Levelled(adj, start, paths, visits, level)
    requires h < |visits| && visits[h] == n && paths[n].best == via && Expanded(adj, visits, level, h)
    requires AltsDone(adj, paths, visits[..h])
    ensures AltsDone(adj, FoldSteps(paths, via, adj[n]), visits[..h + 1])
  {
    PrefixNext(visits, h);
    assert n in visits && n < |adj|;
    BestEndsAt(adj, start, paths, visits, level, n);
    forall v | v !in paths
      ensures InNeighbours(adj, visits[..h], v) == []
    {
      UnrecordedNoAlts(adj, start, paths, visits, level, h, v);
    }
    FoldAlts(adj, paths, visits[..h], n, via, adj[n]);
    FinishAlts(adj, FoldSteps(paths, via, adj[n]), visits[..h], n);
  }

  /** Every node of `s` is recorded. */
  ghost predicate AllRecorded(s: seq<nat>, level: map<nat, nat>) {
    forall x :: x in s ==> x in level
  }

  lemma RecordedOneMore(s: seq<nat>, k: nat, level: map<nat, nat>, level': map<nat, nat>)
    requires k < |s| && AllRecorded(s[..k], level) && s[k] in level'
    requires forall v :: v in level ==> v in level'
    ensures AllRecorded(s[..k + 1], level')
  {
    assert s[..k + 1] == s[..k] + [s[k]];
  }

  /** One iteration of the inner loop: visits the `k`-th neighbour of
      `n = visits[h]`, whose level is `lv` and best path `via`. */
  method VisitNext(adj: Adjacency, start: nat, paths: map<nat, PathRecord>, visits: seq<nat>,
                   ghost level: map<nat, nat>, h: nat, n: nat, ghost lv: nat, via: seq<nat>, k: nat)
    returns (paths': map<nat, PathRecord>, visits': seq<nat>, ghost level': map<nat, nat>)
    requires ValidAdjacency(adj) && start < |adj| && n < |adj| && k < |adj[n]|
    requires Levelled(adj, start, paths, visits, level)
    requires Expanded(adj, visits, level, h)
    requires h < |visits| && visits[h] == n && level[n] == lv && paths[n].best == via
    requires Frontier(visits, level, h, lv + 1)
    requires AllRecorded(adj[n][..k], level)
    ensures Levelled(adj, start, paths', visits', level')
    ensures Expanded(adj, visits', level', h)
    ensures h < |visits'| && visits'[h] == n && level'[n] == lv && paths'[n].best == via
    ensures Frontier(visits', level', h, lv + 1)
    ensures AllRecorded(adj[n][..k + 1], level')
    ensures paths' == StepPaths(paths, via, adj[n][k]) && visits'[..h] == visits[..h]
  {
    var n1 := adj[n][k];
    assert n1 in adj[n] && n1 < |adj|;
    paths', visits', level' := VisitNeighbour(adj, start, paths, visits, level, h, n, lv, via, n1);
    RecordedOneMore(adj[n], k, level, level');
  }

  /** The inner `for n1 in G.neighbors(n)` loop for `n = visits[h]`: afterwards
      every neighbour of `n` is recorded. */
  method VisitNeighbours(adj: Adjacency, start: nat, paths: map<nat, PathRecord>, visits: seq<nat>,
                         ghost level: map<nat, nat>, h: nat)
    returns (paths': map<nat, PathRecord>, visits': seq<nat>, ghost level': map<nat, nat>)
    requires ValidAdjacency(adj) && start < |adj|
    requires Levelled(adj, start, paths, visits, level)
    requires h < |visits| && Expanded(adj, visits, level, h)
    requires Frontier(visits, level, h, level[visits[h]] + 1)
    ensures Levelled(adj, start, paths', visits', level')
    ensures h < |visits'| && visits'[h] == visits[h] && Expanded(adj, visits', level', h)
    ensures Frontier(visits', level', h, level'[visits'[h]] + 1)
    ensures forall x :: x in adj[visits'[h]] ==> x in visits'
    ensures visits'[..h + 1] == visits[..h + 1]
    ensures paths' == FoldSteps(paths, paths[visits[h]].best, adj[visits[h]])
  {
    var n := visits[h];
    assert n in visits && n < |adj|;
    ghost var lv := level[n];
    ghost var done := visits[..h];
    var via := paths[n].best;
    var nbrs := adj[n];
    paths', visits', level' := paths, visits, level;
    var k := 0;
    while k < |nbrs|
      invariant k <= |nbrs|
      invariant Levelled(adj, start, paths', visits', level')
      invariant Expanded(adj, visits', level', h)
      invariant h < |visits'| && visits'[h] == n && level'[n] == lv && paths'[n].best == via
      invariant Frontier(visits', level', h, lv + 1)
      invariant AllRecorded(nbrs[..k], level')
      invariant visits'[..h] == done && paths' == FoldSteps(paths, via, nbrs[..k])
    {
      FoldStepsNext(paths, via, nbrs, k);
      paths', visits', level' := VisitNext(adj, start, paths', visits', level', h, n, lv, via, k);
      k := k + 1;
    }
    assert nbrs[..|nbrs|] == nbrs;
    PrefixNext(visits', h);
    PrefixNext(visits, h);
    forall x | x in adj[n]
      ensures x in visits'
    {
      assert x in level';
    }
  }

  /** Once the neighbours of `visits[h]` are recorded, the first `h + 1`
      queued nodes are expanded and the rest of the queue lies within one
      level of its new head. */
  lemma ExpandedOneMore(adj: Adjacency, visits: seq<nat>, level: map<nat, nat>, h: nat)
    requires h < |visits| && Expanded(adj, visits, level, h)
    requires visits[h] < |adj| && visits[h] in level
    requires forall x :: x in adj[visits[h]] ==> x in visits
    requires Sorted(visits, level) && Frontier(visits, level, h, level[visits[h]] + 1)
    ensures Expanded(adj, visits, level, h + 1)
    ensures h + 1 < |visits| ==> Frontier(visits, level, h + 1, level[visits[h + 1]] + 1)
  {
    forall x | x in adj[visits[h]]
      ensures x in level && level[x] <= level[visits[h]] + 1
    {
      QueuedWithinReach(visits, level, h, x);
    }
    if h + 1 < |visits| {
      assert level[visits[h]] <= level[visits[h + 1]];
    }
  }

  /** The body of the `while nodes_to_traverse` loop: expands the node at
      queue position `h` by visiting its neighbours in order. */
  method ExpandNode(adj: Adjacency, start: nat, paths: map<nat, PathRecord>, visits: seq<nat>,
                    ghost level: map<nat, nat>, h: nat)
    returns (paths': map<nat, PathRecord>, visits': seq<nat>, ghost level': map<nat, nat>)
    requires ValidAdjacency(adj) && start < |adj|
    requires Levelled(adj, start, paths, visits, level)
    requires h < |visits| && Expanded(adj, visits, level, h)
    requires Frontier(visits, level, h, level[visits[h]] + 1)
    requires AltsDone(adj, paths, visits[..h])
    ensures Levelled(adj, start, paths', visits', level')
    ensures Expanded(adj, visits', level', h + 1)
    ensures h + 1 < |visits'| ==> Frontier(visits', level', h + 1, level'[visits'[h + 1]] + 1)
    ensures AltsDone(adj, paths', visits'[..h + 1])
  {
    paths', visits', level' := VisitNeighbours(adj, start, paths, visits, level, h);
    ExpansionAlts(adj, start, paths, visits, level, h, visits[h], paths[visits[h]].best);
    assert visits'[h] in visits';
    ExpandedOneMore(adj, visits', level', h);
  }

  /** The first loop: every neighbour of `start` gets the record
      `{'path': [start, n], 'paths': []}` and is queued. */
  method Seed(adj: Adjacency, start: nat) returns (paths: map<nat, PathRecord>, visits: seq<nat>, ghost level: map<nat, nat>)
    requires ValidAdjacency(adj) && start < |adj|
    ensures visits == adj[start]
    ensures forall v :: v in paths ==> paths[v] == PathRecord([start, v], [])
    ensures Levelled(adj, start, paths, visits, level)
  {
    var first := adj[start];
    paths := map[];
    visits := [];
    var j := 0;
    while j < |first|
      invariant j <= |first|
      invariant visits == first[..j]
      invariant forall v :: v in paths <==> v in visits
      invariant forall v :: v in paths ==> paths[v] == PathRecord([start, v], [])
    {
      var n := first[j];
      paths := paths[n := PathRecord([start, n], [])];
      assert first[..j + 1] == first[..j] + [n];
      visits := visits + [n];
      j := j + 1;
    }
    assert visits == first;
    level := map v | v in paths :: 2;
    SeedLevelled(adj, start, paths, visits);
  }

  /** The seeded state: each neighbour of `start` recorded on level 2. */
  lemma SeedLevelled(adj: Adjacency, start: nat, paths: map<nat, PathRecord>, visits: seq<nat>)
    requires ValidAdjacency(adj) && start < |adj| && visits == adj[start]
    requires forall v :: v in paths <==> v in visits
    requires forall v :: v in paths ==> paths[v] == PathRecord([start, v], [])
    ensures Levelled(adj, start, paths, visits, map v | v in paths :: 2)
  {
    forall v | v in paths
      ensures RecordsWalks(adj, start, paths[v], v)
    {
      assert IsWalk(adj, start, [start], start);
      WalkExtends(adj, start, [start], start, v);
    }
    DistinctBounded(visits, |adj|);
  }

  /** The seeded records have no alternatives, and nothing is expanded yet. */
  lemma SeedAlts(adj: Adjacency, start: nat, paths: map<nat, PathRecord>)
    requires forall v :: v in paths ==> paths[v] == PathRecord([start, v], [])
    ensures forall visits: seq<nat> :: AltsDone(adj, paths, visits[..0])
  {
  }

  /** The search itself. `paths` is the dictionary it builds and `visits` the
      nodes in the order they entered `nodes_to_traverse`: every node is queued
      at most once, exactly the nodes with a record are queued, every record
      holds walks from `start`, and the best path of every node is no longer
      than any walk of one hop or more from `start` to it. */
  method ExplorePaths(adj: Adjacency, start: nat) returns (paths: map<nat, PathRecord>, visits: seq<nat>)
    requires ValidAdjacency(adj) && start < |adj|
    ensures NoDup(visits)
    ensures forall v :: v in visits <==> v in paths
    ensures forall v :: v in paths ==> RecordsWalks(adj, start, paths[v], v)
    ensures forall v, w :: IsWalk(adj, start, w, v) && |w| >= 2 ==> v in paths && |paths[v].best| <= |w|
    ensures AltsDone(adj, paths, visits)
  {
    ghost var level: map<nat, nat>;
    paths, visits, level := Seed(adj, start);
    SeedAlts(adj, start, paths);
    var h := 0;
    while h < |visits|
      invariant Levelled(adj, start, paths, visits, level)
      invariant Expanded(adj, visits, level, h)
      invariant h < |visits| ==> Frontier(visits, level, h, level[visits[h]] + 1)
      invariant h <= |visits| && AltsDone(adj, paths, visits[..h])
      decreases |adj| - h
    {
      paths, visits, level := ExpandNode(adj, start, paths, visits, level, h);
      h := h + 1;
    }
    assert visits[..h] == visits;
    forall v, w | IsWalk(adj, start, w, v) && |w| >= 2
      ensures v in paths && |paths[v].best| <= |w|
    {
      forall u | u in level
        ensures u < |adj| && forall x :: x in adj[u] ==> x in level && level[x] <= level[u] + 1
      {
        var i :| 0 <= i < |visits| && visits[i] == u;
      }
      WalksAreLevelled(adj, start, level, w, v);
    }
  }

  /** `optimize_paths_distance_hops(G, start, end)`: the record kept for `end`,
      or `None` where the source fails — `start` is not a node (`G.neighbors`
      raises) or `end` was never reached (`paths[end]` raises `KeyError`).
      The ghost `order` is the order in which the search expanded the nodes
      it reached: the alternatives of the record are one per node of `order`
      listing `end` as a neighbour, in that order, each ending with the hop
      from that node. */
  method OptimizePathsDistanceHops(adj: Adjacency, start: nat, end: nat)
    returns (r: Option<PathRecord>, ghost order: seq<nat>)
    requires ValidAdjacency(adj)
    ensures start >= |adj| ==> r.None?
    ensures r.Some? ==> RecordsWalks(adj, start, r.value, end)
    ensures r.Some? ==> forall w :: IsWalk(adj, start, w, end) && |w| >= 2 ==> |r.value.best| <= |w|
    ensures start < |adj| && r.None? ==> forall w :: !(IsWalk(adj, start, w, end) && |w| >= 2)
    ensures NoDup(order)
    ensures forall u :: u in order ==> exists w :: IsWalk(adj, start, w, u) && |w| >= 2
    ensures start < |adj| ==> forall u, w :: IsWalk(adj, start, w, u) && |w| >= 2 ==> u in order
    ensures r.Some? ==> AltsFrom(r.value, InNeighbours(adj, order, end), end)
  {
    if start >= |adj| {
      return None, [];
    }
    var paths, visits := ExplorePaths(adj, start);
    order := visits;
    forall u | u in order
      ensures exists w :: IsWalk(adj, start, w, u) && |w| >= 2
    {
      assert RecordsWalks(adj, start, paths[u], u);
    }
    if end in paths {
      r := Some(paths[end]);
    } else {
      r := None;
    }
  }
}

=== FILE: postgres.dfy ===
/** The pure part of `PostgresSource`: grouping catalog rows into entities
    and resolving foreign-key rows to entity triples. Catalog and
    foreign-key rows are inputs; the queries that produce them are not modelled. */
module Postgres {
  import opened Wrappers
  import opened Seqs
  import opened Strings
  import opened Entities

  /** One row of `information_schema.columns` (the four fields read). */
  datatype CatalogRow = CatalogRow(catalog: string, schema: string, table: string, column: string)

  /** The group-by key `(table_catalog, table_schema, table_name)`. */
  datatype TableKey = TableKey(catalog: string, schema: string, table: string)

  function KeyOf(row: CatalogRow): TableKey {
    TableKey(row.catalog, row.schema, row.table)
  }

  /** Schemas whose tables are never listed. */
  const SystemSchemas: seq<string> := ["information_schema", "pg_catalog"]

  predicate IsUserTable(k: TableKey) {
    k.schema !in SystemSchemas
  }

  /** `'{0}.{1}.{2}'.format(catalog, schema, table)`. */
  function IdentifierOf(k: TableKey): string {
    k.catalog + "." + k.schema + "." + k.table
  }

  // ---------------------------------------------------------------------
  // Key order. pandas' group-by sorts its keys; Python compares strings by
  // code point and tuples lexicographically.
  // ---------------------------------------------------------------------

  predicate StrLess(a: string, b: string) {
    if |a| == 0 then |b| > 0
    else if |b| == 0 then false
    else a[0] < b[0] || (a[0] == b[0] && StrLess(a[1..], b[1..]))
  }

  lemma {:induction false} StrLessIrreflexive(a: string)
    ensures !StrLess(a, a)
  {
    if |a| > 0 {
      StrLessIrreflexive(a[1..]);
    }
  }

  lemma {:induction false} StrLessTransitive(a: string, b: string, c: string)
    requires StrLess(a, b) && StrLess(b, c)
    ensures StrLess(a, c)
  {
    if |a| > 0 && a[0] == b[0] && b[0] == c[0] {
      StrLessTransitive(a[1..], b[1..], c[1..]);
    }
  }

  lemma {:induction false} StrLessTotal(a: string, b: string)
    requires a != b
    ensures StrLess(a, b) || StrLess(b, a)
  {
    if |a| > 0 && |b| > 0 && a[0] == b[0] {
      assert a == [a[0]] + a[1..];
      assert b == [b[0]] + b[1..];
      StrLessTotal(a[1..], b[1..]);
    }
  }

  predicate KeyLess(k1: TableKey, k2: TableKey) {
    || StrLess(k1.catalog, k2.catalog)
    || (k1.catalog == k2.catalog && StrLess(k1.schema, k2.schema))
    || (k1.catalog == k2.catalog && k1.schema == k2.schema && StrLess(k1.table, k2.table))
  }

  lemma KeyLessIrreflexive(k: TableKey)
    ensures !KeyLess(k, k)
  {
    StrLessIrreflexive(k.catalog);
    StrLessIrreflexive(k.schema);
    StrLessIrreflexive(k.table);
  }

  lemma KeyLessTransitive(k1: TableKey, k2: TableKey, k3: TableKey)
    requires KeyLess(k1, k2) && KeyLess(k2, k3)
    ensures KeyLess(k1, k3)
  {
    if StrLess(k1.catalog, k2.catalog) && StrLess(k2.catalog, k3.catalog) {
      StrLessTransitive(k1.catalog, k2.catalog, k3.catalog);
    } else if k1.catalog == k2.catalog && k2.catalog == k3.catalog {
      if StrLess(k1.schema, k2.schema) && StrLess(k2.schema, k3.schema) {
        StrLessTransitive(k1.schema, k2.schema, k3.schema);
      } else if k1.schema == k2.schema && k2.schema == k3.schema {
        StrLessTransitive(k1.table, k2.table, k3.table);
      }
    }
  }

  lemma KeyLessTotal(k1: TableKey, k2: TableKey)
    requires k1 != k2
    ensures KeyLess(k1, k2) || KeyLess(k2, k1)
  {
    if k1.catalog != k2.catalog {
      StrLessTotal(k1.catalog, k2.catalog);
    } else if k1.schema != k2.schema {
      StrLessTotal(k1.schema, k2.schema);
    } else {
      StrLessTotal(k1.table, k2.table);
    }
  }

  /** Strictly increasing, hence also free of repeats. */
  predicate SortedKeys(ks: seq<TableKey>) {
    forall i, j :: 0 <= i < j < |ks| ==> KeyLess(ks[i], ks[j])
  }

  function InsertKey(k: TableKey, ks: seq<TableKey>): (r: seq<TableKey>)
    requires SortedKeys(ks)
    ensures SortedKeys(r)
    ensures forall x :: x in r <==> x in ks || x == k
  {
    if |ks| == 0 then [k]
    else if k == ks[0] then ks
    else if KeyLess(k, ks[0]) then
      assert forall j :: 0 < j < |ks| ==> KeyLess(k, ks[j]) by {
        forall j | 0 < j < |ks|
          ensures KeyLess(k, ks[j])
        {
          KeyLessTransitive(k, ks[0], ks[j]);
        }
      }
      [k] + ks
    else
      KeyLessTotal(k, ks[0]);
      var rest := InsertKey(k, ks[1..]);
      assert forall x :: x in rest ==> KeyLess(ks[0], x) by {
        forall x | x in rest
          ensures KeyLess(ks[0], x)
        {
          if x != k {
            var j :| 0 <= j < |ks[1..]| && ks[1..][j] == x;
            assert ks[j + 1] == x;
          }
        }
      }
      [ks[0]] + rest
  }

  /** The distinct group-by keys of the rows, in pandas' sorted order. */
  function GroupKeys(rows: seq<CatalogRow>): (r: seq<TableKey>)
    ensures SortedKeys(r)
    ensures forall k :: k in r <==> exists row :: row in rows && KeyOf(row) == k
  {
    if |rows| == 0 then []
    else
      var last := rows[|rows| - 1];
      var front := rows[..|rows| - 1];
      assert forall row :: row in rows <==> row in front || row == last by {
        assert rows == front + [last];
      }
      InsertKey(KeyOf(last), GroupKeys(front))
  }

  /** `these_cols.column_name`: the column names of the group's rows, in row
      order and with repeats. */
  function GroupColumnNames(rows: seq<CatalogRow>, k: TableKey): (names: seq<string>)
    ensures forall c :: c in names <==> exists row :: row in rows && KeyOf(row) == k && row.column == c
  {
    var members := Filter((row: CatalogRow) => KeyOf(row) == k, rows);
    var names := seq(|members|, i requires 0 <= i < |members| => members[i].column);
    assert forall c :: c in names <==> exists row :: row in members && row.column == c by {
      forall c | c in names
        ensures exists row :: row in members && row.column == c
      {
        var i :| 0 <= i < |names| && names[i] == c;
        assert members[i] in members;
      }
      forall c | exists row :: row in members && row.column == c
        ensures c in names
      {
        var row :| row in members && row.column == c;
        var i :| 0 <= i < |members| && members[i] == row;
        assert names[i] == c;
      }
    }
    names
  }

  /** The column names of one group, each once, in first-appearance order
      (`these_cols.column_name.unique()`). */
  function GroupColumns(rows: seq<CatalogRow>, k: TableKey): (r: seq<string>)
    ensures NoDup(r)
    ensures forall c :: c in r <==> exists row :: row in rows && KeyOf(row) == k && row.column == c
    ensures Sublist(r, GroupColumnNames(rows, k))
    ensures FirstSeenOrder(r, GroupColumnNames(rows, k))
  {
    DedupOrder(GroupColumnNames(rows, k));
    Dedup(GroupColumnNames(rows, k))
  }

  /** The keys that become entities: every user-schema group, sorted. */
  function EntityKeys(rows: seq<CatalogRow>): (r: seq<TableKey>)
    ensures forall k :: k in r <==> IsUserTable(k) && exists row :: row in rows && KeyOf(row) == k
  {
    Filter(IsUserTable, GroupKeys(rows))
  }

  /** The entity for one group: identifier `catalog.schema.table`, its distinct
      column names, an empty type map. */
  function TableEntity(rows: seq<CatalogRow>, k: TableKey): (e: Entity)
    ensures e.identifier == IdentifierOf(k)
    ensures NoDup(e.columns)
    ensures forall c :: c in e.columns <==> exists row :: row in rows && KeyOf(row) == k && row.column == c
    ensures Sublist(e.columns, GroupColumnNames(rows, k)) && FirstSeenOrder(e.columns, GroupColumnNames(rows, k))
    ensures e.pk.None? && e.sample.None?
  {
    NewEntity(IdentifierOf(k), GroupColumns(rows, k), map[])
  }

  /** The loop body of `get_entities` over all groups. Each iteration builds a
      new object, so the `not in` test never rejects one. */
  function ListEntities(rows: seq<CatalogRow>): (es: seq<Entity>)
    ensures |es| == |EntityKeys(rows)|
    ensures forall i :: 0 <= i < |es| ==> es[i] == TableEntity(rows, EntityKeys(rows)[i])
  {
    var keys := EntityKeys(rows);
    seq(|keys|, i requires 0 <= i < |keys| => TableEntity(rows, keys[i]))
  }

  /** The filter keeps the sorted order of the group keys. */
  lemma {:induction false} SortedFilter(p: TableKey -> bool, ks: seq<TableKey>)
    requires SortedKeys(ks)
    ensures SortedKeys(Filter(p, ks))
  {
    if |ks| > 0 {
      SortedFilter(p, ks[1..]);
      var rest := Filter(p, ks[1..]);
      forall x | x in rest
        ensures KeyLess(ks[0], x)
      {
        var j :| 0 <= j < |ks[1..]| && ks[1..][j] == x;
        assert ks[j + 1] == x;
      }
    }
  }

  /** Entity `i` of the list is the one for `row`'s table and lists `row`'s column. */
  predicate EntityHolds(es: seq<Entity>, i: int, row: CatalogRow) {
    0 <= i < |es| && es[i].identifier == IdentifierOf(KeyOf(row)) && row.column in es[i].columns
  }

  /** Grouping: exactly one entity per user-schema `(catalog, schema, table)`
      group, in sorted key order, carrying that group's distinct column names;
      groups in `information_schema` and `pg_catalog` give none. */
  lemma GroupingIsExact(rows: seq<CatalogRow>)
    ensures SortedKeys(EntityKeys(rows))
    ensures forall i, j :: 0 <= i < j < |EntityKeys(rows)| ==> EntityKeys(rows)[i] != EntityKeys(rows)[j]
    ensures forall row :: row in rows && IsUserTable(KeyOf(row)) ==>
      exists i :: EntityHolds(ListEntities(rows), i, row)
    ensures forall row :: row in rows && !IsUserTable(KeyOf(row)) ==>
      forall i :: 0 <= i < |EntityKeys(rows)| ==> EntityKeys(rows)[i] != KeyOf(row)
  {
    var keys := EntityKeys(rows);
    SortedFilter(IsUserTable, GroupKeys(rows));
    forall i, j | 0 <= i < j < |keys|
      ensures keys[i] != keys[j]
    {
      KeyLessIrreflexive(keys[i]);
    }
    forall row | row in rows && IsUserTable(KeyOf(row))
      ensures exists i :: EntityHolds(ListEntities(rows), i, row)
    {
      var i :| 0 <= i < |keys| && keys[i] == KeyOf(row);
      assert ListEntities(rows)[i] == TableEntity(rows, keys[i]);
      assert EntityHolds(ListEntities(rows), i, row);
    }
  }

  // ---------------------------------------------------------------------
  // Memoisation of `get_entities`.
  // ---------------------------------------------------------------------

  /** The adapter's caches: the column table once read, the entity list once built. */
  datatype PostgresState = PostgresState(columnRows: Option<seq<CatalogRow>>, entities: seq<Entity>)

  const InitialState := PostgresState(None, [])

  /** `get_entities`: reads the column table on first use (`fetched` is what the
      query would return), and builds the entity list while it is empty. */
  function GetEntities(st: PostgresState, fetched: seq<CatalogRow>): (r: (PostgresState, seq<Entity>))
    ensures r.1 == r.0.entities
    ensures r.0.columnRows.Some?
    ensures st.columnRows.Some? ==> r.0.columnRows == st.columnRows
    ensures |st.entities| > 0 ==> r.1 == st.entities
    ensures |st.entities| == 0 ==> r.1 == ListEntities(r.0.columnRows.value)
  {
    var rows := if st.columnRows.Some? then st.columnRows.value else fetched;
    if |st.entities| > 0 then (PostgresState(Some(rows), st.entities), st.entities)
    else
      var es := ListEntities(rows);
      (PostgresState(Some(rows), es), es)
  }

  /** Memoisation: after a call that produced entities, a later call returns
      the same list and leaves the state alone, whatever the catalog now holds. */
  lemma EntitiesAreMemoised(st: PostgresState, first: seq<CatalogRow>, later: seq<CatalogRow>)
    requires |GetEntities(st, first).1| > 0
    ensures GetEntities(GetEntities(st, first).0, later) == GetEntities(st, first)
  {
  }

  // ---------------------------------------------------------------------
  // Foreign keys.
  // ---------------------------------------------------------------------

  /** One row of the foreign-key query (the four fields read). */
  datatype FkRow = FkRow(constraintTable: string, constraintColumn: string,
                         referencedTable: string, referencedColumn: string)

  /** `(constraint_entity, referenced_entity, constraint_column)`, the entities
      given by their positions in the entity list. */
  datatype FkTriple = FkTriple(referencing: nat, referenced: nat, column: string)

  /** `identifier.split('.')[-1]`. */
  function TableName(e: Entity): string {
    LastPiece(e.identifier, ".")
  }

  predicate IsConstraintEntity(row: FkRow, e: Entity) {
    TableName(e) == row.constraintTable && row.constraintColumn in e.columns
  }

  predicate IsReferencedEntity(row: FkRow, e: Entity) {
    TableName(e) == row.referencedTable
  }

  /** Which of a row's two filters is meant. */
  datatype Role = Constraint | Referenced

  predicate Plays(row: FkRow, role: Role, e: Entity) {
    match role
    case Constraint => IsConstraintEntity(row, e)
    case Referenced => IsReferencedEntity(row, e)
  }

  /** `list(filter(..., entities))[0]` for one of the row's two filters, or
      `None` where that raises `IndexError`; the search starts at `k`. */
  function FirstMatch(es: seq<Entity>, row: FkRow, role: Role, k: nat := 0): (r: Option<nat>)
    requires k <= |es|
    ensures r.Some? ==> k <= r.value < |es| && Plays(row, role, es[r.value])
    ensures r.Some? ==> forall j :: k <= j < r.value ==> !Plays(row, role, es[j])
    ensures r.None? <==> forall j :: k <= j < |es| ==> !Plays(row, role, es[j])
    decreases |es| - k
  {
    if k == |es| then None
    else if Plays(row, role, es[k]) then Some(k)
    else FirstMatch(es, row, role, k + 1)
  }

  /** One iteration of the foreign-key loop; `None` when it raises and is skipped. */
  function ResolveRow(es: seq<Entity>, row: FkRow): Option<FkTriple> {
    match FirstMatch(es, row, Constraint)
    case None => None
    case Some(c) =>
      match FirstMatch(es, row, Referenced)
      case None => None
      case Some(r) => Some(FkTriple(c, r, row.constraintColumn))
  }

  /** The triple a row yields names the first entity of the constraint table
      holding the constraint column and the first entity of the referenced
      table; a row yields nothing exactly when one of the two is missing. */
  predicate ValidTriple(es: seq<Entity>, row: FkRow, t: FkTriple) {
    && t.referencing < |es| && t.referenced < |es|
    && t.column == row.constraintColumn
    && IsConstraintEntity(row, es[t.referencing])
    && IsReferencedEntity(row, es[t.referenced])
    && (forall j :: 0 <= j < t.referencing ==> !IsConstraintEntity(row, es[j]))
    && (forall j :: 0 <= j < t.referenced ==> !IsReferencedEntity(row, es[j]))
  }

  lemma ResolveRowSpec(es: seq<Entity>, row: FkRow)
    ensures ResolveRow(es, row).Some? ==> ValidTriple(es, row, ResolveRow(es, row).value)
    ensures ResolveRow(es, row).None? <==>
      (forall j :: 0 <= j < |es| ==> !IsConstraintEntity(row, es[j])) ||
      (forall j :: 0 <= j < |es| ==> !IsReferencedEntity(row, es[j]))
  {
    assert forall j :: 0 <= j < |es| ==> (Plays(row, Constraint, es[j]) <==> IsConstraintEntity(row, es[j]));
    assert forall j :: 0 <= j < |es| ==> (Plays(row, Referenced, es[j]) <==> IsReferencedEntity(row, es[j]));
  }

  /** Some row of `rows` yields `t`. */
  ghost predicate Justified(es: seq<Entity>, rows: seq<FkRow>, t: FkTriple) {
    exists row :: row in rows && ValidTriple(es, row, t)
  }

  /** Every triple of `ts` names entities of `es` and comes from a row of `rows`. */
  ghost predicate Resolved(es: seq<Entity>, rows: seq<FkRow>, ts: seq<FkTriple>) {
    forall t :: t in ts ==> t.referencing < |es| && t.referenced < |es| && Justified(es, rows, t)
  }

  /** The loop of `get_defined_edges` over the foreign-key rows. */
  function ResolveFks(es: seq<Entity>, rows: seq<FkRow>): (ts: seq<FkTriple>)
    ensures |ts| <= |rows|
    ensures Resolved(es, rows, ts)
  {
    if |rows| == 0 then []
    else
      var rest := ResolveFks(es, rows[1..]);
      var head := ResolveRow(es, rows[0]);
      ResolvedFromTail(es, rows, rest);
      if head.None? then rest
      else
        ResolveRowSpec(es, rows[0]);
        ResolvedWithHead(es, rows, head.value, rest);
        [head.value] + rest
  }

  lemma ResolvedWithHead(es: seq<Entity>, rows: seq<FkRow>, head: FkTriple, rest: seq<FkTriple>)
    requires |rows| > 0 && ValidTriple(es, rows[0], head) && Resolved(es, rows, rest)
    ensures Resolved(es, rows, [head] + rest)
  {
    assert rows[0] in rows;
    forall t | t in [head] + rest
      ensures t.referencing < |es| && t.referenced < |es| && Justified(es, rows, t)
    {
      if t != head {
        assert t in rest;
      }
    }
  }

  lemma ResolvedFromTail(es: seq<Entity>, rows: seq<FkRow>, rest: seq<FkTriple>)
    requires |rows| > 0 && Resolved(es, rows[1..], rest)
    ensures Resolved(es, rows, rest)
  {
    forall t | t in rest
      ensures Justified(es, rows, t)
    {
      var row :| row in rows[1..] && ValidTriple(es, row, t);
      assert row in rows;
    }
  }

  /** Rows are resolved one by one: unresolvable rows vanish and the other
      triples keep the rows' order. */
  lemma {:induction false} ResolveFksAppend(es: seq<Entity>, a: seq<FkRow>, b: seq<FkRow>)
    ensures ResolveFks(es, a + b) == ResolveFks(es, a) + ResolveFks(es, b)
  {
    if |a| == 0 {
      assert a + b == b;
    } else {
      assert (a + b)[1..] == a[1..] + b;
      assert (a + b)[0] == a[0];
      ResolveFksAppend(es, a[1..], b);
    }
  }

  /** A row whose two tables are both present contributes exactly its triple. */
  lemma ResolvableRow(es: seq<Entity>, row: FkRow, c: nat, r: nat)
    requires c < |es| && r < |es|
    requires IsConstraintEntity(row, es[c]) && IsReferencedEntity(row, es[r])
    ensures |ResolveFks(es, [row])| == 1
    ensures ValidTriple(es, row, ResolveFks(es, [row])[0])
  {
    ResolveRowSpec(es, row);
    ResolveFksSingle(es, row);
  }

  lemma ResolveFksSingle(es: seq<Entity>, row: FkRow)
    ensures ResolveFks(es, [row]) == if ResolveRow(es, row).Some? then [ResolveRow(es, row).value] else []
  {
    assert [row][1..] == [];
    assert [row][0] == row;
  }

  /** `get_defined_edges`: lists the entities first if none are cached, then
      resolves every foreign-key row against the cached list. */
  function GetDefinedEdges(st: PostgresState, fetched: seq<CatalogRow>, fks: seq<FkRow>): (r: (PostgresState, seq<FkTriple>))
    ensures |st.entities| > 0 ==> r.0 == st
    ensures |st.entities| == 0 ==> r.0.columnRows.Some? && r.0.entities == ListEntities(r.0.columnRows.value)
    ensures Resolved(r.0.entities, fks, r.1)
    ensures r.1 == ResolveFks(r.0.entities, fks)
  {
    var st' := if |st.entities| == 0 then GetEntities(st, fetched).0 else st;
    (st', ResolveFks(st'.entities, fks))
  }
}

=== FILE: relational.dfy ===
/** `EntityGraph.build_graph_relational`: nodes, then foreign-key edges, then
    the naming heuristic `customers` -> `customer_id` over every ordered pair of
    distinct nodes. */
module RelationalBuild {
  import opened Wrappers
  import opened Seqs
  import opened Strings
  import opened Entities
  import opened EntityGraph
  import opened Postgres

  // ---------------------------------------------------------------------
  // Schema edges.
  // ---------------------------------------------------------------------

  predicate TriplesIn(fks: seq<FkTriple>, count: nat) {
    forall t :: t in fks ==> t.referencing < count && t.referenced < count
  }

  function TriplePair(t: FkTriple): Pair {
    Link(t.referencing, t.referenced)
  }

  /** `{n1_key: key1, n2_key: 'id', 'from_schema': True}`. */
  function SchemaAttrs(ents: seq<Entity>, t: FkTriple): (r: AttrMap)
    requires t.referencing < |ents| && t.referenced < |ents|
    ensures r.Keys == {KeyAttr(ents[t.referencing].identifier), KeyAttr(ents[t.referenced].identifier), FromSchema}
    ensures ents[t.referencing].identifier != ents[t.referenced].identifier ==>
      r[KeyAttr(ents[t.referencing].identifier)] == Column(t.column)
    ensures r[KeyAttr(ents[t.referenced].identifier)] == Column("id")
    ensures r[FromSchema] == Flag(true)
  {
    EdgeAttrs(ents[t.referencing].identifier, t.column, ents[t.referenced].identifier, "id", true)
  }

  /** No later triple names the same pair as triple `k`. */
  predicate LastForPair(fks: seq<FkTriple>, k: int)
    requires 0 <= k < |fks|
  {
    forall j :: k < j < |fks| ==> TriplePair(fks[j]) != TriplePair(fks[k])
  }

  /** The pairs the foreign-key triples name. */
  function PairsOf(fks: seq<FkTriple>): set<Pair> {
    set t | t in fks :: TriplePair(t)
  }

  /** The foreign-key loop: each triple's `add_edge` sets that pair's attributes. */
  function IngestSchema(e: Edges, ents: seq<Entity>, fks: seq<FkTriple>): (r: Edges)
    requires TriplesIn(fks, |ents|)
    ensures r.Keys == e.Keys + PairsOf(fks)
    ensures forall p :: p in e && p !in PairsOf(fks) ==> r[p] == e[p]
  {
    if |fks| == 0 then e
    else
      var n := |fks|;
      var front := fks[..n - 1];
      var last := fks[n - 1];
      assert PairsOf(fks) == PairsOf(front) + {TriplePair(last)} by {
        assert fks == front + [last];
      }
      IngestSchema(e, ents, front)[TriplePair(last) := SchemaAttrs(ents, last)]
  }

  lemma TriplesInFront(fks: seq<FkTriple>, count: nat)
    requires |fks| > 0 && TriplesIn(fks, count)
    ensures TriplesIn(fks[..|fks| - 1], count)
  {
    forall t | t in fks[..|fks| - 1]
      ensures t.referencing < count && t.referenced < count
    {
      assert t in fks;
    }
  }

  lemma LastForPairInFront(fks: seq<FkTriple>, k: nat)
    requires k < |fks| - 1 && LastForPair(fks, k)
    ensures LastForPair(fks[..|fks| - 1], k)
  {
    var front := fks[..|fks| - 1];
    forall j | k < j < |front|
      ensures TriplePair(front[j]) != TriplePair(front[k])
    {
      assert front[j] == fks[j] && front[k] == fks[k];
    }
  }

  /** The loop's last iteration, as one map update. */
  lemma IngestSchemaLast(e: Edges, ents: seq<Entity>, fks: seq<FkTriple>)
    requires |fks| > 0 && TriplesIn(fks, |ents|)
    ensures TriplesIn(fks[..|fks| - 1], |ents|)
    ensures IngestSchema(e, ents, fks)
         == IngestSchema(e, ents, fks[..|fks| - 1])[TriplePair(fks[|fks| - 1]) := SchemaAttrs(ents, fks[|fks| - 1])]
  {
    TriplesInFront(fks, |ents|);
  }

  /** After the foreign-key loop, a pair carries the attributes of the last
      triple that names it (so `from_schema` is True there). */
  lemma {:induction false} IngestSchemaLastWins(e: Edges, ents: seq<Entity>, fks: seq<FkTriple>, k: nat)
    requires TriplesIn(fks, |ents|)
    requires k < |fks| && LastForPair(fks, k)
    ensures IngestSchema(e, ents, fks)[TriplePair(fks[k])] == SchemaAttrs(ents, fks[k])
  {
    var n := |fks|;
    var front := fks[..n - 1];
    var p := TriplePair(fks[k]);
    IngestSchemaLast(e, ents, fks);
    if k < n - 1 {
      assert front[k] == fks[k];
      assert TriplePair(fks[n - 1]) != p;
      LastForPairInFront(fks, k);
      IngestSchemaLastWins(e, ents, front, k);
      assert IngestSchema(e, ents, fks)[p] == IngestSchema(e, ents, front)[p];
    }
  }

  // ---------------------------------------------------------------------
  // The naming heuristic.
  // ---------------------------------------------------------------------

  datatype BuildError = MalformedIdentifier(identifier: string)

  /** `db, schema, table = identifier.split('.')`: the table name, or the
      unpacking error when the identifier does not have exactly three parts. */
  function TableOf(id: string): (r: Result<string, BuildError>)
    ensures r.Success? <==> CountChar(id, '.') == 2
    ensures r.Success? ==> r.value == LastPiece(id, ".")
    ensures r.Failure? ==> r.error == MalformedIdentifier(id)
  {
    SplitCharCount(id, '.');
    var parts := Split(id, ".");
    if |parts| == 3 then Success(parts[2]) else Failure(MalformedIdentifier(id))
  }

  /** An identifier `database.schema.table` with dot-free parts unpacks to its table. */
  lemma TableOfDotted(db: string, schema: string, table: string)
    requires !Contains(db, ".") && !Contains(schema, ".") && !Contains(table, ".")
    ensures TableOf(db + "." + schema + "." + table) == Success(table)
  {
    var id := db + "." + schema + "." + table;
    SplitDotted(db, schema, table);
    SplitCharCount(id, '.');
    assert Split(id, ".")[2] == table;
  }

  /** The candidate foreign-key column a table is referenced by: the table
      name without one trailing `s`, then `_id`. */
  function CandidateColumn(table: string): (r: string)
    ensures EndsWith(r, "_id")
    ensures EndsWith(table, "s") ==> r[..|r| - 3] + "s" == table
    ensures !EndsWith(table, "s") ==> r[..|r| - 3] == table
  {
    var stem := if EndsWith(table, "s") then table[..|table| - 1] else table;
    assert (stem + "_id")[..|stem|] == stem;
    assert EndsWith(table, "s") ==> table == stem + "s";
    stem + "_id"
  }

  /** `customers` gives `customer_id`; `data`, with no trailing `s`, gives `data_id`. */
  lemma CandidateExamples()
    ensures CandidateColumn("customers") == "customer_id"
    ensures CandidateColumn("data") == "data_id"
    ensures CandidateColumn("s") == "_id"
  {
    assert EndsWith("customers", "s");
    assert !EndsWith("data", "s");
    assert EndsWith("s", "s");
  }

  /** Node `n2` has the column that names node `n`'s table. */
  predicate Candidate(ents: seq<Entity>, n: nat, n2: nat)
    requires n < |ents| && n2 < |ents|
  {
    TableOf(ents[n].identifier).Success? &&
    CandidateColumn(TableOf(ents[n].identifier).value) in ents[n2].columns
  }

  /** A pair the heuristic may write: two distinct nodes, one holding the other's candidate column. */
  predicate InferredPair(ents: seq<Entity>, nodes: seq<nat>, p: Pair) {
    && p.lo != p.hi && p.lo in nodes && p.hi in nodes
    && p.lo < |ents| && p.hi < |ents|
    && (Candidate(ents, p.lo, p.hi) || Candidate(ents, p.hi, p.lo))
  }

  /** `r` differs from `e` only on heuristic pairs, loses no edge and keeps
      every `from_schema = False` already written. */
  ghost predicate Extends(e: Edges, r: Edges, ents: seq<Entity>, nodes: seq<nat>) {
    && (forall p :: p in e ==> p in r)
    && (forall p :: p in r && !InferredPair(ents, nodes, p) ==> p in e && r[p] == e[p])
    && (forall p :: Marked(e, p) ==> Marked(r, p))
  }

  /** `{node_key: 'id', node2_key: column, 'from_schema': False}`. */
  function InferredAttrs(ents: seq<Entity>, n: nat, n2: nat, column: string): AttrMap
    requires n < |ents| && n2 < |ents|
  {
    EdgeAttrs(ents[n].identifier, "id", ents[n2].identifier, column, false)
  }

  /** One match: a new edge, or, when the pair already has one, the existing
      attributes updated with the three new entries (no parallel edge). */
  function Touch(e: Edges, ents: seq<Entity>, n: nat, n2: nat, column: string): (r: Edges)
    requires n < |ents| && n2 < |ents|
    ensures r.Keys == e.Keys + {Link(n, n2)}
    ensures forall q :: q in e && q != Link(n, n2) ==> r[q] == e[q]
    ensures Link(n, n2) !in e ==> r[Link(n, n2)] == InferredAttrs(ents, n, n2, column)
    ensures Link(n, n2) in e ==> r[Link(n, n2)].Keys == e[Link(n, n2)].Keys + InferredAttrs(ents, n, n2, column).Keys
    ensures Link(n, n2) in e ==> forall k :: k in e[Link(n, n2)] && k !in InferredAttrs(ents, n, n2, column) ==>
      r[Link(n, n2)][k] == e[Link(n, n2)][k]
    ensures forall k :: k in InferredAttrs(ents, n, n2, column) ==>
      r[Link(n, n2)][k] == InferredAttrs(ents, n, n2, column)[k]
    ensures ents[n].identifier != ents[n2].identifier ==> r[Link(n, n2)][KeyAttr(ents[n].identifier)] == Column("id")
    ensures r[Link(n, n2)][KeyAttr(ents[n2].identifier)] == Column(column)
    ensures r[Link(n, n2)][FromSchema] == Flag(false)
    ensures Marked(r, Link(n, n2))
  {
    var p := Link(n, n2);
    var attrs := InferredAttrs(ents, n, n2, column);
    if p !in e then e[p := attrs]
    else e[p := e[p] + attrs]
  }

  lemma ExtendsTransitive(e1: Edges, e2: Edges, e3: Edges, ents: seq<Entity>, nodes: seq<nat>)
    requires Extends(e1, e2, ents, nodes) && Extends(e2, e3, ents, nodes)
    ensures Extends(e1, e3, ents, nodes)
  {
  }

  /** A match between two distinct nodes writes only their (heuristic) pair. */
  lemma TouchExtends(e: Edges, ents: seq<Entity>, nodes: seq<nat>, n: nat, n2: nat, column: string)
    requires n in nodes && n2 in nodes && n != n2 && n < |ents| && n2 < |ents|
    requires Candidate(ents, n, n2)
    ensures Extends(e, Touch(e, ents, n, n2, column), ents, nodes)
  {
    var p := Link(n, n2);
    var r := Touch(e, ents, n, n2, column);
    assert InferredPair(ents, nodes, p);
    forall q | q in r && !InferredPair(ents, nodes, q)
      ensures q in e && r[q] == e[q]
    {
      assert q != p;
    }
    forall q | Marked(e, q)
      ensures Marked(r, q)
    {
      if q != p {
        assert r[q] == e[q];
      }
    }
  }

  /** The pair of `n` and `n2` carries what a match of `n`'s candidate column
      in `n2` writes: `n2`'s key is that column, `n`'s key is `id` (when the two
      identifiers differ) and `from_schema` is False. */
  predicate KeysOf(ents: seq<Entity>, e: Edges, n: nat, n2: nat)
    requires n < |ents| && n2 < |ents|
  {
    && Candidate(ents, n, n2)
    && Marked(e, Link(n, n2))
    && KeyAttr(ents[n2].identifier) in e[Link(n, n2)]
    && e[Link(n, n2)][KeyAttr(ents[n2].identifier)] == Column(CandidateColumn(TableOf(ents[n].identifier).value))
    && (ents[n].identifier != ents[n2].identifier ==>
          && KeyAttr(ents[n].identifier) in e[Link(n, n2)]
          && e[Link(n, n2)][KeyAttr(ents[n].identifier)] == Column("id"))
  }

  /** The (normalised) pair `p` carries the keys of a match in one of its two
      directions; when both nodes hold the other's candidate column, the
      later match decides which. */
  predicate Keyed(ents: seq<Entity>, e: Edges, p: Pair) {
    && p.lo <= p.hi && p.hi < |ents|
    && (KeysOf(ents, e, p.lo, p.hi) || KeysOf(ents, e, p.hi, p.lo))
  }

  /** Every pair keyed in `e` is still keyed in `r`. */
  ghost predicate KeepsKeys(ents: seq<Entity>, e: Edges, r: Edges) {
    forall p :: Keyed(ents, e, p) ==> Keyed(ents, r, p)
  }

  lemma KeepsKeysTransitive(ents: seq<Entity>, e1: Edges, e2: Edges, e3: Edges)
    requires KeepsKeys(ents, e1, e2) && KeepsKeys(ents, e2, e3)
    ensures KeepsKeys(ents, e1, e3)
  {
  }

  /** A match writes the keys of its pair and leaves every other pair's keys. */
  lemma TouchKeys(e: Edges, ents: seq<Entity>, n: nat, n2: nat, column: string)
    requires n < |ents| && n2 < |ents|
    requires Candidate(ents, n, n2) && column == CandidateColumn(TableOf(ents[n].identifier).value)
    ensures KeepsKeys(ents, e, Touch(e, ents, n, n2, column))
    ensures Keyed(ents, Touch(e, ents, n, n2, column), Link(n, n2))
  {
    var r := Touch(e, ents, n, n2, column);
    var q := Link(n, n2);
    assert KeysOf(ents, r, n, n2);
    assert Keyed(ents, r, q) by {
      if n <= n2 {
        assert q == Pair(n, n2);
      } else {
        assert q == Pair(n2, n);
      }
    }
    forall p | Keyed(ents, e, p)
      ensures Keyed(ents, r, p)
    {
      assert Link(p.lo, p.hi) == p && Link(p.hi, p.lo) == p;
      if p != q {
        assert r[p] == e[p];
      }
    }
  }

  /** `for column in node2.columns: if column == fkname1: ...` */
  function ScanColumns(e: Edges, ents: seq<Entity>, n: nat, n2: nat, fk: string, cols: seq<string>): Edges
    requires n < |ents| && n2 < |ents|
    decreases |cols|
  {
    if |cols| == 0 then e
    else
      var e1 := if cols[0] == fk then Touch(e, ents, n, n2, cols[0]) else e;
      ScanColumns(e1, ents, n, n2, fk, cols[1..])
  }

  lemma {:induction false} ScanColumnsSpec(e: Edges, ents: seq<Entity>, nodes: seq<nat>, n: nat, n2: nat,
                                           fk: string, cols: seq<string>)
    requires n in nodes && n2 in nodes && n != n2 && n < |ents| && n2 < |ents|
    requires TableOf(ents[n].identifier).Success? && fk == CandidateColumn(TableOf(ents[n].identifier).value)
    requires forall c :: c in cols ==> c in ents[n2].columns
    ensures Extends(e, ScanColumns(e, ents, n, n2, fk, cols), ents, nodes)
    ensures fk in cols ==> Marked(ScanColumns(e, ents, n, n2, fk, cols), Link(n, n2))
    decreases |cols|
  {
    if |cols| > 0 {
      var e1 := if cols[0] == fk then Touch(e, ents, n, n2, cols[0]) else e;
      if cols[0] == fk {
        assert Candidate(ents, n, n2);
        TouchExtends(e, ents, nodes, n, n2, cols[0]);
      }
      ScanColumnsSpec(e1, ents, nodes, n, n2, fk, cols[1..]);
      ExtendsTransitive(e, e1, ScanColumns(e, ents, n, n2, fk, cols), ents, nodes);
      assert fk in cols ==> cols[0] == fk || fk in cols[1..];
    }
  }

  lemma {:induction false} ScanColumnsKeys(e: Edges, ents: seq<Entity>, n: nat, n2: nat,
                                           fk: string, cols: seq<string>)
    requires n < |ents| && n2 < |ents|
    requires TableOf(ents[n].identifier).Success? && fk == CandidateColumn(TableOf(ents[n].identifier).value)
    requires forall c :: c in cols ==> c in ents[n2].columns
    ensures KeepsKeys(ents, e, ScanColumns(e, ents, n, n2, fk, cols))
    ensures fk in cols ==> Keyed(ents, ScanColumns(e, ents, n, n2, fk, cols), Link(n, n2))
    decreases |cols|
  {
    if |cols| > 0 {
      var e1 := if cols[0] == fk then Touch(e, ents, n, n2, cols[0]) else e;
      if cols[0] == fk {
        assert cols[0] in cols;
        TouchKeys(e, ents, n, n2, cols[0]);
      }
      ScanColumnsKeys(e1, ents, n, n2, fk, cols[1..]);
      KeepsKeysTransitive(ents, e, e1, ScanColumns(e, ents, n, n2, fk, cols));
      assert fk in cols ==> cols[0] == fk || fk in cols[1..];
    }
  }

  /** The edges after an inference pass, and the error that stopped it, if any. */
  datatype Pass = Pass(edges: Edges, error: Option<BuildError>)

  predicate Malformed(ents: seq<Entity>, n: nat)
    requires n < |ents|
  {
    TableOf(ents[n].identifier).Failure?
  }

  /** `for node2 in self.nodes(): if node != node2: db2, schema2, table2 = ...`:
      stops with the unpacking error at the first malformed other node. */
  function ScanTargets(e: Edges, ents: seq<Entity>, n: nat, fk: string, targets: seq<nat>): Pass
    requires n < |ents| && forall t :: t in targets ==> t < |ents|
    decreases |targets|
  {
    if |targets| == 0 then Pass(e, None)
    else
      var t := targets[0];
      assert t in targets && forall x :: x in targets[1..] ==> x in targets;
      if t == n then ScanTargets(e, ents, n, fk, targets[1..])
      else
        match TableOf(ents[t].identifier)
        case Failure(err) => Pass(e, Some(err))
        case Success(_) =>
          ScanTargets(ScanColumns(e, ents, n, t, fk, ents[t].columns), ents, n, fk, targets[1..])
  }

  lemma {:induction false} ScanTargetsSpec(e: Edges, ents: seq<Entity>, nodes: seq<nat>, n: nat, fk: string,
                                           targets: seq<nat>)
    requires n in nodes && n < |ents| && forall t :: t in nodes ==> t < |ents|
    requires forall t :: t in targets ==> t in nodes
    requires TableOf(ents[n].identifier).Success? && fk == CandidateColumn(TableOf(ents[n].identifier).value)
    ensures var r := ScanTargets(e, ents, n, fk, targets);
      && Extends(e, r.edges, ents, nodes)
      && (r.error.Some? <==> exists t :: t in targets && t != n && Malformed(ents, t))
      && (r.error.None? ==> forall t :: t in targets && t != n && Candidate(ents, n, t) ==> Marked(r.edges, Link(n, t)))
    decreases |targets|
  {
    if |targets| > 0 {
      var t := targets[0];
      assert t in targets;
      var rest := targets[1..];
      assert forall x :: x in targets <==> x == t || x in rest by {
        assert targets == [t] + rest;
      }
      if t == n {
        ScanTargetsSpec(e, ents, nodes, n, fk, rest);
      } else if TableOf(ents[t].identifier).Success? {
        var e1 := ScanColumns(e, ents, n, t, fk, ents[t].columns);
        ScanColumnsSpec(e, ents, nodes, n, t, fk, ents[t].columns);
        ScanTargetsSpec(e1, ents, nodes, n, fk, rest);
        var r := ScanTargets(e, ents, n, fk, targets);
        assert r == ScanTargets(e1, ents, n, fk, rest);
        ExtendsTransitive(e, e1, r.edges, ents, nodes);
      }
    }
  }

  lemma {:induction false} ScanTargetsKeys(e: Edges, ents: seq<Entity>, n: nat, fk: string, targets: seq<nat>)
    requires n < |ents| && forall t :: t in targets ==> t < |ents|
    requires TableOf(ents[n].identifier).Success? && fk == CandidateColumn(TableOf(ents[n].identifier).value)
    ensures var r := ScanTargets(e, ents, n, fk, targets);
      && KeepsKeys(ents, e, r.edges)
      && (r.error.None? ==> forall t :: t in targets && t != n && Candidate(ents, n, t) ==> Keyed(ents, r.edges, Link(n, t)))
    decreases |targets|
  {
    if |targets| > 0 {
      var t := targets[0];
      assert t in targets;
      var rest := targets[1..];
      assert forall x :: x in targets <==> x == t || x in rest by {
        assert targets == [t] + rest;
      }
      if t == n {
        ScanTargetsKeys(e, ents, n, fk, rest);
      } else if TableOf(ents[t].identifier).Success? {
        var e1 := ScanColumns(e, ents, n, t, fk, ents[t].columns);
        ScanColumnsKeys(e, ents, n, t, fk, ents[t].columns);
        ScanTargetsKeys(e1, ents, n, fk, rest);
        var r := ScanTargets(e, ents, n, fk, targets);
        assert r == ScanTargets(e1, ents, n, fk, rest);
        KeepsKeysTransitive(ents, e, e1, r.edges);
      }
    }
  }

  /** `for node in self.nodes(): db, schema, table = ...; fkname1 = ...;` then the
      target loop over every node; the first unpacking error ends the pass. */
  function ScanSources(e: Edges, ents: seq<Entity>, nodes: seq<nat>, sources: seq<nat>): Pass
    requires forall t :: t in nodes ==> t < |ents|
    requires forall s :: s in sources ==> s < |ents|
    decreases |sources|
  {
    if |sources| == 0 then Pass(e, None)
    else
      var s := sources[0];
      assert s in sources && forall x :: x in sources[1..] ==> x in sources;
      match TableOf(ents[s].identifier)
      case Failure(err) => Pass(e, Some(err))
      case Success(table) =>
        var pass := ScanTargets(e, ents, s, CandidateColumn(table), nodes);
        if pass.error.Some? then pass
        else ScanSources(pass.edges, ents, nodes, sources[1..])
  }

  lemma {:induction false} ScanSourcesSpec(e: Edges, ents: seq<Entity>, nodes: seq<nat>, sources: seq<nat>)
    requires forall t :: t in nodes ==> t < |ents|
    requires forall s :: s in sources ==> s in nodes
    ensures var r := ScanSources(e, ents, nodes, sources);
      && Extends(e, r.edges, ents, nodes)
      && (r.error.Some? ==> exists x :: x in nodes && Malformed(ents, x))
      && (|sources| > 0 && (exists x :: x in nodes && Malformed(ents, x)) ==> r.error.Some?)
      && (r.error.None? ==> forall s, t :: s in sources && t in nodes && s != t && Candidate(ents, s, t) ==>
            Marked(r.edges, Link(s, t)))
    decreases |sources|
  {
    if |sources| > 0 {
      var s := sources[0];
      var rest := sources[1..];
      assert forall x :: x in sources <==> x == s || x in rest by {
        assert sources == [s] + rest;
      }
      assert s in nodes;
      if TableOf(ents[s].identifier).Success? {
        var fk := CandidateColumn(TableOf(ents[s].identifier).value);
        var pass := ScanTargets(e, ents, s, fk, nodes);
        ScanTargetsSpec(e, ents, nodes, s, fk, nodes);
        if pass.error.None? {
          ScanSourcesSpec(pass.edges, ents, nodes, rest);
          var r := ScanSources(e, ents, nodes, sources);
          assert r == ScanSources(pass.edges, ents, nodes, rest);
          ExtendsTransitive(e, pass.edges, r.edges, ents, nodes);
          forall s', t | s' in sources && t in nodes && s' != t && Candidate(ents, s', t)
            ensures Marked(r.edges, Link(s', t))
          {
            if s' == s {
              assert Marked(pass.edges, Link(s, t));
            }
          }
        }
      }
    }
  }

  /** Every candidate pair from `s` to another node is keyed. */
  ghost predicate KeyedFrom(ents: seq<Entity>, e: Edges, nodes: seq<nat>, s: nat)
    requires s < |ents| && forall t :: t in nodes ==> t < |ents|
  {
    forall t :: t in nodes && t != s && Candidate(ents, s, t) ==> Keyed(ents, e, Link(s, t))
  }

  lemma KeyedFromKept(ents: seq<Entity>, e: Edges, r: Edges, nodes: seq<nat>, s: nat)
    requires s < |ents| && forall t :: t in nodes ==> t < |ents|
    requires KeepsKeys(ents, e, r) && KeyedFrom(ents, e, nodes, s)
    ensures KeyedFrom(ents, r, nodes, s)
  {
  }

  lemma {:induction false} ScanSourcesKeys(e: Edges, ents: seq<Entity>, nodes: seq<nat>, sources: seq<nat>)
    requires forall t :: t in nodes ==> t < |ents|
    requires forall s :: s in sources ==> s < |ents|
    ensures var r := ScanSources(e, ents, nodes, sources);
      && KeepsKeys(ents, e, r.edges)
      && (r.error.None? ==> forall s :: s in sources ==> KeyedFrom(ents, r.edges, nodes, s))
    decreases |sources|
  {
    if |sources| > 0 {
      var s := sources[0];
      var rest := sources[1..];
      assert forall x :: x in sources <==> x == s || x in rest by {
        assert sources == [s] + rest;
      }
      assert s in sources;
      if TableOf(ents[s].identifier).Success? {
        var fk := CandidateColumn(TableOf(ents[s].identifier).value);
        var pass := ScanTargets(e, ents, s, fk, nodes);
        ScanTargetsKeys(e, ents, s, fk, nodes);
        if pass.error.None? {
          ScanSourcesKeys(pass.edges, ents, nodes, rest);
          var r := ScanSources(e, ents, nodes, sources);
          assert r == ScanSources(pass.edges, ents, nodes, rest);
          KeepsKeysTransitive(ents, e, pass.edges, r.edges);
          if r.error.None? {
            assert KeyedFrom(ents, pass.edges, nodes, s);
            KeyedFromKept(ents, pass.edges, r.edges, nodes, s);
          }
        }
      }
    }
  }

  /** The naming heuristic over all nodes. It fails exactly when some node's
      identifier is not `database.schema.table`. On success it changes only
      pairs of distinct nodes where one holds the other's candidate column
      (so it adds no self-edge), removes nothing, and every such pair ends
      with an edge whose `from_schema` is False. */
  function InferEdges(e: Edges, ents: seq<Entity>, nodes: seq<nat>): (r: Pass)
    requires forall t :: t in nodes ==> t < |ents|
    ensures Extends(e, r.edges, ents, nodes)
    ensures r.error.Some? <==> exists x :: x in nodes && Malformed(ents, x)
    ensures r.error.None? ==> forall s, t :: s in nodes && t in nodes && s != t && Candidate(ents, s, t) ==>
      Marked(r.edges, Link(s, t))
    ensures KeepsKeys(ents, e, r.edges)
    ensures r.error.None? ==> forall s, t :: s in nodes && t in nodes && s != t && Candidate(ents, s, t) ==>
      Keyed(ents, r.edges, Link(s, t))
  {
    ScanSourcesSpec(e, ents, nodes, nodes);
    ScanSourcesKeys(e, ents, nodes, nodes);
    ScanSources(e, ents, nodes, nodes)
  }

  // ---------------------------------------------------------------------
  // The build.
  // ---------------------------------------------------------------------

  /** Both passes only join nodes of the graph being built. */
  lemma PassEdgesWithinNodes(g: Graph, ents: seq<Entity>, fks: seq<FkTriple>)
    requires WellFormed(g, |ents|) && TriplesIn(fks, |ents|)
    ensures var nodes := AddNodes(g.nodes, |ents|);
      forall p :: p in InferEdges(IngestSchema(g.edges, ents, fks), ents, nodes).edges ==>
        p.lo in nodes && p.hi in nodes
  {
    var nodes := AddNodes(g.nodes, |ents|);
    var schema := IngestSchema(g.edges, ents, fks);
    forall p | p in schema
      ensures p.lo in nodes && p.hi in nodes
    {
      if p !in g.edges {
        var t :| t in fks && TriplePair(t) == p;
      }
    }
    var r := InferEdges(schema, ents, nodes).edges;
    forall p | p in r
      ensures p.lo in nodes && p.hi in nodes
    {
      if !InferredPair(ents, nodes, p) {
        assert p in schema;
      }
    }
  }

  /** The heuristic fails exactly when some entity's identifier does not split
      into three parts. */
  lemma PassErrorIffMalformed(g: Graph, ents: seq<Entity>, fks: seq<FkTriple>)
    requires WellFormed(g, |ents|) && TriplesIn(fks, |ents|)
    ensures var nodes := AddNodes(g.nodes, |ents|);
      InferEdges(IngestSchema(g.edges, ents, fks), ents, nodes).error.Some?
      <==> exists n :: 0 <= n < |ents| && Malformed(ents, n)
  {
    var nodes := AddNodes(g.nodes, |ents|);
    assert forall x :: x in nodes && Malformed(ents, x) <==> 0 <= x < |ents| && Malformed(ents, x);
  }

  /** The graph after a build call, and the error it raised, if any. An error
      leaves the nodes, the schema edges and the edges inferred so far in
      place, with the built flag still unset. */
  datatype Built = Built(graph: Graph, error: Option<BuildError>)

  function BuildRelational(g: Graph, ents: seq<Entity>, fks: seq<FkTriple>): (r: Built)
    requires WellFormed(g, |ents|)
    requires TriplesIn(fks, |ents|)
    ensures g.built ==> r == Built(g, None)
    ensures WellFormed(r.graph, |ents|)
    ensures r.error.None? <==> r.graph.built
    ensures !g.built ==> (r.error.Some? <==> exists n :: 0 <= n < |ents| && Malformed(ents, n))
    ensures !g.built ==> forall n: nat :: n in r.graph.nodes <==> n < |ents|
    ensures !g.built ==> |g.nodes| <= |r.graph.nodes| && r.graph.nodes[..|g.nodes|] == g.nodes
    ensures !g.built ==> Extends(IngestSchema(g.edges, ents, fks), r.graph.edges, ents, r.graph.nodes)
    ensures !g.built && r.error.None? ==>
      forall s, t :: s in r.graph.nodes && t in r.graph.nodes && s != t && Candidate(ents, s, t) ==>
        Keyed(ents, r.graph.edges, Link(s, t))
  {
    if g.built then Built(g, None)
    else
      var nodes := AddNodes(g.nodes, |ents|);
      var pass := InferEdges(IngestSchema(g.edges, ents, fks), ents, nodes);
      PassEdgesWithinNodes(g, ents, fks);
      PassErrorIffMalformed(g, ents, fks);
      Built(Graph(nodes, pass.edges, pass.error.None?), pass.error)
  }

  /** Idempotence: once a build has succeeded, building again changes neither
      nodes nor edges. */
  lemma BuildIsIdempotent(g: Graph, ents: seq<Entity>, fks: seq<FkTriple>, later: seq<FkTriple>)
    requires WellFormed(g, |ents|) && TriplesIn(fks, |ents|) && TriplesIn(later, |ents|)
    requires BuildRelational(g, ents, fks).error.None?
    ensures BuildRelational(BuildRelational(g, ents, fks).graph, ents, later) == BuildRelational(g, ents, fks)
  {
  }

  /** The heuristic's headline case: when `db.schema.orders` holds
      `customer_id` (and `db.schema.customers` holds no `order_id`), the build
      joins the two with `customers` keyed by `id` and `orders` by
      `customer_id`, marked as inferred. */
  lemma CustomerOrderKeys(ents: seq<Entity>, db: string, schema: string)
    requires |ents| == 2 && !Contains(db, ".") && !Contains(schema, ".")
    requires ents[0].identifier == db + "." + schema + "." + "customers"
    requires ents[1].identifier == db + "." + schema + "." + "orders"
    requires "customer_id" in ents[1].columns && "order_id" !in ents[0].columns
    ensures var r := BuildRelational(EmptyGraph, ents, []);
      && r.error.None?
      && Link(0, 1) in r.graph.edges
      && KeyAttr(ents[0].identifier) in r.graph.edges[Link(0, 1)]
      && r.graph.edges[Link(0, 1)][KeyAttr(ents[0].identifier)] == Column("id")
      && KeyAttr(ents[1].identifier) in r.graph.edges[Link(0, 1)]
      && r.graph.edges[Link(0, 1)][KeyAttr(ents[1].identifier)] == Column("customer_id")
      && r.graph.edges[Link(0, 1)][FromSchema] == Flag(false)
  {
    CustomerOrderCandidates(ents, db, schema);
    OneWayCandidateKeys(ents, [], 0, 1);
  }

  /** When `t` holds `s`'s candidate column but not the other way round, a
      successful build from the empty graph leaves their edge keyed by that
      match: `t`'s key is the column and `s`'s key is `id`. */
  lemma OneWayCandidateKeys(ents: seq<Entity>, fks: seq<FkTriple>, s: nat, t: nat)
    requires TriplesIn(fks, |ents|)
    requires s < |ents| && t < |ents| && s != t
    requires Candidate(ents, s, t) && !Candidate(ents, t, s)
    requires forall n :: 0 <= n < |ents| ==> !Malformed(ents, n)
    ensures BuildRelational(EmptyGraph, ents, fks).error.None?
    ensures KeysOf(ents, BuildRelational(EmptyGraph, ents, fks).graph.edges, s, t)
  {
    var r := BuildRelational(EmptyGraph, ents, fks);
    assert s in r.graph.nodes && t in r.graph.nodes;
    assert Keyed(ents, r.graph.edges, Link(s, t));
    assert Link(t, s) == Link(s, t);
  }

  /** In that case `orders` holds the candidate column of `customers` but not
      the other way round, and both identifiers unpack. */
  lemma CustomerOrderCandidates(ents: seq<Entity>, db: string, schema: string)
    requires |ents| == 2 && !Contains(db, ".") && !Contains(schema, ".")
    requires ents[0].identifier == db + "." + schema + "." + "customers"
    requires ents[1].identifier == db + "." + schema + "." + "orders"
    requires "customer_id" in ents[1].columns && "order_id" !in ents[0].columns
    ensures Candidate(ents, 0, 1) && !Candidate(ents, 1, 0)
    ensures forall n :: 0 <= n < |ents| ==> !Malformed(ents, n)
    ensures CandidateColumn(TableOf(ents[0].identifier).value) == "customer_id"
    ensures ents[0].identifier != ents[1].identifier
  {
    var front := db + "." + schema + ".";
    assert ents[0].identifier == front + "customers";
    assert ents[1].identifier == front + "orders";
    CustomerOrderTables(db, schema);
    CandidateExamples();
    OrdersCandidate();
    assert ents[0].identifier[|front|] == 'c' && ents[1].identifier[|front|] == 'o';
    forall n | 0 <= n < |ents|
      ensures !Malformed(ents, n)
    {
      assert n == 0 || n == 1;
    }
  }

  lemma CustomerOrderTables(db: string, schema: string)
    requires !Contains(db, ".") && !Contains(schema, ".")
    ensures TableOf(db + "." + schema + "." + "customers") == Success("customers")
    ensures TableOf(db + "." + schema + "." + "orders") == Success("orders")
  {
    NotContainsChar("customers", '.');
    NotContainsChar("orders", '.');
    TableOfDotted(db, schema, "customers");
    TableOfDotted(db, schema, "orders");
  }

  lemma OrdersCandidate()
    ensures CandidateColumn("orders") == "order_id"
  {
    assert EndsWith("orders", "s");
  }

  /** From an empty graph the nodes are the entities, each once, in source order. */
  lemma {:induction false} AddNodesFromEmpty(count: nat)
    ensures AddNodes([], count) == seq(count, i => i)
  {
    if count > 0 {
      AddNodesFromEmpty(count - 1);
      assert count - 1 !in seq(count - 1, i => i);
    }
  }

  /** Schema precedence as the code has it: a foreign-key edge keeps its
      `from_schema = True` attributes unless the naming heuristic also matches
      the pair, in which case `from_schema` is overwritten with False. */
  lemma SchemaEdgesAfterBuild(ents: seq<Entity>, fks: seq<FkTriple>, k: nat)
    requires TriplesIn(fks, |ents|)
    requires k < |fks| && LastForPair(fks, k)
    requires BuildRelational(EmptyGraph, ents, fks).error.None?
    ensures var r := BuildRelational(EmptyGraph, ents, fks).graph.edges;
      var p := TriplePair(fks[k]);
      && p in r
      && (!InferredPair(ents, AddNodes([], |ents|), p) ==> r[p] == SchemaAttrs(ents, fks[k]))
      && (InferredPair(ents, AddNodes([], |ents|), p) ==> Marked(r, p))
  {
    var nodes := AddNodes([], |ents|);
    var schema := IngestSchema(map[], ents, fks);
    IngestSchemaLastWins(map[], ents, fks, k);
    var p := TriplePair(fks[k]);
    assert Link(p.lo, p.hi) == p && Link(p.hi, p.lo) == p;
    assert p in schema by { assert fks[k] in fks; }
    var pass := InferEdges(schema, ents, nodes);
    assert BuildRelational(EmptyGraph, ents, fks).graph.edges == pass.edges;
    if InferredPair(ents, nodes, p) {
      assert Marked(pass.edges, p) by {
        if Candidate(ents, p.lo, p.hi) {
          assert Marked(pass.edges, Link(p.lo, p.hi));
        } else {
          assert Marked(pass.edges, Link(p.hi, p.lo));
        }
      }
    }
  }

  /** The heuristic never creates a self-edge: every edge joining a node to
      itself after a build from the empty graph is a foreign-key edge. */
  lemma NoInferredSelfEdges(ents: seq<Entity>, fks: seq<FkTriple>, p: Pair)
    requires TriplesIn(fks, |ents|)
    requires p in BuildRelational(EmptyGraph, ents, fks).graph.edges && p.lo == p.hi
    ensures p in PairsOf(fks)
  {
  }
}

=== FILE: seqs.dfy ===
/** Generic sequence helpers: Python list idioms written once. */
module Seqs {

  /** No element occurs twice. */
  predicate NoDup<T(==)>(s: seq<T>) {
    forall i, j :: 0 <= i < j < |s| ==> s[i] != s[j]
  }

  /** Order-preserving de-duplication that keeps each first occurrence
      (pandas `Series.unique()`, or repeated `add_node` on a graph). */
  function Dedup<T(==,!new)>(s: seq<T>): (r: seq<T>)
    ensures NoDup(r)
    ensures forall x :: x in r <==> x in s
    ensures |r| <= |s|
  {
    if |s| == 0 then []
    else
      var r := Dedup(s[..|s| - 1]);
      assert forall x :: x in s <==> x in s[..|s| - 1] || x == s[|s| - 1] by {
        assert s == s[..|s| - 1] + [s[|s| - 1]];
      }
      if s[|s| - 1] in r then r else r + [s[|s| - 1]]
  }

  /** `a` is an order-preserving sublist of `b`: `b` with some elements dropped. */
  predicate Sublist<T(==)>(a: seq<T>, b: seq<T>)
    decreases |b|
  {
    |a| == 0 || (|b| > 0 && ((a[0] == b[0] && Sublist(a[1..], b[1..])) || Sublist(a, b[1..])))
  }

  /** Each element of `r` first occurs in `s` before any occurrence of the
      elements after it in `r`: the order of first appearance. */
  predicate FirstSeenOrder<T(==)>(r: seq<T>, s: seq<T>) {
    forall i, j | 0 <= i < j < |r| :: exists a :: 0 <= a < |s| && s[a] == r[i] && r[j] !in s[..a]
  }

  /** `Dedup` keeps the elements in the order of their first occurrence. */
  lemma {:induction false} DedupOrder<T(!new)>(s: seq<T>)
    ensures Sublist(Dedup(s), s)
    ensures FirstSeenOrder(Dedup(s), s)
  {
    if |s| > 0 {
      var front := s[..|s| - 1];
      var x := s[|s| - 1];
      var r0 := Dedup(front);
      assert s == front + [x];
      DedupOrder(front);
      SublistSnoc(r0, front, x);
      var r := Dedup(s);
      assert r == if x in r0 then r0 else r0 + [x];
      forall i, j | 0 <= i < j < |r|
        ensures exists a :: 0 <= a < |s| && s[a] == r[i] && r[j] !in s[..a]
      {
        assert r[i] == r0[i] && r0[i] in r0;
        var a :| 0 <= a < |front| && front[a] == r0[i] && (j < |r0| ==> r0[j] !in front[..a]);
        assert s[a] == front[a] && s[..a] == front[..a];
        assert j >= |r0| ==> r[j] == x && x !in front;
      }
    }
  }

  /** Appending the same element to both sides keeps a sublist, and so does
      appending to the longer side alone. */
  lemma {:induction false} SublistSnoc<T>(a: seq<T>, b: seq<T>, x: T)
    requires Sublist(a, b)
    ensures Sublist(a, b + [x]) && Sublist(a + [x], b + [x])
    decreases |b|
  {
    if |b| == 0 {
      assert a == [] && (a + [x])[1..] == [];
    } else {
      assert (b + [x])[1..] == b[1..] + [x];
      if |a| == 0 {
        assert a + [x] == [x];
        SublistSnoc(a, b[1..], x);
      } else {
        assert (a + [x])[1..] == a[1..] + [x];
        if a[0] == b[0] && Sublist(a[1..], b[1..]) {
          SublistSnoc(a[1..], b[1..], x);
        } else {
          SublistSnoc(a, b[1..], x);
        }
      }
    }
  }

  /** The list comprehension `[x for x in s if p(x)]`. */
  function Filter<T(!new)>(p: T -> bool, s: seq<T>): (r: seq<T>)
    ensures |r| <= |s|
    ensures forall x :: x in r <==> x in s && p(x)
    ensures Sublist(r, s)
  {
    if |s| == 0 then []
    else
      var rest := Filter(p, s[1..]);
      assert forall x :: x in s <==> x == s[0] || x in s[1..] by {
        assert s == [s[0]] + s[1..];
      }
      if p(s[0]) then
        assert ([s[0]] + rest)[1..] == rest;
        [s[0]] + rest
      else rest
  }

  /** Filtering distributes over concatenation, so a filter keeps input order. */
  lemma {:induction false} FilterAppend<T(!new)>(p: T -> bool, a: seq<T>, b: seq<T>)
    ensures Filter(p, a + b) == Filter(p, a) + Filter(p, b)
  {
    if |a| == 0 {
      assert a + b == b;
    } else {
      assert (a + b)[1..] == a[1..] + b;
      FilterAppend(p, a[1..], b);
    }
  }
}

=== FILE: strings.dfy ===
/** Python `str` operations the core relies on, over `seq<char>`:
    `startswith`, `endswith`, the substring test `t in s`, `split` and `join`. */
module Strings {
  import opened Wrappers

  predicate StartsWith(s: string, prefix: string) {
    |prefix| <= |s| && s[..|prefix|] == prefix
  }

  predicate EndsWith(s: string, suffix: string) {
    |suffix| <= |s| && s[|s| - |suffix|..] == suffix
  }

  /** `t` occurs in `s` starting at position `i`. */
  predicate OccursAt(s: string, t: string, i: int) {
    0 <= i && i + |t| <= |s| && s[i..i + |t|] == t
  }

  /** Python's `t in s` for strings; the empty string is in every string. */
  predicate Contains(s: string, t: string) {
    exists i | 0 <= i <= |s| - |t| :: OccursAt(s, t, i)
  }

  /** Substring containment is transitive. */
  lemma ContainsTransitive(s: string, t: string, u: string)
    requires Contains(s, t) && Contains(t, u)
    ensures Contains(s, u)
  {
    var i :| 0 <= i <= |s| - |t| && OccursAt(s, t, i);
    var j :| 0 <= j <= |t| - |u| && OccursAt(t, u, j);
    assert t == s[i..i + |t|];
    assert forall k :: 0 <= k < |u| ==> u[k] == t[j + k] == s[i + j + k];
    assert s[i + j..i + j + |u|] == u;
    assert OccursAt(s, u, i + j);
  }

  /** Position of the first occurrence of `t` in `s` at or after `from`. */
  function IndexFrom(s: string, t: string, from: nat): (r: Option<nat>)
    requires from <= |s|
    ensures r.Some? ==> from <= r.value && OccursAt(s, t, r.value)
    ensures r.Some? ==> forall j :: from <= j < r.value ==> !OccursAt(s, t, j)
    ensures r.None? ==> forall j :: from <= j ==> !OccursAt(s, t, j)
    decreases |s| - from
  {
    if from + |t| > |s| then None
    else if s[from..from + |t|] == t then Some(from)
    else if from == |s| then None
    else IndexFrom(s, t, from + 1)
  }

  /** Position of the first occurrence of `t` in `s` (Python `s.find(t)`). */
  function IndexOf(s: string, t: string): (r: Option<nat>)
    ensures r.Some? ==> OccursAt(s, t, r.value)
    ensures r.Some? ==> forall j :: 0 <= j < r.value ==> !OccursAt(s, t, j)
    ensures r.None? <==> !Contains(s, t)
  {
    IndexFrom(s, t, 0)
  }

  /** Python `sep.join(parts)`. */
  function Join(parts: seq<string>, sep: string): string {
    if |parts| == 0 then ""
    else if |parts| == 1 then parts[0]
    else parts[0] + sep + Join(parts[1..], sep)
  }

  /** Python `s.split(sep)` for a non-empty separator: the pieces between
      successive non-overlapping occurrences of `sep`, scanning left to right. */
  function Split(s: string, sep: string): (r: seq<string>)
    requires |sep| > 0
    ensures |r| >= 1
    decreases |s|
  {
    match IndexOf(s, sep)
    case None => [s]
    case Some(i) => [s[..i]] + Split(s[i + |sep|..], sep)
  }

  /** Splitting and joining with the same separator are inverse: the pieces
      hold no separator and joining them gives back the string. */
  lemma {:induction false} SplitJoin(s: string, sep: string)
    requires |sep| > 0
    ensures Join(Split(s, sep), sep) == s
    ensures forall k :: 0 <= k < |Split(s, sep)| ==> !Contains(Split(s, sep)[k], sep)
    decreases |s|
  {
    match IndexOf(s, sep)
    case None =>
    case Some(i) =>
      var tail := s[i + |sep|..];
      SplitJoin(tail, sep);
      AroundOccurrence(s, sep, i);
      NoneBeforeFirst(s, sep, i);
      JoinCons(s[..i], Split(tail, sep), sep);
  }

  /** `s` is what precedes an occurrence of `sep`, `sep`, and what follows it. */
  lemma AroundOccurrence(s: string, sep: string, i: nat)
    requires OccursAt(s, sep, i)
    ensures s == s[..i] + sep + s[i + |sep|..]
  {
    assert s == s[..i] + s[i..i + |sep|] + s[i + |sep|..];
  }

  /** Nothing before the first occurrence holds the separator. */
  lemma NoneBeforeFirst(s: string, sep: string, i: nat)
    requires |sep| > 0 && IndexOf(s, sep) == Some(i)
    ensures !Contains(s[..i], sep)
  {
    var head := s[..i];
    forall j | 0 <= j <= |head| - |sep|
      ensures !OccursAt(head, sep, j)
    {
      assert head[j..j + |sep|] == s[j..j + |sep|];
      assert !OccursAt(s, sep, j);
    }
  }

  /** Joining a first piece onto further pieces. */
  lemma JoinCons(head: string, rest: seq<string>, sep: string)
    requires |rest| >= 1
    ensures Join([head] + rest, sep) == head + sep + Join(rest, sep)
    ensures forall k :: 0 < k < |rest| + 1 ==> ([head] + rest)[k] == rest[k - 1]
  {
    assert ([head] + rest)[1..] == rest;
  }

  /** Joining a split prefix and suffix with the separator gives back the
      whole join; used to read off `s.split(sep)[-1]` and `sep.join(s.split(sep)[:-1])`. */
  lemma {:induction false} JoinSplitAt(parts: seq<string>, sep: string, k: nat)
    requires 0 < k < |parts|
    ensures Join(parts[..k], sep) + sep + Join(parts[k..], sep) == Join(parts, sep)
  {
    var tail := parts[1..];
    assert Join(parts, sep) == parts[0] + sep + Join(tail, sep);
    if k == 1 {
      assert parts[..1] == [parts[0]];
    } else {
      JoinSplitAt(tail, sep, k - 1);
      assert tail[..k - 1] == parts[..k][1..];
      assert tail[k - 1..] == parts[k..];
      var front := Join(tail[..k - 1], sep);
      var back := Join(parts[k..], sep);
      assert Join(parts[..k], sep) == parts[0] + sep + front;
      assert front + sep + back == Join(tail, sep);
      assert parts[0] + sep + front + sep + back == parts[0] + sep + (front + sep + back);
    }
  }

  /** A string that lacks a character does not contain it as a substring. */
  lemma NotContainsChar(s: string, c: char)
    requires c !in s
    ensures !Contains(s, [c])
  {
    forall i | 0 <= i <= |s| - 1
      ensures !OccursAt(s, [c], i)
    {
      assert s[i] in s;
      assert s[i..i + 1] == [s[i]];
    }
  }

  /** Splitting on `c` where the first piece holds no `c`: that piece, then
      the pieces of what follows the first `c`. */
  lemma SplitAtFirst(a: string, c: char, b: string)
    requires !Contains(a, [c])
    ensures Split(a + [c] + b, [c]) == [a] + Split(b, [c])
  {
    var s := a + [c] + b;
    assert OccursAt(s, [c], |a|) by {
      assert s[|a|..|a| + 1] == [c];
    }
    assert IndexOf(s, [c]).Some?;
    var i := IndexOf(s, [c]).value;
    if i < |a| {
      assert s[i..i + 1] == a[i..i + 1];
      assert OccursAt(a, [c], i);
      assert false;
    }
    assert s[..|a|] == a && s[|a| + 1..] == b;
  }

  /** `'a.b.c'.split('.')` for dot-free parts. */
  lemma SplitDotted(a: string, b: string, c: string)
    requires !Contains(a, ".") && !Contains(b, ".") && !Contains(c, ".")
    ensures Split(a + "." + b + "." + c, ".") == [a, b, c]
  {
    var rest := b + "." + c;
    assert a + "." + b + "." + c == a + "." + rest;
    SplitAtFirst(a, '.', rest);
    SplitAtFirst(b, '.', c);
    assert Split(c, ".") == [c];
  }

  /** Number of occurrences of character `c` in `s`. */
  function CountChar(s: string, c: char): nat {
    multiset(s)[c]
  }

  /** Splitting on a single character yields one more piece than there are
      occurrences of that character. */
  lemma {:induction false} SplitCharCount(s: string, c: char)
    ensures |Split(s, [c])| == CountChar(s, c) + 1
    decreases |s|
  {
    match IndexOf(s, [c])
    case None =>
      forall j | 0 <= j < |s|
        ensures s[j] != c
      {
        assert !OccursAt(s, [c], j);
        assert s[j..j + 1] == [s[j]];
      }
      assert c !in multiset(s);
    case Some(i) =>
      var head := s[..i];
      var rest := s[i + 1..];
      SplitCharCount(rest, c);
      NoneBeforeFirst(s, [c], i);
      forall j | 0 <= j < |head|
        ensures head[j] != c
      {
        assert !OccursAt(head, [c], j);
        assert head[j..j + 1] == [head[j]];
      }
      assert c !in multiset(head);
      AroundOccurrence(s, [c], i);
      assert Split(s, [c]) == [head] + Split(rest, [c]);
  }

  /** Writing `s` as a front part, the separator and a last part. */
  lemma SeparatorBeforeLast(s: string, front: string, sep: string, r: string)
    requires s == front + sep + r
    ensures EndsWith(s, sep + r) && EndsWith(s, r)
  {
    assert s == front + (sep + r);
    assert s[|s| - |sep + r|..] == sep + r;
    assert s[|s| - |r|..] == r;
  }

  /** The last piece of a split holds no separator and ends the string; when
      there are several pieces, the others joined, the separator and the last
      piece give back the string. */
  lemma LastOfSplit(s: string, sep: string)
    requires |sep| > 0
    ensures var parts := Split(s, sep);
      var r := parts[|parts| - 1];
      && !Contains(r, sep)
      && (|parts| == 1 ==> r == s)
      && (|parts| > 1 ==> s == Join(parts[..|parts| - 1], sep) + sep + r)
  {
    var parts := Split(s, sep);
    var n := |parts|;
    SplitJoin(s, sep);
    if n > 1 {
      JoinSplitAt(parts, sep, n - 1);
      assert parts[n - 1..] == [parts[n - 1]];
    }
  }

  /** The last `sep`-separated component (`s.split(sep)[-1]`): it holds no
      separator, and it is either all of `s` or what follows the last separator. */
  function LastPiece(s: string, sep: string): (r: string)
    requires |sep| > 0
    ensures !Contains(r, sep)
    ensures EndsWith(s, r)
    ensures r == s || EndsWith(s, sep + r)
  {
    var parts := Split(s, sep);
    LastOfSplit(s, sep);
    if |parts| == 1 then
      assert s[|s| - |s|..] == s;
      parts[0]
    else
      SeparatorBeforeLast(s, Join(parts[..|parts| - 1], sep), sep, parts[|parts| - 1]);
      parts[|parts| - 1]
  }

  /** `sep.join(s.split(sep)[:-1])`: `s` with its last `sep`-separated token
      and the separator before it removed; the empty string when `s` has no `sep`. */
  function DropLastPiece(s: string, sep: string): (r: string)
    requires |sep| > 0
    ensures !Contains(s, sep) ==> r == ""
    ensures Contains(s, sep) ==> s == r + sep + LastPiece(s, sep)
  {
    var parts := Split(s, sep);
    LastOfSplit(s, sep);
    if |parts| == 1 then ""
    else Join(parts[..|parts| - 1], sep)
  }
}

=== FILE: warehouse.dfy ===
/** The warehouse network of `examples/snowflake_example.py`: every table is a
    node (identified by its position, as the example's node identifiers are
    distinct), two distinct tables are linked when they share a column whose
    name ends in `ID`, and each edge's `link_on` attribute lists the shared
    names that produced it. Also the `date_columns` annotation the example
    adds to every node. */
module Warehouse {
  import opened Wrappers
  import opened Seqs
  import opened Strings
  import G = EntityGraph

  datatype Column = Column(name: string, colType: string)

  /** A table node; `dateColumns` is its `date_columns` attribute, absent
      (`None`) until the date columns have been extracted. */
  datatype Table = Table(name: string, columns: seq<Column>, dateColumns: Option<seq<Column>>)

  // ------------------------------------------------------------ date columns

  /** The example's type test: the type names one of seven date/time tokens. */
  predicate IsDateType(t: string) {
    Contains(t, "DATE") || Contains(t, "TIMESTAMP") || Contains(t, "DATETIME")
    || Contains(t, "TIME") || Contains(t, "TIMESTAMP_LTZ")
    || Contains(t, "TIMESTAMP_NTZ") || Contains(t, "TIMESTAMP_TZ")
  }

  predicate IsDateColumn(c: Column) {
    IsDateType(c.colType)
  }

  /** A string containing `token` contains every prefix of `token`. */
  lemma {:induction false} TokenPrefix(t: string, token: string, pre: string)
    requires Contains(t, token) && StartsWith(token, pre)
    ensures Contains(t, pre)
  {
    assert OccursAt(token, pre, 0);
    ContainsTransitive(t, token, pre);
  }

  /** Five of the seven tokens are redundant: every one of them starts with
      `DATE` or `TIME`. */
  lemma {:induction false} DateTypeIsDateOrTime(t: string)
    ensures IsDateType(t) <==> Contains(t, "DATE") || Contains(t, "TIME")
  {
    if Contains(t, "TIMESTAMP") { TokenPrefix(t, "TIMESTAMP", "TIME"); }
    if Contains(t, "DATETIME") { TokenPrefix(t, "DATETIME", "DATE"); }
    if Contains(t, "TIMESTAMP_LTZ") { TokenPrefix(t, "TIMESTAMP_LTZ", "TIME"); }
    if Contains(t, "TIMESTAMP_NTZ") { TokenPrefix(t, "TIMESTAMP_NTZ", "TIME"); }
    if Contains(t, "TIMESTAMP_TZ") { TokenPrefix(t, "TIMESTAMP_TZ", "TIME"); }
  }

  lemma AllDateTypesAreDateOrTime()
    ensures forall t :: IsDateType(t) <==> Contains(t, "DATE") || Contains(t, "TIME")
  {
    forall t ensures IsDateType(t) <==> Contains(t, "DATE") || Contains(t, "TIME") {
      DateTypeIsDateOrTime(t);
    }
  }

  /** `extract_date_cols`: every node gains the order-preserving sublist of its
      columns whose type mentions a date or a time (the comprehension over the
      seven tokens); nothing else about the node changes. */
  function ExtractDateCols(ts: seq<Table>): (r: seq<Table>)
    ensures |r| == |ts|
    ensures forall i | 0 <= i < |ts| ::
      r[i].name == ts[i].name && r[i].columns == ts[i].columns && r[i].dateColumns.Some?
      && |r[i].dateColumns.value| <= |ts[i].columns|
    ensures forall i, c | 0 <= i < |ts| ::
      c in r[i].dateColumns.value
      <==> c in ts[i].columns && (Contains(c.colType, "DATE") || Contains(c.colType, "TIME"))
    ensures forall i | 0 <= i < |ts| :: Sublist(r[i].dateColumns.value, ts[i].columns)
    ensures forall i | 0 <= i < |ts| :: r[i].dateColumns == Some(Filter(IsDateColumn, ts[i].columns))
  {
    AllDateTypesAreDateOrTime();
    seq(|ts|, i requires 0 <= i < |ts| =>
      ts[i].(dateColumns := Some(Filter(IsDateColumn, ts[i].columns))))
  }

  // ------------------------------------------------------- the link network

  /** Edge attributes: `Some(links)` for an edge carrying `link_on`, `None`
      for an edge without it, whose `link_on` lookup raises `KeyError`. */
  type LinkEdges = map<G.Pair, Option<seq<string>>>

  predicate HasColumn(t: Table, c: string) {
    exists col | col in t.columns :: col.name == c
  }

  /** The example treats a column as a key when its name ends in `ID`. */
  predicate IsKeyName(c: string) {
    EndsWith(c, "ID")
  }

  /** Tables `i` and `j` are distinct and both have the key column `c`. */
  predicate SharesKey(ts: seq<Table>, i: nat, j: nat, c: string) {
    i < |ts| && j < |ts| && i != j && IsKeyName(c) && HasColumn(ts[i], c) && HasColumn(ts[j], c)
  }

  /** The edge `p` exists, carries `link_on`, and lists `c` in it. */
  predicate Has(e: LinkEdges, p: G.Pair, c: string) {
    p in e && e[p].Some? && c in e[p].value
  }

  /** Every edge carries `link_on` (so no lookup raises). */
  predicate AllLinked(e: LinkEdges) {
    forall p | p in e :: e[p].Some?
  }

  /** No `link_on` list repeats a name. */
  ghost predicate DistinctLinks(e: LinkEdges) {
    forall p | p in e && e[p].Some? :: NoDup(e[p].value)
  }

  /** Every pair of distinct tables sharing a key column is linked on it. */
  ghost predicate Complete(ts: seq<Table>, e: LinkEdges) {
    forall i, j, c | SharesKey(ts, i, j, c) :: Has(e, G.Link(i, j), c)
  }

  /** Edges are never removed, an edge without `link_on` keeps lacking it,
      and a `link_on` list only grows at its end. */
  ghost predicate KeepsEdges(e: LinkEdges, e': LinkEdges) {
    && e.Keys <= e'.Keys
    && (forall p | p in e && e[p].None? :: e'[p].None?)
    && (forall p | p in e && e[p].Some? :: e'[p].Some? && e[p].value <= e'[p].value)
  }

  /** Every name in a `link_on` list of `e'` was there in `e` or is a key
      column shared by the two tables. */
  ghost predicate Justified(ts: seq<Table>, e: LinkEdges, e': LinkEdges) {
    forall p, x | p in e' && e'[p].Some? && x in e'[p].value ::
      Has(e, p, x) || SharesKey(ts, p.lo, p.hi, x)
  }

  /** An edge that `e` lacks is created with a non-empty `link_on`. */
  ghost predicate NewAreLinked(e: LinkEdges, e': LinkEdges) {
    forall p | p in e' && p !in e :: e'[p].Some? && |e'[p].value| > 0
  }

  ghost predicate Grows(ts: seq<Table>, e: LinkEdges, e': LinkEdges) {
    KeepsEdges(e, e') && Justified(ts, e, e') && NewAreLinked(e, e')
  }

  /** One pass of the innermost loop body: link tables `i` and `j` on `c`.
      `None` is the `KeyError` of an existing edge without `link_on`. */
  function LinkOn(e: LinkEdges, i: nat, j: nat, c: string): (r: Option<LinkEdges>)
    ensures r.None? <==> G.Link(i, j) in e && e[G.Link(i, j)].None?
    ensures r.Some? ==> r.value.Keys == e.Keys + {G.Link(i, j)} && Has(r.value, G.Link(i, j), c)
    ensures r.Some? ==> forall p | p in e && p != G.Link(i, j) :: r.value[p] == e[p]
    ensures r.Some? && G.Link(i, j) in e ==> e[G.Link(i, j)].value <= r.value[G.Link(i, j)].value
    ensures r.Some? ==> forall x | x in r.value[G.Link(i, j)].value :: x == c || Has(e, G.Link(i, j), x)
    ensures r.Some? && Has(e, G.Link(i, j), c) ==> r.value == e
    ensures r.Some? && DistinctLinks(e) ==> DistinctLinks(r.value)
  {
    var p := G.Link(i, j);
    if p in e then
      match e[p]
      case None => None
      case Some(links) =>
        if c in links then Some(e)
        else
          assert NoDup(links) ==> NoDup(links + [c]);
          Some(e[p := Some(links + [c])])
    else Some(e[p := Some([c])])
  }

  /** The `db2` loop for table `i` and key column `c`, from position `j` on;
      a `KeyError` abandons the rest of the loop and keeps the edges so far. */
  function Across(ts: seq<Table>, e: LinkEdges, i: nat, c: string, j: nat): LinkEdges
    decreases |ts| - j
  {
    if j >= |ts| then e
    else if j != i && HasColumn(ts[j], c) then
      match LinkOn(e, i, j, c)
      case None => e
      case Some(e') => Across(ts, e', i, c, j + 1)
    else Across(ts, e, i, c, j + 1)
  }

  /** The column loop of table `i`, from its `k`-th column on. */
  function Columns(ts: seq<Table>, e: LinkEdges, i: nat, k: nat): LinkEdges
    requires i < |ts|
    decreases |ts[i].columns| - k
  {
    if k >= |ts[i].columns| then e
    else
      var c := ts[i].columns[k].name;
      var e' := if IsKeyName(c) then Across(ts, e, i, c, 0) else e;
      Columns(ts, e', i, k + 1)
  }

  /** The outer loop over tables, from position `i` on. */
  function Tables(ts: seq<Table>, e: LinkEdges, i: nat): LinkEdges
    decreases |ts| - i
  {
    if i >= |ts| then e else Tables(ts, Columns(ts, e, i, 0), i + 1)
  }

  // ---------------------------------------------------------------- growth

  lemma GrowsReflexive(ts: seq<Table>, e: LinkEdges)
    ensures Grows(ts, e, e)
  {
  }

  lemma {:induction false} GrowsTransitive(ts: seq<Table>, e1: LinkEdges, e2: LinkEdges, e3: LinkEdges)
    requires Grows(ts, e1, e2) && Grows(ts, e2, e3)
    ensures Grows(ts, e1, e3)
  {
    forall p, x | p in e3 && e3[p].Some? && x in e3[p].value
      ensures Has(e1, p, x) || SharesKey(ts, p.lo, p.hi, x)
    {
      assert Has(e2, p, x) || SharesKey(ts, p.lo, p.hi, x);
    }
    forall p | p in e3 && p !in e1
      ensures e3[p].Some? && |e3[p].value| > 0
    {
      if p in e2 {
        assert e2[p].value <= e3[p].value;
      }
    }
  }

  /** A name already listed on an edge stays listed as the edges grow. */
  lemma HasKept(ts: seq<Table>, e: LinkEdges, e': LinkEdges, p: G.Pair, c: string)
    requires Grows(ts, e, e') && Has(e, p, c)
    ensures Has(e', p, c)
  {
    var k :| 0 <= k < |e[p].value| && e[p].value[k] == c;
    assert e[p].value <= e'[p].value;
    assert e'[p].value[k] == c;
  }

  lemma LinkOnGrows(ts: seq<Table>, e: LinkEdges, i: nat, j: nat, c: string)
    requires SharesKey(ts, i, j, c) && LinkOn(e, i, j, c).Some?
    ensures Grows(ts, e, LinkOn(e, i, j, c).value)
  {
  }

  lemma {:induction false} AcrossGrows(ts: seq<Table>, e: LinkEdges, i: nat, c: string, j: nat)
    requires i < |ts| && IsKeyName(c) && HasColumn(ts[i], c)
    ensures Grows(ts, e, Across(ts, e, i, c, j))
    ensures DistinctLinks(e) ==> DistinctLinks(Across(ts, e, i, c, j))
    decreases |ts| - j
  {
    if j >= |ts| {
      GrowsReflexive(ts, e);
    } else if j != i && HasColumn(ts[j], c) {
      match LinkOn(e, i, j, c)
      case None => GrowsReflexive(ts, e);
      case Some(e') =>
        LinkOnGrows(ts, e, i, j, c);
        AcrossGrows(ts, e', i, c, j + 1);
        GrowsTransitive(ts, e, e', Across(ts, e', i, c, j + 1));
    } else {
      AcrossGrows(ts, e, i, c, j + 1);
    }
  }

  lemma {:induction false} ColumnsGrows(ts: seq<Table>, e: LinkEdges, i: nat, k: nat)
    requires i < |ts|
    ensures Grows(ts, e, Columns(ts, e, i, k))
    ensures DistinctLinks(e) ==> DistinctLinks(Columns(ts, e, i, k))
    decreases |ts[i].columns| - k
  {
    if k >= |ts[i].columns| {
      GrowsReflexive(ts, e);
    } else {
      var c := ts[i].columns[k].name;
      assert HasColumn(ts[i], c) by { assert ts[i].columns[k] in ts[i].columns; }
      var e' := if IsKeyName(c) then Across(ts, e, i, c, 0) else e;
      if IsKeyName(c) { AcrossGrows(ts, e, i, c, 0); } else { GrowsReflexive(ts, e); }
      ColumnsGrows(ts, e', i, k + 1);
      GrowsTransitive(ts, e, e', Columns(ts, e', i, k + 1));
    }
  }

  lemma {:induction false} TablesGrows(ts: seq<Table>, e: LinkEdges, i: nat)
    ensures Grows(ts, e, Tables(ts, e, i))
    ensures DistinctLinks(e) ==> DistinctLinks(Tables(ts, e, i))
    decreases |ts| - i
  {
    if i >= |ts| {
      GrowsReflexive(ts, e);
    } else {
      var e' := Columns(ts, e, i, 0);
      ColumnsGrows(ts, e, i, 0);
      TablesGrows(ts, e', i + 1);
      GrowsTransitive(ts, e, e', Tables(ts, e', i + 1));
    }
  }

  // ---------------------------------------------------------- completeness

  lemma GrowsKeepsAllLinked(ts: seq<Table>, e: LinkEdges, e': LinkEdges)
    requires Grows(ts, e, e') && AllLinked(e)
    ensures AllLinked(e')
  {
  }

  lemma {:induction false} AcrossCovers(ts: seq<Table>, e: LinkEdges, i: nat, c: string, j: nat)
    requires AllLinked(e) && i < |ts| && IsKeyName(c) && HasColumn(ts[i], c)
    ensures forall j' | j <= j' < |ts| && j' != i && HasColumn(ts[j'], c) ::
      Has(Across(ts, e, i, c, j), G.Link(i, j'), c)
    decreases |ts| - j
  {
    if j < |ts| {
      if j != i && HasColumn(ts[j], c) {
        var e' := LinkOn(e, i, j, c).value;
        LinkOnGrows(ts, e, i, j, c);
        GrowsKeepsAllLinked(ts, e, e');
        AcrossCovers(ts, e', i, c, j + 1);
        AcrossGrows(ts, e', i, c, j + 1);
        HasKept(ts, e', Across(ts, e', i, c, j + 1), G.Link(i, j), c);
      } else {
        AcrossCovers(ts, e, i, c, j + 1);
      }
    }
  }

  lemma {:induction false} ColumnsCovers(ts: seq<Table>, e: LinkEdges, i: nat, k: nat)
    requires AllLinked(e) && i < |ts|
    ensures forall k', j' | k <= k' < |ts[i].columns| && SharesKey(ts, i, j', ts[i].columns[k'].name) ::
      Has(Columns(ts, e, i, k), G.Link(i, j'), ts[i].columns[k'].name)
    decreases |ts[i].columns| - k
  {
    if k < |ts[i].columns| {
      var c := ts[i].columns[k].name;
      assert HasColumn(ts[i], c) by { assert ts[i].columns[k] in ts[i].columns; }
      var e' := if IsKeyName(c) then Across(ts, e, i, c, 0) else e;
      if IsKeyName(c) { AcrossGrows(ts, e, i, c, 0); AcrossCovers(ts, e, i, c, 0); }
      else { GrowsReflexive(ts, e); }
      GrowsKeepsAllLinked(ts, e, e');
      ColumnsCovers(ts, e', i, k + 1);
      ColumnsGrows(ts, e', i, k + 1);
      forall j' | SharesKey(ts, i, j', c) ensures Has(Columns(ts, e, i, k), G.Link(i, j'), c) {
        HasKept(ts, e', Columns(ts, e', i, k + 1), G.Link(i, j'), c);
      }
    }
  }

  /** Table `i` linked on every key column it shares. */
  ghost predicate CoveredFrom(ts: seq<Table>, e: LinkEdges, i: nat) {
    forall i', j', c | i <= i' && SharesKey(ts, i', j', c) :: Has(e, G.Link(i', j'), c)
  }

  lemma ColumnsCoverTable(ts: seq<Table>, e: LinkEdges, i: nat, j': nat, c: string)
    requires AllLinked(e) && SharesKey(ts, i, j', c)
    ensures Has(Columns(ts, e, i, 0), G.Link(i, j'), c)
  {
    var col :| col in ts[i].columns && col.name == c;
    var k' :| 0 <= k' < |ts[i].columns| && ts[i].columns[k'] == col;
    ColumnsCovers(ts, e, i, 0);
  }

  lemma {:induction false} TablesCovers(ts: seq<Table>, e: LinkEdges, i: nat)
    requires AllLinked(e)
    ensures CoveredFrom(ts, Tables(ts, e, i), i)
    decreases |ts| - i
  {
    if i < |ts| {
      var e' := Columns(ts, e, i, 0);
      ColumnsGrows(ts, e, i, 0);
      GrowsKeepsAllLinked(ts, e, e');
      TablesCovers(ts, e', i + 1);
      TablesGrows(ts, e', i + 1);
      forall i', j', c | i <= i' && SharesKey(ts, i', j', c)
        ensures Has(Tables(ts, e, i), G.Link(i', j'), c)
      {
        if i' == i {
          ColumnsCoverTable(ts, e, i, j', c);
          HasKept(ts, e', Tables(ts, e', i + 1), G.Link(i', j'), c);
        }
      }
    }
  }

  // ------------------------------------------------------------- no-ops

  lemma {:induction false} AcrossNoOp(ts: seq<Table>, e: LinkEdges, i: nat, c: string, j: nat)
    requires forall j' | j <= j' < |ts| && j' != i && HasColumn(ts[j'], c) :: Has(e, G.Link(i, j'), c)
    ensures Across(ts, e, i, c, j) == e
    decreases |ts| - j
  {
    if j < |ts| {
      AcrossNoOp(ts, e, i, c, j + 1);
    }
  }

  lemma {:induction false} ColumnsNoOp(ts: seq<Table>, e: LinkEdges, i: nat, k: nat)
    requires i < |ts| && Complete(ts, e)
    ensures Columns(ts, e, i, k) == e
    decreases |ts[i].columns| - k
  {
    if k < |ts[i].columns| {
      var c := ts[i].columns[k].name;
      if IsKeyName(c) {
        assert HasColumn(ts[i], c) by { assert ts[i].columns[k] in ts[i].columns; }
        forall j' | 0 <= j' < |ts| && j' != i && HasColumn(ts[j'], c) ensures Has(e, G.Link(i, j'), c) {
          assert SharesKey(ts, i, j', c);
        }
        AcrossNoOp(ts, e, i, c, 0);
      }
      ColumnsNoOp(ts, e, i, k + 1);
    }
  }

  lemma {:induction false} TablesNoOp(ts: seq<Table>, e: LinkEdges, i: nat)
    requires Complete(ts, e)
    ensures Tables(ts, e, i) == e
    decreases |ts| - i
  {
    if i < |ts| {
      ColumnsNoOp(ts, e, i, 0);
      TablesNoOp(ts, e, i + 1);
    }
  }

  // ------------------------------------------------------- the whole build

  /** A new edge joins two distinct tables: its first link name is a key
      column they share. */
  lemma NewEdgesJoinTables(ts: seq<Table>, e: LinkEdges, r: LinkEdges)
    requires Grows(ts, e, r)
    ensures forall p | p in r && p !in e :: p.lo != p.hi && p.hi < |ts|
  {
    forall p | p in r && p !in e ensures p.lo != p.hi && p.hi < |ts| {
      var x := r[p].value[0];
      assert x in r[p].value && !Has(e, p, x);
    }
  }

  /** `build_warehouse_network`: links are only ever added between distinct
      tables sharing a key column, never repeated in a `link_on` list, and,
      when every existing edge carries `link_on`, every such pair ends up
      linked on every key column it shares. */
  function BuildWarehouseNetwork(ts: seq<Table>, e: LinkEdges): (r: LinkEdges)
    ensures Grows(ts, e, r)
    ensures forall p | p in r && p !in e :: p.lo != p.hi && p.hi < |ts|
    ensures DistinctLinks(e) ==> DistinctLinks(r)
    ensures AllLinked(e) ==> AllLinked(r) && Complete(ts, r)
  {
    TablesGrows(ts, e, 0);
    NewEdgesJoinTables(ts, e, Tables(ts, e, 0));
    if AllLinked(e) then
      TablesCovers(ts, e, 0);
      GrowsKeepsAllLinked(ts, e, Tables(ts, e, 0));
      Tables(ts, e, 0)
    else Tables(ts, e, 0)
  }

  /** On a graph whose edges all carry `link_on` (as in the example, where
      the nodes are added without edges), re-running the build adds nothing. */
  lemma WarehouseNetworkIdempotent(ts: seq<Table>, e: LinkEdges)
    requires AllLinked(e)
    ensures BuildWarehouseNetwork(ts, BuildWarehouseNetwork(ts, e)) == BuildWarehouseNetwork(ts, e)
  {
    var r := BuildWarehouseNetwork(ts, e);
    TablesNoOp(ts, r, 0);
  }

  /** The swallowed `KeyError` loses links: three tables sharing `AID`, with
      edges lacking `link_on` between table 0 and each of the others, leave
      tables 1 and 2 unlinked, because both of their scans stop at table 0. */
  lemma KeyErrorLosesLink()
    ensures var ts := [ Table("A", [Column("AID", "NUMBER")], None)
                      , Table("B", [Column("AID", "NUMBER")], None)
                      , Table("C", [Column("AID", "NUMBER")], None) ];
            var e: LinkEdges := map[G.Pair(0, 1) := None, G.Pair(0, 2) := None];
            SharesKey(ts, 1, 2, "AID") && !Has(BuildWarehouseNetwork(ts, e), G.Link(1, 2), "AID")
  {
    var ts := [ Table("A", [Column("AID", "NUMBER")], None)
              , Table("B", [Column("AID", "NUMBER")], None)
              , Table("C", [Column("AID", "NUMBER")], None) ];
    var e: LinkEdges := map[G.Pair(0, 1) := None, G.Pair(0, 2) := None];
    assert IsKeyName("AID");
    forall t | 0 <= t < 3 ensures HasColumn(ts[t], "AID") {
      assert ts[t].columns[0] in ts[t].columns;
    }
    assert Across(ts, e, 0, "AID", 1) == e;
    assert Across(ts, e, 0, "AID", 0) == e;
    assert Columns(ts, e, 0, 0) == e;
    assert Across(ts, e, 1, "AID", 0) == e;
    assert Columns(ts, e, 1, 0) == e;
    assert Across(ts, e, 2, "AID", 0) == e;
    assert Columns(ts, e, 2, 0) == e;
    assert Tables(ts, e, 3) == e;
    assert Tables(ts, e, 2) == e;
    assert Tables(ts, e, 1) == e;
    assert Tables(ts, e, 0) == e;
  }
}

=== FILE: wrappers.dfy ===
/** Failure-compatible result types used across the model: a Python `None`
    becomes `None`, a raised exception becomes `Failure`. */
module Wrappers {

  datatype Option<+T> = None | Some(value: T) {
    function GetOr(default: T): T {
      match this
      case Some(v) => v
      case None => default
    }
  }

  datatype Result<+R, +E> = Success(value: R) | Failure(error: E) {
    predicate IsFailure() {
      Failure?
    }

    function PropagateFailure<U>(): Result<U, E>
      requires Failure?
    {
      Failure(error)
    }

    function Extract(): R
      requires Success?
    {
      value
    }
  }
}
